=== FILE: README.md ===
# BanShield, modelled in Dafny

BanShield watches a Steam profile and moves its items to a backup ("bank")
account as soon as a fresh ban appears on the profile page.

- `BanChecker.py` polls the profile page every `CHECK_INTERVAL` seconds.
  - It turns each page into a result line (`[ALERT]`, `[OK]` or `[ERROR]`).
  - A first `[ALERT]` is confirmed by ten more samples. Two alerts are the quorum.
  - A confirmed ban hands off to `SendTrade.js` and launches the watchdog.
  - A dry run rehearses a simulated ban on a randomly drawn check (3 to 10). It then hands off to `SendTrade.js` with `BANSHIELD_DRY_RUN=1`.
- `SendTrade.js` collects the selected inventories. A dry run only lists the item names. A live run offers every item to the bank account with a random URL-safe trade key as the offer's message, then confirms the offer.
- `AutoAccept.js` runs on the bank account. It accepts only an active offer that carries that key, gives nothing away, brings something and, when configured, comes from the expected sender.
- `TelegramInformer.py` keeps a single notification message in a chat. Each new message replaces the last one, and a reset clears the last fifteen ids.
- `BanShieldGUI.py` is the control panel:
  - it loads and saves the `.env` settings;
  - it starts, stops and restarts the checker, also on a crash or every two hours;
  - it colours the log lines and turns the checker's output into a status.

The project has one module per program, plus two shared modules:

| file | module | what it holds |
|---|---|---|
| `wrappers.dfy` | `Wrappers` | `Option` |
| `text.dfy` | `Text` | substring search, ASCII lower case, `strip`, `split`/`join`, decimal text |
| `ban_checker.dfy` | `BanChecker` | settings, `prepare_profile_url`, `check_ban` on a fetched page, `multi_check_ban`, the simulation draw |
| `poll_loop.dfy` | `PollLoop` | the `__main__` loop: pure `Step`/`Run`, and the class `Monitor` proved equal to them |
| `telegram.dfy` | `Telegram` | the pure `SendLogSpec`/`ResetSpec`, and the class `Channel` whose methods follow them |
| `send_trade.dfy` | `SendTrade` | base64 and the trade key, the inventory selection, the collecting loop, the live path |
| `auto_accept.dfy` | `AutoAccept` | the start-up checks, the key mask, the offer filter and the polling loop |
| `control_panel.dfy` | `ControlPanel` | settings load/save, log colours and statuses, the restart rules, and the class `Panel` |

The outside world is always an input:

- the page a fetch returned;
- the replies of the Telegram and Steam APIs;
- the random draws and bytes;
- the clock reading.

What a program does to the world is recorded:

- the poll loop keeps a trace of effects (notify, hand off, launch watchdog, sleep);
- the Telegram channel keeps a trace of the API calls it made;
- the panel keeps the list of checker launches.

The fresh-ban rule follows the code. A ban counts as fresh when the lowercased page text contains `"0 day(s) since last ban"` as a substring. The stated intent is that only a zero-day-old ban is fresh. As written, though, any count ending in 0 (`"10 day(s) since last ban"`) also counts as fresh. `BanChecker.TrailingZeroCountIsFresh` proves this. `BanChecker.NonZeroDayCountIsStale` proves that every count whose last digit is not 0 is an old ban.

## Model

| member | source | states |
|---|---|---|
| BanChecker.ClampInterval | BanChecker.py:27-29 | the interval always lies in 20..300; a value already in range is kept, a smaller one becomes 20 and a larger one 300 |
| BanChecker.TelegramNotify | BanChecker.py:25 | TELEGRAM_NOTIFY: the variable, "true" when unset, compared case-insensitively with "true" |
| BanChecker.IsDryRun | BanChecker.py:32 | IS_DRY_RUN: BANSHIELD_DRY_RUN is exactly "1", or "--dry-run" is among the arguments |
| BanChecker.PrepareProfileUrl | BanChecker.py:51-56 | the configured URL is a prefix of the result, and the result asks for the English page |
| BanChecker.PrepareProfileUrlCases | BanChecker.py:51-56 | a URL holding `?l=english` is kept; one with another `?` gets `&l=english`; one without `?` gets `?l=english` |
| BanChecker.PrepareStableWithoutQuery | BanChecker.py:51-56 | a URL without `?` gains `?l=english`, and preparing it again changes nothing |
| BanChecker.PrepareOtherQuery | BanChecker.py:54-55 | a URL with another query string gains `&l=english` |
| BanChecker.PrepareNotIdempotent | BanChecker.py:51-56 | preparing such a URL twice appends `&l=english` twice: the function is not idempotent |
| BanChecker.FirstBanNodeFrom | BanChecker.py:72-74 | the first text node from a position on whose lowercased text holds the ban phrase; no node before it matches; None means none matches |
| BanChecker.IsBanNode | BanChecker.py:72-74 | the search lambda: a text node is the ban node exactly when its lowercased text holds "day(s) since last ban" |
| BanChecker.FirstBanNode | BanChecker.py:72-74 | `soup.find`: the first matching node in document order, None exactly when no node matches |
| BanChecker.Classify | BanChecker.py:59-91 | the verdict of check_ban: an exception or a status other than 200 is an error; no ban node is clean; otherwise the first node is fresh when it holds the "0 day(s) since last ban" phrase, stale when not |
| BanChecker.Render | BanChecker.py:80-91 | the line check_ban returns for each verdict: the ALERT line, the stale-ban line, `[OK] NO BAN` or the ERROR line with its detail |
| BanChecker.CheckBan | BanChecker.py:59-91 | check_ban on a fetch outcome: the rendered verdict (its tags are stated by CheckBanTags) |
| BanChecker.RenderTags | BanChecker.py:80-91 | the result line holds `[ALERT]` exactly for a fresh ban and `[ERROR]` exactly for an error, when the carried text holds no `[` |
| BanChecker.CheckBanTags | BanChecker.py:59-91 | for a page whose text holds no `[`, `"[ALERT]" in result` means a fresh ban and `"[ERROR]" in result` means a failed check |
| BanChecker.FreshLineTags | BanChecker.py:82 | a fresh-ban line carries `[ALERT]` and not `[ERROR]` |
| BanChecker.StaleLineTags | BanChecker.py:85 | an old-ban line carries neither tag |
| BanChecker.CleanLineTags | BanChecker.py:88 | the no-ban line carries neither tag |
| BanChecker.ErrorLineTags | BanChecker.py:91 | an error line carries `[ERROR]`, and no `[ALERT]` unless its detail brings one |
| BanChecker.FailedFetchIsError | BanChecker.py:64-91 | a non-200 status or an exception is an error, reported with `[ERROR]` and, apart from the message's own text, without `[ALERT]` |
| BanChecker.AlertTagInMessageLeaks | BanChecker.py:90-91 | an exception message holding `[ALERT]` makes the error line count as an alert too |
| BanChecker.NoBanNodeIsClean | BanChecker.py:88 | a page without a ban node gives `[OK] NO BAN` |
| BanChecker.FirstBanNodeDecides | BanChecker.py:72-85 | nodes after the first ban node do not change the verdict |
| BanChecker.TrailingZeroCountIsFresh | BanChecker.py:80-82 | any day count ending in 0 classifies as a fresh ban |
| BanChecker.NonZeroDayCountIsStale | BanChecker.py:83-85 | a day count whose last digit is not 0 classifies as an old ban |
| BanChecker.NoFreshPhraseAfterNonZero | BanChecker.py:80 | such a node never contains the fresh-ban phrase |
| BanChecker.CountTagged | BanChecker.py:108-111 | the number of lines holding a tag: zero exactly when no line holds it, all of them exactly when every line holds it, never more than the lines; AlertsCountFreshSamples gives the count on sampled pages |
| BanChecker.Samples | BanChecker.py:104-106 | the lines of `n` consecutive check_ban calls, the i-th on the i-th fetch |
| BanChecker.Confirmed | BanChecker.py:104-116 | the sampler's verdict: at least `quorum` of the `total` samples carry ALERT |
| BanChecker.MultiCheckBan | BanChecker.py:100-116 | exactly `total_checks` samples in order (none when negative), each followed by a wait of `wait_seconds`; the alert and error counts are the tagged lines; confirmed exactly when alerts reach `min_alerts`, whatever the errors |
| BanChecker.SamplesGrow | BanChecker.py:104-106 | each sample appends its line to the list of results |
| BanChecker.AlertsCountFreshSamples | BanChecker.py:108-109 | on plain pages the alert count is the number of fresh-ban samples |
| BanChecker.QuorumIsFreshCount | BanChecker.py:114-116 | a pass is confirmed exactly when at least the quorum of samples are fresh bans; with quorum 2 a single fresh sample is not enough |
| BanChecker.InitSimOnceDrawsOnce | BanChecker.py:40-44 | the first draw of trigger and kind is kept for the whole run; later calls change nothing |
| BanChecker.InitSimOnce | BanChecker.py:40-44 | _init_sim_once: the first call stores the drawn check and ban kind; a plan already drawn is kept |
| BanChecker.ChildDryRunFlag | BanChecker.py:118-128 | the child's BANSHIELD_DRY_RUN: "1" for a rehearsal, inherited from the parent otherwise |
| PollLoop.ConfigOf | BanChecker.py:24-32 | the settings: a set CHECK_INTERVAL clamped to 20..300 and kept when already in range, 20 when unset; the profile as set, empty when unset; notifications on when TelegramNotify is unset, otherwise exactly when it is "true" in any case; dry run exactly when the flag is `"1"` or `--dry-run` is an argument |
| PollLoop.Notified | BanChecker.py:164-165 | a notice is sent exactly when TELEGRAM_NOTIFY is on |
| PollLoop.Startup | BanChecker.py:139-153 | the channel is reset first; an empty profile ends with exit 1, otherwise polling starts at check 0 on `PrepareProfileUrl` of the profile, with the simulation drawn in a dry run |
| PollLoop.React | BanChecker.py:159-209 | an error line is reported and the loop sleeps; otherwise the rehearsal fires on its drawn check (hand-off with flag "1", no watchdog); a confirmed alert hands off with the parent's flag and launches the watchdog; an unconfirmed alert sends the safeguard notice; anything else sends "0"; the sampler's ten 5-second waits precede the notice exactly on an alert line the rehearsal does not take |
| PollLoop.SimMessage | BanChecker.py:172 | the rehearsal's line: the dry-run tag, the drawn ban kind, "ban detected (simulated) at check #" and the check number; RehearsalMessageTags states the tags it carries |
| PollLoop.SimFires | BanChecker.py:170 | the rehearsal fires on a cycle exactly in a dry run, not yet triggered, from the second check on, on the drawn check |
| PollLoop.Advance | BanChecker.py:155-211 | a cycle counts one check, only appends effects, either keeps polling or ends with exit 0, keeps the drawn plan, and sleeps only for the configured interval or the sampler's 5-second wait |
| PollLoop.Step | BanChecker.py:155-211 | one iteration of `while True`: Advance on the fetched line with the sampler's verdict on the ten confirmation fetches |
| PollLoop.Run | BanChecker.py:155-211 | the iterations one per input, stopping when the program exits |
| PollLoop.RunConcat | BanChecker.py:155-211 | running two input sequences one after the other is running their concatenation |
| PollLoop.RunCountsCycles | BanChecker.py:155-156 | `check_count` grows by one per cycle, by exactly the number of cycles while polling continues; an ended run stays as it is |
| PollLoop.AdvanceHandOffs | BanChecker.py:170-201 | a cycle hands off to SendTrade.js exactly when it ends the program |
| PollLoop.ReactionHandOffs | BanChecker.py:170-201 | the effects that end a cycle hold one hand-off when it exits and none otherwise |
| PollLoop.ReactHandOffs | BanChecker.py:159-209 | a reaction's waits, notice and ending hold one hand-off when it exits and none otherwise |
| PollLoop.AdvanceParts | BanChecker.py:155-211 | a cycle's effects are the earlier ones, the waits, the notice and the ending, and the program ends exactly when the reaction exits |
| PollLoop.AdvanceResult | BanChecker.py:155-211 | the whole state after a cycle: phase, URL, incremented count, the plan marked triggered when the rehearsal fired, and the appended effects |
| PollLoop.AdvanceFields | BanChecker.py:155-211 | the same, for a polling state given by its fields |
| PollLoop.StepAdvance | BanChecker.py:155-211 | one iteration is a cycle on check_ban's line and the sampler's verdict on the ten confirmation fetches |
| PollLoop.RunHandOffs | BanChecker.py:155-211 | while polling nothing has been handed off; a run hands off once when it ends and never otherwise |
| PollLoop.HandOffAtMostOnce | BanChecker.py:138-211 | from start-up on, SendTrade.js is started at most once, and never while the loop goes on |
| PollLoop.StartupWithoutProfile | BanChecker.py:140-144 | without a profile the channel is reset and the program exits 1 before any check |
| PollLoop.PassedTriggerNeverFires | BanChecker.py:170 | once the trigger check is behind, the rehearsal can no longer fire |
| PollLoop.ErrorAtTriggerSkipsSimulation | BanChecker.py:162-170 | an error on the drawn check skips the rehearsal for the rest of the run |
| PollLoop.QuietAdvance | BanChecker.py:206-211 | a line without tags, before the rehearsal is due, sends "0" and sleeps |
| PollLoop.QuietStep | BanChecker.py:206-211 | a quiet cycle adds only the "0" notice and the sleep, and counts one check |
| PollLoop.QuietRunStaysPolling | BanChecker.py:155-211 | OK pages keep the loop polling and add only "0" notices and sleeps |
| PollLoop.QuietRunHasNoWatchdog | BanChecker.py:206-211 | quiet cycles never launch the watchdog |
| PollLoop.FiringStep | BanChecker.py:170-183 | the firing cycle sends the simulated message, hands off with `BANSHIELD_DRY_RUN=1` and exits 0 |
| PollLoop.SimulationFiresAtTrigger | BanChecker.py:149-183 | a dry run over OK pages hands off with flag "1" on exactly the drawn check, exits 0, and never launches the watchdog |
| PollLoop.RehearsalPrefix | BanChecker.py:155-170 | before the drawn check, OK pages leave the rehearsal armed and the watchdog unlaunched |
| PollLoop.DryRunStartup | BanChecker.py:139-153 | a dry run with a profile starts polling at check 0 with the drawn plan armed and only the channel reset done |
| PollLoop.RehearsalLastStep | BanChecker.py:170-183 | the drawn check on an OK page ends the rehearsal with one hand-off and no watchdog |
| PollLoop.RehearsalLastAdvance | BanChecker.py:170-183 | the firing cycle on any non-error line ends with exit 0, one hand-off and no watchdog |
| PollLoop.DryRunAlertBeforeTriggerIsLive | BanChecker.py:186-201 | in a dry run, a confirmed fresh ban before the trigger takes the live path; when the dry run came only from `--dry-run`, SendTrade.js runs live |
| PollLoop.ConfirmedAlertAdvance | BanChecker.py:186-201 | on an alert line the rehearsal does not take, a confirmed verdict ends the program, leaves the plan alone and ends the trace with the hand-off (parent's flag) and the watchdog |
| PollLoop.HandOffDryRun | BanChecker.py:118-128 | SendTrade.js is a dry run after a rehearsal, and after a confirmed ban exactly when the checker's own flag is "1" |
| PollLoop.AlertCycleWaitsForSampler | BanChecker.py:185-205 | on an alert line the ten sampler waits come first, then either the notice "1", the hand-off and the watchdog, or the safeguard notice and the sleep |
| PollLoop.UnconfirmedAlertKeepsPolling | BanChecker.py:185-205 | an unconfirmed fresh ban keeps polling: the sampler's ten waits, the safeguard notice, then the sleep |
| PollLoop.UnconfirmedAlertAdvance | BanChecker.py:185-205 | on an unconfirmed alert line the cycle keeps polling and appends the ten waits, the safeguard notice and the sleep |
| PollLoop.ErrorKeepsPolling | BanChecker.py:162-167 | a failed fetch never ends the program; it is reported and the loop sleeps |
| PollLoop.ErrorAdvance | BanChecker.py:162-167 | on an error line the cycle keeps polling, leaves the plan alone and appends the notice of the line and the sleep |
| PollLoop.RunSleepDurations | BanChecker.py:110-211 | every sleep of a run waits either for an interval in 20..300 or for the sampler's 5 seconds |
| PollLoop.Monitor.constructor | BanChecker.py:146-147 | a new monitor starts before start-up, with no checks, no plan and no effects |
| PollLoop.Monitor.InitSimOnce | BanChecker.py:40-44 | the method updates the plan as `_init_sim_once` does and changes nothing else |
| PollLoop.Monitor.Start | BanChecker.py:139-153 | the state after start-up is `Startup`'s |
| PollLoop.Monitor.Decide | BanChecker.py:159-205 | the decision, including the ten-sample pass, is `React`'s |
| PollLoop.Monitor.Act | BanChecker.py:155-211 | the state after a cycle on a line is `Advance`'s |
| PollLoop.Monitor.Apply | BanChecker.py:155-211 | the count is incremented, the effects appended, the plan marked triggered when the rehearsal fired, and the phase ended when the reaction exits; nothing else changes |
| PollLoop.Monitor.Cycle | BanChecker.py:155-211 | the state after one iteration is `Step`'s |
| PollLoop.Monitor.RunCycles | BanChecker.py:155-211 | the loop over the inputs ends in `Run`'s state |
| Telegram.DeletePrevious | TelegramInformer.py:17-30 | a delete is requested exactly when a message id is recorded, and for that id |
| Telegram.Configured | TelegramInformer.py:13-15 | send_log and reset_channel act only when both the bot token and the chat id are non-empty (the same test at lines 50-52) |
| Telegram.SendLogSpec | TelegramInformer.py:12-47 | unconfigured: nothing happens; otherwise the recorded message is deleted, the text is sent last, and the new id is recorded only when delivered; a failed send keeps the old record |
| Telegram.DeleteWindow | TelegramInformer.py:70-72 | one delete per id from lo to hi-1, in order |
| Telegram.CountDeleted | TelegramInformer.py:71-80 | the count of confirmed deletes is at most the window size; all confirmed gives the full size and none gives 0 |
| Telegram.ResetSpec | TelegramInformer.py:49-85 | unconfigured: nothing; a failed probe stops after the probe; otherwise fifteen deletes follow the probe, the record is dropped, and at most fifteen are counted |
| Telegram.ResetDeletesWindow | TelegramInformer.py:70-80 | after a delivered probe, the deletes cover exactly the ids from base-14 to base, the probe included |
| Telegram.FailedSendKeepsOldTarget | TelegramInformer.py:17-47 | after a failed send, the next send deletes the same old message again |
| Telegram.NextSendDeletesDelivered | TelegramInformer.py:17-42 | after a delivered message, the next send first deletes exactly that message, so one message stays visible |
| Telegram.Channel.constructor | TelegramInformer.py:7-10 | a channel starts with the record found on disk and no calls |
| Telegram.Channel.SendLog | TelegramInformer.py:12-47 | the channel's new state is `SendLogSpec` of its old state |
| Telegram.Channel.ResetChannel | TelegramInformer.py:49-85 | the new state and the delete count are `ResetSpec`'s |
| AutoAccept.SafeOfferGuarantees | AutoAccept.js:58-75 | an offer is safe exactly when it gives nothing, receives something and, with an expected sender set, comes from that sender |
| AutoAccept.IsOfferSafeForUs | AutoAccept.js:58-75 | isOfferSafeForUs: nothing given, something received, and the partner is the expected sender when one is set |
| AutoAccept.IsMatch | AutoAccept.js:84-88 | the `find` condition of tick: an active offer with the trade key as its message that is safe for us |
| AutoAccept.FindMatchFrom | AutoAccept.js:84-88 | the first matching offer from a position on, none before it; None means none matches |
| AutoAccept.FindMatch | AutoAccept.js:84-88 | `find`: the first active, safe offer carrying the trade key, None exactly when there is none |
| AutoAccept.MaskKey | AutoAccept.js:27 | the mask is the first four characters, an ellipsis and the last four |
| AutoAccept.MaskHidesMiddle | AutoAccept.js:27 | a character found only in the middle of a key of length 16 or more never shows in the mask |
| AutoAccept.StartUp | AutoAccept.js:16-27 | listening exactly when all three credentials are set and the key has at least 16 characters; otherwise exit 1 |
| AutoAccept.Tick | AutoAccept.js:77-105 | an offer is accepted exactly when the fetch succeeds, a match exists and accepting succeeds; that offer is the first match |
| AutoAccept.FirstAcceptFrom | AutoAccept.js:77-105 | the first poll whose tick accepts; every earlier tick reschedules |
| AutoAccept.AcceptLoop | AutoAccept.js:47-105 | a cookie error exits 1; otherwise exit 0 exactly when an offer is accepted, on the first accepting poll, else still waiting after every poll |
| AutoAccept.AcceptedOfferIsSafe | AutoAccept.js:58-105 | an accepted offer gives nothing, receives something, carries the key, is active, and comes from the expected sender when one is set |
| AutoAccept.NoMatchNeverAccepts | AutoAccept.js:84-93 | polls holding only unsafe offers or other messages never accept |
| SendTrade.Enc | SendTrade.js:47 | each 6-bit value has a base64 character, never `=` |
| SendTrade.Dec | SendTrade.js:47 | each base64 character stands for a 6-bit value |
| SendTrade.DecEnc | SendTrade.js:47 | decoding a value's character gives the value back |
| SendTrade.Base64 | SendTrade.js:47 | the text has 4 characters per started group of 3 bytes; `=` only in the last two places, and only when the length is not a multiple of 3 |
| SendTrade.EncodeGroupDecodes | SendTrade.js:47 | the four characters of a group decode to its three bytes |
| SendTrade.Base64RoundTrip | SendTrade.js:47 | whole groups of bytes encode without padding and decode back to the bytes |
| SendTrade.ReplaceChar | SendTrade.js:48 | same length; exactly the occurrences of one character are replaced |
| SendTrade.TrimTrailing | SendTrade.js:48 | a prefix whose removed tail consists only of that character, and which no longer ends with it |
| SendTrade.GenerateTradeKey | SendTrade.js:46-49 | generateTradeKey: base64 of the random bytes with `+` to `-`, `/` to `_` and the trailing `=` removed |
| SendTrade.TradeKeyChars | SendTrade.js:46-49 | the key is the base64 text with `+` as `-` and `/` as `_`, minus trailing `=` |
| SendTrade.TradeKeyIsUrlSafe | SendTrade.js:46-49 | the key holds no `+`, `/` or trailing `=`; only the padding, at most two characters, is dropped |
| SendTrade.DefaultKeyLength | SendTrade.js:46-50 | 24 random bytes give a key of 32 characters, above AutoAccept.js's minimum of 16 |
| SendTrade.GeneratedKeyIsAccepted | SendTrade.js:159-164 | with bank credentials set, AutoAccept.js accepts the generated key and logs it masked to nine characters |
| SendTrade.TradeKeyDecodes | SendTrade.js:46-49 | undoing the rewrite gives base64 text that decodes to the random bytes |
| SendTrade.InventoryTypes | SendTrade.js:26-28 | exactly `["all"]` when "all" is among the tokens of INVENTORY_TYPE (lowercased, whitespace removed, split on ","; "all" when unset), the tokens themselves otherwise; never empty, no token holds a comma |
| SendTrade.InventoryTokens | SendTrade.js:26-27 | INVENTORY_TYPE, "all" when unset or empty, lowercased, with every whitespace character removed, split on "," |
| SendTrade.InventoryTokensClean | SendTrade.js:26-27 | every token of INVENTORY_TYPE is free of whitespace, capital letters and commas |
| SendTrade.InventoryTypesNormalised | SendTrade.js:26-28 | spaces and capitals do not matter: a value reads as its lowercased, whitespace-free form does, unless that form is empty |
| SendTrade.BlankTypeSelectsNothing | SendTrade.js:26-73 | an INVENTORY_TYPE of whitespace only is set, so no default applies: the single empty token selects no inventory |
| SendTrade.InventoriesFor | SendTrade.js:66-73 | INVENTORIES: the fixed list of four when "all" is given, otherwise cs2, tf2 and dota2 in that order as named |
| SendTrade.BuildInventories | SendTrade.js:66-73 | the `push` loop builds the inventories `InventoriesFor` selects |
| SendTrade.InventoriesSelection | SendTrade.js:54-73 | "all" gives the four inventories; otherwise each game is listed exactly when named, once, in the order cs2, tf2, dota2; no inventory twice |
| SendTrade.UnknownTokenIgnored | SendTrade.js:66-73 | tokens other than all, cs2, tf2 and dota2 change nothing |
| SendTrade.DefaultSelectsAll | SendTrade.js:26-73 | an unset INVENTORY_TYPE selects all four inventories |
| SendTrade.ItemName | SendTrade.js:138 | the first non-empty of name, market hash name and class id, else "Unknown Item" |
| SendTrade.CollectedItems | SendTrade.js:117-122 | an item is collected exactly when some successful reply holds it |
| SendTrade.Collected | SendTrade.js:117-122 | allItems: the items of the non-empty successful replies, concatenated in the order the replies arrived |
| SendTrade.CollectedCount | SendTrade.js:117-122 | the number collected is the sum over the successful replies |
| SendTrade.Decide | SendTrade.js:112-150 | an offer is created exactly in a live run with inventories and items, carrying all items and the key; a dry run with items lists them, one name per item; no items (with inventories) and no inventories are their own outcomes, each exactly in its case |
| SendTrade.ExitCodeOf | SendTrade.js:114-141 | every outcome that stops sendAllTradableItems before an offer exits with code 0; a created offer does not exit there |
| SendTrade.SendAllTradableItems | SendTrade.js:108-173 | the callbacks' counter and item list lead to `Decide` on the collected items |
| SendTrade.DryRunNeverOffers | SendTrade.js:136-143 | a dry run never creates an offer and exits 0 |
| SendTrade.AllFailedMeansNoItems | SendTrade.js:117-128 | when every inventory request fails, the run ends with "no tradable items" |
| SendTrade.Preflight | SendTrade.js:75-79 | the run continues exactly when all five settings are set, otherwise exit 1 |
| SendTrade.StateName | SendTrade.js:31-43 | "Unknown" exactly outside states 1..11; state 3 is "Accepted" |
| SendTrade.SettlesWait | SendTrade.js:196-205 | the wait ends (exit 0) on a reply whose state is Accepted, Declined or Canceled |
| SendTrade.AutoAcceptEnabled | SendTrade.js:23 | autoAccept: the variable, "false" when unset or empty, compared case-insensitively with "true" |
| SendTrade.IsDryRunFlag | SendTrade.js:11 | SendTrade.js rehearses exactly when BANSHIELD_DRY_RUN is the string "1" |
| SendTrade.FirstSettled | SendTrade.js:189-211 | the first reply that ends the wait, none before it |
| SendTrade.WaitForTradeAccepted | SendTrade.js:189-211 | exit 0 exactly when a reply is Accepted, Declined or Canceled, after asking up to that reply; otherwise it keeps asking |
| SendTrade.ConfirmOfferWithRetry | SendTrade.js:176-187 | confirmed exactly when some attempt succeeds; the failures are the attempts before the first success |
| SendTrade.AfterOfferCreated | SendTrade.js:152-169 | a send error exits 1; once confirmed, exit 0 without AutoAccept, or AutoAccept.js started with the trade key and the wait's outcome; no exit while unconfirmed |
| ControlPanel.KeysDistinct | BanShieldGUI.py:224-238 | the form's variables are distinct and none is one of the panel's own settings |
| ControlPanel.IsTrue | BanShieldGUI.py:457 | a flag reads as on exactly when its text is "true" in any case |
| ControlPanel.BoolTextReadsBack | BanShieldGUI.py:490 | a saved checkbox reads back as saved |
| ControlPanel.SavedFlagsReadAlike | BanShieldGUI.py:490 | TelegramNotify and AutoAccept as saved read back alike in BanChecker.py and SendTrade.js; unset, the first is on and the second off |
| ControlPanel.LoadField | BanShieldGUI.py:452-457 | a text field takes its variable, "" when missing; a checkbox is ticked exactly when its variable lowercased is "true", so unticked when missing |
| ControlPanel.ParseInt | BanShieldGUI.py:476 | `int()` succeeds exactly when the stripped text is a run of digits or a sign followed by one; the digits read as their value, negated after "-" |
| ControlPanel.ParseDecimal | BanShieldGUI.py:476 | `int(str(n))` is `n` |
| ControlPanel.ParseIntText | BanShieldGUI.py:499 | the interval written as text reads back as the same integer, negative or not |
| ControlPanel.NonBlank | BanShieldGUI.py:460 | exactly the stripped non-blank pieces are kept |
| ControlPanel.Tokens | BanShieldGUI.py:460 | the lowercased INVENTORY_TYPE split on ",", stripped, blanks dropped |
| ControlPanel.LoadSelection | BanShieldGUI.py:459-467 | "all" is checked exactly when it is a token, and then alone; otherwise each game is checked exactly when named |
| ControlPanel.Games | BanShieldGUI.py:496 | exactly the checked games, at most three |
| ControlPanel.SelectionRoundTrip | BanShieldGUI.py:493-497 | a saved selection loads back as itself, except that an empty one becomes cs2 |
| ControlPanel.GamesRoundTrip | BanShieldGUI.py:496-497 | a non-empty list of games loads back as itself |
| ControlPanel.SaveSelection | BanShieldGUI.py:493-497 | the INVENTORY_TYPE save_config writes: "all", the checked games joined by ",", or "cs2" when none is checked |
| ControlPanel.LoadFromTokens | BanShieldGUI.py:460-467 | a value whose tokens are exactly the checked games loads those games |
| ControlPanel.GamesTokens | BanShieldGUI.py:496-497 | the tokens of a joined list of games are exactly those games |
| ControlPanel.LogColor | BanShieldGUI.py:626-642 | the colour of the first tag found in the order ERROR, ALERT, DRY-RUN, OK, INFO, ACTION, CHECK, grey when there is none; each colour exactly under its condition |
| ControlPanel.ErrorWins | BanShieldGUI.py:627-628 | an error line is red whatever else it carries |
| ControlPanel.FirstClockFrom | BanShieldGUI.py:646 | the leftmost bracketed clock from a position on |
| ControlPanel.FirstDateTimeFrom | BanShieldGUI.py:650 | the leftmost date and time from a position on |
| ControlPanel.LastCheck | BanShieldGUI.py:644-652 | the label changes exactly on a "Checking profile" line: to the leftmost bracketed clock, else (no clock anywhere) the leftmost date and time, else "?" |
| ControlPanel.StampedCheckShowsPanelClock | BanShieldGUI.py:36-38 | a check line stamped by the panel shows the panel's own clock, not the date the checker printed |
| ControlPanel.StampAtStart | BanShieldGUI.py:646 | a line that starts with a bracketed clock has its first clock there |
| ControlPanel.StdoutStatuses | BanShieldGUI.py:39-47 | the simulated-ban status, when emitted, comes first; then at most one of listing, live ban and no ban, each exactly under its condition; a dry-run line sets no live status |
| ControlPanel.StdoutLogLine | BanShieldGUI.py:38 | the logged stdout line: the panel's clock in brackets, ` [STDOUT] ` and the stripped line |
| ControlPanel.Deprecation | BanShieldGUI.py:49 | a stderr line holding "DeprecationWarning" or "trace-deprecation" is dropped |
| ControlPanel.DryRunNeverAlerts | BanShieldGUI.py:39-47 | no status set by a dry-run line raises the trade alert |
| ControlPanel.RaisesAlert | BanShieldGUI.py:661 | a status raises the trade alert exactly when it holds "Ban Detected" and not "Simulated" |
| ControlPanel.SimulatedStatusIsQuiet | BanShieldGUI.py:661 | "Simulated Ban Detected" does not raise the alert |
| ControlPanel.ListingStatusIsQuiet | BanShieldGUI.py:661 | the listing status does not raise the alert |
| ControlPanel.LiveBanAlerts | BanShieldGUI.py:43-45 | a live ban line sets "Ban Detected!", which raises the alert |
| ControlPanel.RehearsalMessageStatus | BanShieldGUI.py:39-47 | the checker's rehearsal message sets the simulated-ban status and neither live one |
| ControlPanel.RehearsalMessageTags | BanChecker.py:172 | the rehearsal message carries `[DRY-RUN]` and, lowercased, "ban detected" |
| ControlPanel.ReadOutputLine | BanShieldGUI.py:31-51 | stdout lines are logged stamped and set their statuses; stderr lines are logged as errors with the error status unless they are deprecation notices |
| ControlPanel.StderrLinesAreRed | BanShieldGUI.py:48-51 | a kept stderr line is shown in red |
| ControlPanel.ScheduledTick | BanShieldGUI.py:682-693 | off: the counter is cleared; on: a restart is due exactly when the counter reaches 7200, and the counter stays below 7200 |
| ControlPanel.TicksFromZero | BanShieldGUI.py:688-691 | from zero, the counter is the seconds since the last restart, modulo 7200 |
| ControlPanel.RestartEveryPeriod | BanShieldGUI.py:687-691 | from zero, a restart is due exactly on every 7200th tick |
| ControlPanel.InventoryDefault | BanShieldGUI.py:459-467 | the inventory setting is INVENTORY_TYPE read with the default "cs2" |
| ControlPanel.InventorySetting | BanShieldGUI.py:459-467 | the boxes loaded from INVENTORY_TYPE, cs2 alone when unset |
| ControlPanel.IntervalSetting | BanShieldGUI.py:476 | CHECK_INTERVAL through `int()`, "20" when unset; None where `int()` raises |
| ControlPanel.FlagSetting | BanShieldGUI.py:481-484 | AUTO_RESTART or SCHEDULED_RESTART: set and lowercased equal to "true" |
| ControlPanel.IntervalDefault | BanShieldGUI.py:476 | the interval setting is `int()` of CHECK_INTERVAL with the default "20" |
| ControlPanel.FlagDefault | BanShieldGUI.py:481-484 | a restart option is its variable read with the default "false" |
| ControlPanel.LoadedValues | BanShieldGUI.py:452-457 | one value of the right kind per field, each as `LoadField` reads it |
| ControlPanel.FieldsFile | BanShieldGUI.py:489-491 | every field's variable holds its saved text |
| ControlPanel.SettingsFile | BanShieldGUI.py:486-501 | the file holds every field, INVENTORY_TYPE, CHECK_INTERVAL and both restart options, as saved |
| ControlPanel.SaveField | BanShieldGUI.py:490 | a text field is written as its text, a checkbox as "true" or "false"; BoolTextReadsBack shows a saved checkbox reads back the same |
| ControlPanel.SettingsRoundTrip | BanShieldGUI.py:450-501 | saving then loading gives back every field, the interval and both restart options; the inventories come back except that an empty selection becomes cs2 |
| ControlPanel.StartBotSpec | BanShieldGUI.py:514-546 | refused: nothing changes; otherwise one live launch that replaces any running checker, not manual, not a dry run, with the timer on and reset exactly when scheduled restarts are on |
| ControlPanel.StartDryRunSpec | BanShieldGUI.py:548-585 | refused: nothing changes; otherwise one rehearsal launch that replaces any running checker, and the timer is left alone |
| ControlPanel.StopBotSpec | BanShieldGUI.py:587-598 | the stop is manual, and the checker and timer stop; nothing else changes |
| ControlPanel.FinishedSpec | BanShieldGUI.py:604-623 | a restart happens exactly after a live run with auto-restart, no manual stop and a possible start; the restarted run is live, with the timer on exactly when scheduled restarts are, and its counter cleared then; without a restart the run mode and counter are kept and, after a live run, the timer too; `manual_stop` is cleared; a rehearsal stops the timer |
| ControlPanel.TimerTickSpec | BanShieldGUI.py:682-693 | off: the timer stops and the counter clears; at 7200 the checker is stopped and a start is due; on any other tick only the counter advances, by one |
| ControlPanel.ManualStopIsFinal | BanShieldGUI.py:587-623 | after stop_bot, the finished signal does not restart and clears `manual_stop` |
| ControlPanel.RehearsalNeverRestarts | BanShieldGUI.py:604-612 | a rehearsal that ends is never started again |
| ControlPanel.CrashRestarts | BanShieldGUI.py:614-623 | a live run that ends is started again when auto-restart is on |
| ControlPanel.EveryCrashRestarts | BanShieldGUI.py:614-623 | a live run not stopped by hand is started again after each of any number of ends: it stays live, never manually stopped, and each end adds one live launch |
| ControlPanel.ScheduledRestartCycle | BanShieldGUI.py:682-693 | two hours after a scheduled live start, the checker is stopped and a new live run starts with the counter at zero |
| ControlPanel.TimerCountsSeconds | BanShieldGUI.py:682-693 | before the period is up, k seconds of the timer only add k to the counter |
| ControlPanel.TimerRestartsAfterPeriod | BanShieldGUI.py:682-693 | from a cleared counter the first 7199 seconds restart nothing and the next one stops the checker |
| ControlPanel.ToggleBox | BanShieldGUI.py:290-297 | after any click "all" stays exclusive; ticking "all" clears the games; unticking it leaves "all" off and the games as they were; a game click while "all" is on leaves only "all" ticked |
| ControlPanel.Panel.constructor | BanShieldGUI.py:404-418 | for an environment whose CHECK_INTERVAL parses, the panel starts valid with the form, the inventory boxes, the clamped interval and both restart options loaded, nothing running and the timer off at zero |
| ControlPanel.Panel.LoadConfig | BanShieldGUI.py:450-484 | the fields and boxes are loaded; the interval and restart options are set exactly when CHECK_INTERVAL parses, clamped; otherwise they stay as they were |
| ControlPanel.Panel.LoadForm | BanShieldGUI.py:452-474 | the fields and the inventory boxes as loaded, with the games disabled exactly while "all" is checked |
| ControlPanel.Panel.LoadRunSettings | BanShieldGUI.py:476-484 | the slider and options are set exactly when CHECK_INTERVAL parses; the slider stays in range |
| ControlPanel.Panel.LoadFields | BanShieldGUI.py:452-457 | each field takes its variable |
| ControlPanel.Panel.LoadInventoryBoxes | BanShieldGUI.py:459-474 | the boxes show `LoadSelection` of the value, and the games are enabled exactly when "all" is not checked |
| ControlPanel.Panel.CheckOnlyAll | BanShieldGUI.py:461-463 | only "all" is checked |
| ControlPanel.Panel.CheckGames | BanShieldGUI.py:464-467 | each game is checked exactly when named, and "all" is not |
| ControlPanel.Panel.EnableGames | BanShieldGUI.py:469-474 | the games are enabled exactly while "all" is not checked |
| ControlPanel.Panel.StartBot | BanShieldGUI.py:514-546 | the run-time state follows `StartBotSpec`, and the panel stays valid |
| ControlPanel.Panel.CanStart | BanShieldGUI.py:515-520 | start_bot and start_dry_run go on exactly when `.env` exists and ProfileToWatch is filled in (the same checks at lines 549-554) |
| ControlPanel.Panel.StartDryRun | BanShieldGUI.py:548-585 | the run-time state follows `StartDryRunSpec` |
| ControlPanel.Panel.StopBot | BanShieldGUI.py:587-598 | the run-time state follows `StopBotSpec` |
| ControlPanel.Panel.OnProcessFinished | BanShieldGUI.py:604-623 | the run-time state follows `FinishedSpec` |
| ControlPanel.Panel.HandleScheduledRestart | BanShieldGUI.py:682-693 | the run-time state follows `TimerTickSpec` |
| ControlPanel.Panel.SaveConfig | BanShieldGUI.py:486-511 | the file written is the form's; a running checker is stopped and started again, an idle one is left alone |
| ControlPanel.Panel.RestartIfRunning | BanShieldGUI.py:503-507 | a running checker is stopped and started live again; otherwise nothing changes |
| ControlPanel.Panel.OnInventoryBoxChanged | BanShieldGUI.py:290-299 | the boxes after a click are `ToggleBox` of the boxes before |
| ControlPanel.Panel.ClearGames | BanShieldGUI.py:292-294 | the games are unticked and "all" is kept |
| Text.RemoveSpaces | SendTrade.js:26 | the result holds no whitespace and only characters of the input; that every other character is kept, in order, is stated by the three lemmas below |
| Text.RemoveSpacesAppend | SendTrade.js:26 | removing whitespace works piece by piece: the result on `a + b` is the result on `a` followed by the result on `b` |
| Text.RemoveSpacesKeepsText | SendTrade.js:26 | text without whitespace is kept unchanged |
| Text.RemoveSpacesDropsBlanks | SendTrade.js:26 | whitespace alone disappears |
| Text.Split | SendTrade.js:27 | `split` never gives an empty list |
| Text.SplitJoin | BanShieldGUI.py:497 | splitting a joined list gives the list back when no piece holds the separator |
| Text.Decimal | BanShieldGUI.py:499 | `str(n)` of a natural number is a non-empty run of digits |

## Left out

- HTTP and HTML parsing: `requests.get` and BeautifulSoup are not modelled. A fetch is an input: a status and the page's text nodes in document order, or an exception message.
- `time.sleep`, `time.strftime` and `random`: a sleep of the checker is an effect, a clock reading is a parameter, and the simulation draw is a parameter in 3..10.
- Subprocesses are effects in a trace: the launch of SendTrade.js, AutoAccept.js and WatchDog.js, and the checker started by the panel. WatchDog.js is not part of this model.
- The PID file and `atexit` of BanChecker.py are not modelled.
- PollLoop.ConfigOf: CHECK_INTERVAL arrives as an integer. A value `int()` rejects would end BanChecker.py at import; that case is not modelled.
- The return code of `run_sendtrade` is not modelled. The checker ignores it, and the hand-off is one effect whatever the child does.
- Telegram's HTTP calls and the marker file are not modelled.
  - The reply to each request is an input.
  - The persisted id is the field `lastMessageId`.
  - A reply that is not ok, that raises, or that lacks the id is one case, `SendFailed`.
  - Whether a delete succeeds only changes the reset's count.
- The Steam libraries are not modelled: login, two-factor codes, cookies and the trade-offer manager. Their replies are inputs. The 15-second `setTimeout` retries are loop iterations.
- AutoAccept.AcceptLoop and SendTrade.WaitForTradeAccepted: a callback that never arrives is not modelled. They run over a finite sequence of replies and report "still waiting" when it runs out.
- The `uncaughtException` and `unhandledRejection` handlers of both scripts are not modelled.
- SendTrade.SendAllTradableItems: a missing or empty inventory reply and an error reply are both `InventoryFailed`. The second, identical "no items left" check is one branch.
- AutoAccept.FindMatch: a missing item list is the empty list.
- Qt is not modelled: widgets, signals, dialogs, the beep, the slide animation and the RAM monitor (psutil). The panel's state keeps only the fields the decisions read.
- The reader thread of the panel is not modelled. ReadOutputLine decides one line at a time.
- ControlPanel.Panel.SaveConfig: a failed write of `.env` is not modelled.
- ControlPanel.StartBotSpec: a checker still running when a start is pressed is stopped first (BanShieldGUI.py:524-526, 569-571). That stop emits the finished signal at once, so on_process_finished runs before the new launch. After a live run with auto-restart on, it calls start_bot again: a nested live checker starts, and the outer start then blocks in `wait()` on that new thread until it ends, and launches once more. None of this is modelled: the new launch simply replaces the running checker.
- ControlPanel.StartDryRunSpec: the same stop first, and the same nested restart, are not modelled.
- ControlPanel.Panel.StartBot and ControlPanel.Panel.StartDryRun: they follow the two specifications above, with the same gap.
- ControlPanel.Panel.constructor: a CHECK_INTERVAL that `int()` rejects makes `__init__` raise (BanShieldGUI.py:410, 476), and the panel never opens. That failed start is not modelled; the constructor requires an interval that parses.
- ControlPanel.Panel.StopBot: the finished signal that `stop()` emits arrives as a separate call of OnProcessFinished. ManualStopIsFinal composes the two.
- ControlPanel.Panel.OnProcessFinished: the one-second pause before the restart is not modelled.
- The `.env` file and `load_dotenv` are a map from names to values. Comments, quoting and duplicate keys are not modelled.
- ControlPanel.SettingsRoundTrip: save_config writes values unquoted (BanShieldGUI.py:489-491). python-dotenv drops the blanks around an unquoted value and everything from ` #` on, so the round trip holds only for values that it reads back verbatim.
- Lower case, `strip`, `isspace`, `\s` and `\d` cover ASCII only. Unicode case mapping, whitespace and digits are not modelled.
- ControlPanel.ParseInt: the underscores and non-ASCII digits that `int()` also accepts are not modelled.
- Text lengths count characters, not JavaScript's UTF-16 units. The mask's ellipsis is one character.
- Console output and log messages are not modelled, except the lines the panel reads back.

=== FILE: auto_accept.dfy ===
/**
 * AutoAccept.js, run on the bank account: it checks its credentials and
 * the trade key it was given, then polls the received trade offers until
 * it can accept the one SendTrade.js created, identified by the key in
 * its message.
 *
 * The Steam client and the trade-offer manager are not modelled: each
 * poll (`tick`) receives the list of received offers, or a fetch error,
 * and whether accepting would succeed. The 15-second timer between polls
 * is one step of the loop.
 */
module AutoAccept {
  import opened Wrappers

  /** TradeOfferManager.ETradeOfferState.Active. */
  const ActiveState := 2
  const MinKeyLength := 16

  /** The partner of an offer: its SteamID64, or an error while reading it. */
  datatype Partner = PartnerId(id64: string) | PartnerUnreadable

  /** A received offer; missing item lists are the empty list. */
  datatype Offer = Offer(
    state: int,
    message: string,
    itemsToGive: seq<string>,
    itemsToReceive: seq<string>,
    partner: Partner)

  /**
   * isOfferSafeForUs: nothing leaves the bank account, something arrives,
   * and, when EXPECTED_SENDER_STEAMID is set (non-empty), the partner is
   * that account.
   */
  predicate IsOfferSafeForUs(offer: Offer, expectedSender: string) {
    if |offer.itemsToGive| != 0 then false
    else if |offer.itemsToReceive| == 0 then false
    else if expectedSender != "" then
      match offer.partner
      case PartnerId(id64) => id64 == expectedSender
      case PartnerUnreadable => false
    else true
  }

  /** The `find` condition in tick. */
  predicate IsMatch(offer: Offer, expectedSender: string, tradeKey: string) {
    offer.state == ActiveState && offer.message == tradeKey && IsOfferSafeForUs(offer, expectedSender)
  }

  /** The safety rule, read as what an accepted offer guarantees. */
  lemma SafeOfferGuarantees(offer: Offer, expectedSender: string)
    ensures IsOfferSafeForUs(offer, expectedSender) <==>
      offer.itemsToGive == [] && offer.itemsToReceive != [] &&
      (expectedSender != "" ==> offer.partner == PartnerId(expectedSender))
  {
  }

  function FindMatchFrom(offers: seq<Offer>, expectedSender: string, tradeKey: string, i: nat): (r: Option<nat>)
    requires i <= |offers|
    ensures r.Some? ==> i <= r.value < |offers| && IsMatch(offers[r.value], expectedSender, tradeKey)
    ensures r.Some? ==> forall j :: i <= j < r.value ==> !IsMatch(offers[j], expectedSender, tradeKey)
    ensures r.None? ==> forall j :: i <= j < |offers| ==> !IsMatch(offers[j], expectedSender, tradeKey)
    decreases |offers| - i
  {
    if i == |offers| then None
    else if IsMatch(offers[i], expectedSender, tradeKey) then Some(i)
    else FindMatchFrom(offers, expectedSender, tradeKey, i + 1)
  }

  /** `received.find(...)`: the position of the first matching offer, in the order received. */
  function FindMatch(offers: seq<Offer>, expectedSender: string, tradeKey: string): (r: Option<nat>)
    ensures r.Some? ==> r.value < |offers| && IsMatch(offers[r.value], expectedSender, tradeKey)
    ensures r.Some? ==> forall j :: 0 <= j < r.value ==> !IsMatch(offers[j], expectedSender, tradeKey)
    ensures r.None? <==> forall j :: 0 <= j < |offers| ==> !IsMatch(offers[j], expectedSender, tradeKey)
  {
    FindMatchFrom(offers, expectedSender, tradeKey, 0)
  }

  // ------------------------------------------------------------ startup

  /** The result of the checks made before logging in. */
  datatype Start = Refused(exitCode: int) | Listening(tradeKey: string, masked: string)

  /** `tradeKey.slice(0, 4) + "…" + tradeKey.slice(-4)`. */
  function MaskKey(k: string): (r: string)
    ensures |k| >= 4 ==> |r| == 9 && r[..4] == k[..4] && r[4] == '\U{2026}' && r[5..] == k[|k| - 4..]
    ensures |k| < 4 ==> r == k + "\U{2026}" + k
  {
    k[..if |k| < 4 then |k| else 4] + "\U{2026}" + k[if |k| < 4 then 0 else |k| - 4..]
  }

  /** A masked key of at least 16 characters never shows the eight or more characters in its middle. */
  lemma MaskHidesMiddle(k: string, c: char)
    requires |k| >= MinKeyLength
    requires c in k[4..|k| - 4] && c !in k[..4] && c !in k[|k| - 4..]
    ensures c !in MaskKey(k) || c == '\U{2026}'
  {
    var r := MaskKey(k);
    assert r == k[..4] + "\U{2026}" + k[|k| - 4..];
  }

  /**
   * The checks before login: missing bank credentials, then a missing
   * trade key or one shorter than 16 characters, end the process with
   * exit 1.
   */
  function StartUp(username: string, password: string, sharedSecret: string, argKey: Option<string>): (r: Start)
    ensures r.Listening? <==>
      username != "" && password != "" && sharedSecret != "" && argKey.Some? && |argKey.value| >= MinKeyLength
    ensures r.Refused? ==> r.exitCode == 1
    ensures r.Listening? ==> r.tradeKey == argKey.value && r.masked == MaskKey(argKey.value) && |r.masked| == 9
  {
    if username == "" || password == "" || sharedSecret == "" then Refused(1)
    else if argKey.None? || argKey.value == "" || |argKey.value| < MinKeyLength then Refused(1)
    else Listening(argKey.value, MaskKey(argKey.value))
  }

  // --------------------------------------------------------------- tick

  /** What one call of tick gets back: a fetch error, or the received offers and how accepting would end. */
  datatype Poll = FetchFailed | Received(offers: seq<Offer>, acceptFails: bool)

  datatype TickOutcome = Rescheduled | Accepted(offer: Offer)

  /** tick: accept the first matching offer; a fetch error, no match or an accept error reschedules. */
  function Tick(expectedSender: string, tradeKey: string, poll: Poll): (r: TickOutcome)
    ensures r.Accepted? ==> IsMatch(r.offer, expectedSender, tradeKey)
    ensures r.Accepted? <==>
      poll.Received? && !poll.acceptFails && FindMatch(poll.offers, expectedSender, tradeKey).Some?
    ensures r.Accepted? ==> r.offer == poll.offers[FindMatch(poll.offers, expectedSender, tradeKey).value]
  {
    match poll
    case FetchFailed => Rescheduled
    case Received(offers, acceptFails) =>
      match FindMatch(offers, expectedSender, tradeKey)
      case None => Rescheduled
      case Some(i) => if acceptFails then Rescheduled else Accepted(offers[i])
  }

  /** The first poll, from `i` on, whose tick accepts an offer. */
  function FirstAcceptFrom(expectedSender: string, tradeKey: string, polls: seq<Poll>, i: nat): (r: Option<nat>)
    requires i <= |polls|
    ensures r.Some? ==> i <= r.value < |polls| && Tick(expectedSender, tradeKey, polls[r.value]).Accepted?
    ensures r.Some? ==> forall j :: i <= j < r.value ==> Tick(expectedSender, tradeKey, polls[j]).Rescheduled?
    ensures r.None? ==> forall j :: i <= j < |polls| ==> Tick(expectedSender, tradeKey, polls[j]).Rescheduled?
    decreases |polls| - i
  {
    if i == |polls| then None
    else if Tick(expectedSender, tradeKey, polls[i]).Accepted? then Some(i)
    else FirstAcceptFrom(expectedSender, tradeKey, polls, i + 1)
  }

  /**
   * The polling loop after the web session: a cookie error exits 1;
   * otherwise tick runs on each poll in turn until one accepts an offer,
   * which exits 0. `ticks` is the number of polls consumed; `exitCode` is
   * None while the process is still waiting.
   */
  method AcceptLoop(expectedSender: string, tradeKey: string, cookiesOk: bool, polls: seq<Poll>)
    returns (exitCode: Option<int>, accepted: Option<Offer>, ticks: nat)
    ensures !cookiesOk ==> exitCode == Some(1) && accepted == None && ticks == 0
    ensures cookiesOk ==> (exitCode == Some(0) <==> accepted.Some?) && (exitCode.None? <==> accepted.None?)
    ensures accepted.Some? ==> IsMatch(accepted.value, expectedSender, tradeKey)
    ensures cookiesOk && accepted.Some? ==>
      FirstAcceptFrom(expectedSender, tradeKey, polls, 0) == Some(ticks - 1) &&
      Tick(expectedSender, tradeKey, polls[ticks - 1]) == Accepted(accepted.value)
    ensures cookiesOk && accepted.None? ==> FirstAcceptFrom(expectedSender, tradeKey, polls, 0).None? && ticks == |polls|
  {
    exitCode, accepted, ticks := None, None, 0;
    if !cookiesOk {
      exitCode := Some(1);
      return;
    }
    while ticks < |polls| && accepted.None?
      invariant ticks <= |polls|
      invariant accepted.None? ==> FirstAcceptFrom(expectedSender, tradeKey, polls, 0) == FirstAcceptFrom(expectedSender, tradeKey, polls, ticks)
      invariant accepted.Some? ==> ticks > 0 && FirstAcceptFrom(expectedSender, tradeKey, polls, 0) == Some(ticks - 1)
      invariant accepted.Some? ==> Tick(expectedSender, tradeKey, polls[ticks - 1]) == Accepted(accepted.value)
      invariant exitCode.None? <==> accepted.None?
      invariant exitCode.Some? ==> exitCode == Some(0)
    {
      var outcome := Tick(expectedSender, tradeKey, polls[ticks]);
      if outcome.Accepted? {
        accepted := Some(outcome.offer);
        exitCode := Some(0);
      }
      ticks := ticks + 1;
    }
  }

  /**
   * Whatever the polls return, an offer that gives away any item, that
   * brings nothing, or that comes from another account than the expected
   * one is never accepted.
   */
  lemma {:induction false} AcceptedOfferIsSafe(expectedSender: string, tradeKey: string, polls: seq<Poll>)
    ensures var first := FirstAcceptFrom(expectedSender, tradeKey, polls, 0);
      first.Some? ==>
        var offer := Tick(expectedSender, tradeKey, polls[first.value]).offer;
        offer.itemsToGive == [] && offer.itemsToReceive != [] && offer.message == tradeKey &&
        offer.state == ActiveState && (expectedSender != "" ==> offer.partner == PartnerId(expectedSender))
  {
    var first := FirstAcceptFrom(expectedSender, tradeKey, polls, 0);
    if first.Some? {
      SafeOfferGuarantees(Tick(expectedSender, tradeKey, polls[first.value]).offer, expectedSender);
    }
  }

  /** Polls that hold only unsafe offers, or only offers with another message, never end the loop. */
  lemma NoMatchNeverAccepts(expectedSender: string, tradeKey: string, polls: seq<Poll>)
    requires forall i, j :: 0 <= i < |polls| && polls[i].Received? && 0 <= j < |polls[i].offers| ==>
      polls[i].offers[j].message != tradeKey || !IsOfferSafeForUs(polls[i].offers[j], expectedSender)
    ensures FirstAcceptFrom(expectedSender, tradeKey, polls, 0).None?
  {
  }
}

=== FILE: ban_checker.dfy ===
/**
 * The detection engine of BanChecker.py: configuration, profile URL
 * normalisation, the classification of one fetched profile page, the
 * quorum sampler that confirms a fresh ban, the simulation plan of the
 * rehearsal mode and the environment handed to SendTrade.js.
 *
 * The page fetch is an input (`FetchOutcome`): a reply with a status code
 * and the page's text nodes in document order, or a raised exception.
 * Results are the strings check_ban returns; every later decision reads
 * them with a substring test, exactly as the program does.
 */
module BanChecker {
  import opened Wrappers
  import opened Text

  // ------------------------------------------------------ configuration

  const MinInterval: int := 20
  const MaxInterval: int := 300

  /** CHECK_INTERVAL: the configured seconds, raised to 20 and then lowered to 300. */
  function ClampInterval(v: int): (r: int)
    ensures MinInterval <= r <= MaxInterval
    ensures MinInterval <= v <= MaxInterval ==> r == v
    ensures v < MinInterval ==> r == MinInterval
    ensures v > MaxInterval ==> r == MaxInterval
  {
    var raised := if v < MinInterval then MinInterval else v;
    if raised > MaxInterval then MaxInterval else raised
  }

  /** TELEGRAM_NOTIFY: the variable, "true" when unset, compared case-insensitively with "true". */
  function TelegramNotify(env: Option<string>): bool {
    Lower(if env.Some? then env.value else "true") == "true"
  }

  /** IS_DRY_RUN: BANSHIELD_DRY_RUN is exactly "1", or "--dry-run" is among the arguments. */
  function IsDryRun(envFlag: Option<string>, argv: seq<string>): bool {
    envFlag == Some("1") || "--dry-run" in argv
  }

  // ---------------------------------------------------------------- URL

  const EnglishQuery := "?l=english"
  const EnglishParam := "&l=english"

  /** prepare_profile_url: force the English page, keeping the configured URL as a prefix. */
  function PrepareProfileUrl(url: string): (r: string)
    ensures IsPrefix(url, r)
    ensures Contains(r, EnglishQuery) || Contains(r, EnglishParam)
  {
    if Contains(url, EnglishQuery) then url
    else if Contains(url, "?") then
      ContainsSuffix(url, EnglishParam);
      url + EnglishParam
    else
      ContainsSuffix(url, EnglishQuery);
      url + EnglishQuery
  }

  /**
   * The three outcomes: a URL already asking for English is kept, one with
   * another query string gets the parameter, any other gets a query string.
   */
  lemma PrepareProfileUrlCases(url: string)
    ensures Contains(url, EnglishQuery) ==> PrepareProfileUrl(url) == url
    ensures !Contains(url, EnglishQuery) && Contains(url, "?") ==> PrepareProfileUrl(url) == url + EnglishParam
    ensures !Contains(url, "?") ==> PrepareProfileUrl(url) == url + EnglishQuery
  {
    if Contains(url, EnglishQuery) {
      ContainsShorter(url, EnglishQuery, 1);
      assert EnglishQuery[..1] == "?";
    }
  }

  /** A URL without a query string is normalised once and for all. */
  lemma PrepareStableWithoutQuery(url: string)
    requires !Contains(url, "?")
    ensures PrepareProfileUrl(url) == url + EnglishQuery
    ensures PrepareProfileUrl(PrepareProfileUrl(url)) == PrepareProfileUrl(url)
  {
    assert EnglishQuery[..1] == "?";
    if Contains(url, EnglishQuery) {
      ContainsShorter(url, EnglishQuery, 1);
    }
    ContainsSuffix(url, EnglishQuery);
  }

  lemma OtherQueryHasNoEnglish(base: string, query: string)
    requires '?' !in base && '?' !in query && |query| > 0 && query[0] != 'l'
    ensures Contains(base + "?" + query, "?")
    ensures !Contains(base + "?" + query, EnglishQuery)
  {
    var url := base + "?" + query;
    assert url == base + ("?" + query);
    assert url[|base|..][..1] == "?";
    ContainsAt(url, "?", |base|);
    var tail := "?" + query;
    assert tail[1] == query[0] && tail[1..] == query;
    NotTagged(tail, EnglishQuery);
    if Contains(url, EnglishQuery) {
      SkipLeadFree(base, tail, EnglishQuery);
    }
  }

  /**
   * prepare_profile_url is not idempotent: a URL that already carries
   * another query string gains one more "&l=english" on every call.
   */
  lemma PrepareNotIdempotent(base: string, query: string)
    requires '?' !in base && '?' !in query && |query| > 0 && query[0] != 'l'
    ensures PrepareProfileUrl(base + "?" + query) == base + "?" + query + EnglishParam
    ensures PrepareProfileUrl(PrepareProfileUrl(base + "?" + query)) == base + "?" + query + EnglishParam + EnglishParam
  {
    PrepareOtherQuery(base, query);
    var longer := query + EnglishParam;
    assert '?' !in EnglishParam;
    assert longer[0] == query[0];
    PrepareOtherQuery(base, longer);
    assert base + "?" + query + EnglishParam == base + "?" + longer;
  }

  /** A URL whose query string does not start with "l" gets EnglishParam appended. */
  lemma PrepareOtherQuery(base: string, query: string)
    requires '?' !in base && '?' !in query && |query| > 0 && query[0] != 'l'
    ensures PrepareProfileUrl(base + "?" + query) == base + "?" + query + EnglishParam
  {
    OtherQueryHasNoEnglish(base, query);
  }

  // ------------------------------------------------------ classification

  /** What one `requests.get` produced: a reply, or an exception with its message. */
  datatype FetchOutcome =
    | Response(status: nat, textNodes: seq<string>)
    | Raised(message: string)

  /** The four kinds of page the classifier distinguishes. */
  datatype Verdict = Fresh(banText: string) | Stale(banText: string) | Clean | Error(detail: string)

  const BanPhrase := "day(s) since last ban"
  const FreshBanPhrase := "0 " + BanPhrase
  const AlertTag := "[ALERT]"
  const ErrorTag := "[ERROR]"

  /** The search lambda: a text node whose lowercased text holds the ban phrase. */
  predicate IsBanNode(t: string) {
    Contains(Lower(t), BanPhrase)
  }

  function FirstBanNodeFrom(nodes: seq<string>, i: nat): (r: Option<nat>)
    requires i <= |nodes|
    ensures r.Some? ==> i <= r.value < |nodes| && IsBanNode(nodes[r.value])
    ensures r.Some? ==> forall j :: i <= j < r.value ==> !IsBanNode(nodes[j])
    ensures r.None? ==> forall j :: i <= j < |nodes| ==> !IsBanNode(nodes[j])
    decreases |nodes| - i
  {
    if i == |nodes| then None
    else if IsBanNode(nodes[i]) then Some(i)
    else FirstBanNodeFrom(nodes, i + 1)
  }

  /** `soup.find(string=...)`: the first matching text node in document order. */
  function FirstBanNode(nodes: seq<string>): (r: Option<nat>)
    ensures r.Some? ==> r.value < |nodes| && IsBanNode(nodes[r.value])
    ensures r.Some? ==> forall j :: 0 <= j < r.value ==> !IsBanNode(nodes[j])
    ensures r.None? ==> forall j :: 0 <= j < |nodes| ==> !IsBanNode(nodes[j])
  {
    FirstBanNodeFrom(nodes, 0)
  }

  /** The decision check_ban takes once the page is fetched. */
  function Classify(f: FetchOutcome): Verdict {
    match f
    case Raised(message) => Error(message)
    case Response(status, nodes) =>
      if status != 200 then Error("HTTP " + Decimal(status))
      else match FirstBanNode(nodes)
        case None => Clean
        case Some(i) =>
          if Contains(Lower(Strip(nodes[i])), FreshBanPhrase) then Fresh(Strip(nodes[i]))
          else Stale(Strip(nodes[i]))
  }

  const FreshLead := AlertTag + " BAN DETECTED: "
  const CleanLine := "[OK] NO BAN"
  const OldBanNote := " (Old ban found: "
  const StaleLead := CleanLine + OldBanNote
  const ErrorLead := ErrorTag + " "

  /** The line check_ban returns for a verdict. */
  function Render(v: Verdict): string {
    match v
    case Fresh(t) => FreshLead + t
    case Stale(t) => StaleLead + t + ")"
    case Clean => CleanLine
    case Error(d) => ErrorLead + d
  }

  /** check_ban on a fetch outcome. */
  function CheckBan(f: FetchOutcome): string {
    Render(Classify(f))
  }

  /** Text that the fetch outcome carries into the result line holds no '['. */
  predicate PlainPayload(f: FetchOutcome) {
    match f
    case Raised(message) => '[' !in message
    case Response(_, nodes) => forall i :: 0 <= i < |nodes| ==> '[' !in nodes[i]
  }

  lemma {:induction false} StripLeftKeepsOut(s: string, c: char)
    requires c !in s
    ensures c !in StripLeft(s)
    decreases |s|
  {
    if |s| > 0 && IsSpace(s[0]) {
      assert forall k :: 0 <= k < |s[1..]| ==> s[1..][k] == s[k + 1];
      StripLeftKeepsOut(s[1..], c);
    }
  }

  lemma {:induction false} StripRightKeepsOut(s: string, c: char)
    requires c !in s
    ensures c !in StripRight(s)
    decreases |s|
  {
    if |s| > 0 && IsSpace(s[|s| - 1]) {
      assert forall k :: 0 <= k < |s| - 1 ==> s[..|s| - 1][k] == s[k];
      StripRightKeepsOut(s[..|s| - 1], c);
    }
  }

  lemma DecimalPlain(n: nat)
    ensures '[' !in Decimal(n)
  {
    var d := Decimal(n);
    assert forall i :: 0 <= i < |d| ==> d[i] != '[';
  }

  /** The payload of a plain outcome's verdict holds no '['. */
  lemma ClassifyPlain(f: FetchOutcome)
    requires PlainPayload(f)
    ensures Classify(f).Fresh? || Classify(f).Stale? ==> '[' !in Classify(f).banText
    ensures Classify(f).Error? ==> '[' !in Classify(f).detail
  {
    match f
    case Raised(_) =>
    case Response(status, nodes) =>
      if status != 200 {
        DecimalPlain(status);
        assert '[' !in "HTTP ";
      } else if FirstBanNode(nodes).Some? {
        var t := nodes[FirstBanNode(nodes).value];
        StripLeftKeepsOut(t, '[');
        StripRightKeepsOut(StripLeft(t), '[');
      }
  }

  // The fixed parts of the result lines: only their first character is '['.

  lemma FreshLeadFacts()
    ensures |FreshLead| >= 2 && FreshLead[1] == 'A' && '[' !in FreshLead[1..]
  {
  }

  lemma CleanLineFacts()
    ensures |CleanLine| >= 2 && CleanLine[1] == 'O' && '[' !in CleanLine[1..]
  {
  }

  lemma OldBanNoteFacts()
    ensures '[' !in OldBanNote
  {
  }

  lemma StaleLeadFacts()
    ensures |StaleLead| >= 2 && StaleLead[1] == 'O' && '[' !in StaleLead[1..]
  {
    CleanLineFacts();
    OldBanNoteFacts();
    assert StaleLead[1..] == CleanLine[1..] + OldBanNote;
  }

  lemma ErrorLeadFacts()
    ensures |ErrorLead| >= 2 && ErrorLead[1] == 'E' && '[' !in ErrorLead[1..]
  {
  }

  /** A lead whose only '[' is its first character, followed by text without '[', holds no tag it does not start with. */
  lemma UntaggedLine(lead: string, t: string, tag: string)
    requires |lead| >= 2 && |tag| >= 2 && tag[0] == '[' && lead[1] != tag[1]
    requires '[' !in lead[1..] && '[' !in t
    ensures !Contains(lead + t, tag)
  {
    var line := lead + t;
    assert line[1] == lead[1];
    assert line[1..] == lead[1..] + t;
    NotTagged(line, tag);
  }

  lemma FreshLineTags(t: string)
    requires '[' !in t
    ensures Contains(Render(Fresh(t)), AlertTag) && !Contains(Render(Fresh(t)), ErrorTag)
  {
    FreshLeadFacts();
    assert FreshLead + t == AlertTag + (" BAN DETECTED: " + t);
    ContainsPrefix(AlertTag, " BAN DETECTED: " + t);
    UntaggedLine(FreshLead, t, ErrorTag);
  }

  lemma StaleLineTags(t: string)
    requires '[' !in t
    ensures !Contains(Render(Stale(t)), AlertTag) && !Contains(Render(Stale(t)), ErrorTag)
  {
    StaleLeadFacts();
    assert '[' !in t + ")";
    assert Render(Stale(t)) == StaleLead + (t + ")");
    UntaggedLine(StaleLead, t + ")", AlertTag);
    UntaggedLine(StaleLead, t + ")", ErrorTag);
  }

  lemma CleanLineTags()
    ensures !Contains(Render(Clean), AlertTag) && !Contains(Render(Clean), ErrorTag)
  {
    CleanLineFacts();
    assert CleanLine + "" == CleanLine;
    UntaggedLine(CleanLine, "", AlertTag);
    UntaggedLine(CleanLine, "", ErrorTag);
  }

  lemma ErrorLineTags(d: string)
    ensures Contains(Render(Error(d)), ErrorTag)
    ensures '[' !in d ==> !Contains(Render(Error(d)), AlertTag)
  {
    assert ErrorLead + d == ErrorTag + (" " + d);
    ContainsPrefix(ErrorTag, " " + d);
    if '[' !in d {
      ErrorLeadFacts();
      UntaggedLine(ErrorLead, d, AlertTag);
    }
  }

  /**
   * The tags that the poll loop and the sampler look for single out
   * exactly the fresh verdicts and the error verdicts, as long as the
   * carried text holds no '['.
   */
  lemma RenderTags(v: Verdict)
    requires v.Fresh? || v.Stale? ==> '[' !in v.banText
    requires v.Error? ==> '[' !in v.detail
    ensures Contains(Render(v), AlertTag) <==> v.Fresh?
    ensures Contains(Render(v), ErrorTag) <==> v.Error?
  {
    match v
    case Fresh(t) => FreshLineTags(t);
    case Stale(t) => StaleLineTags(t);
    case Clean => CleanLineTags();
    case Error(d) => ErrorLineTags(d);
  }

  /** For a plain outcome, "[ALERT]" in the line means Fresh and "[ERROR]" in the line means Error. */
  lemma CheckBanTags(f: FetchOutcome)
    requires PlainPayload(f)
    ensures Contains(CheckBan(f), AlertTag) <==> Classify(f).Fresh?
    ensures Contains(CheckBan(f), ErrorTag) <==> Classify(f).Error?
  {
    ClassifyPlain(f);
    RenderTags(Classify(f));
  }

  /** A non-200 status or an exception always yields an ERROR line, never an ALERT line. */
  lemma FailedFetchIsError(f: FetchOutcome)
    requires f.Raised? || f.status != 200
    ensures Classify(f).Error?
    ensures Contains(CheckBan(f), ErrorTag)
    ensures f.Response? || '[' !in f.message ==> !Contains(CheckBan(f), AlertTag)
  {
    if f.Response? {
      DecimalPlain(f.status);
      assert '[' !in "HTTP ";
    }
    ErrorLineTags(Classify(f).detail);
  }

  /** An exception message that itself holds "[ALERT]" makes the ERROR line count as an ALERT too. */
  lemma AlertTagInMessageLeaks(message: string)
    requires Contains(message, AlertTag)
    ensures Contains(CheckBan(Raised(message)), AlertTag)
    ensures Contains(CheckBan(Raised(message)), ErrorTag)
  {
    ContainsInTail(ErrorLead, message, AlertTag);
    FailedFetchIsError(Raised(message));
  }

  /** A page without any ban node is "[OK] NO BAN". */
  lemma NoBanNodeIsClean(nodes: seq<string>)
    requires forall i :: 0 <= i < |nodes| ==> !IsBanNode(nodes[i])
    ensures CheckBan(Response(200, nodes)) == CleanLine
  {
    assert FirstBanNode(nodes).None?;
  }

  lemma {:induction false} FirstBanNodeFromAppend(nodes: seq<string>, more: seq<string>, i: nat)
    requires i <= |nodes| && FirstBanNodeFrom(nodes, i).Some?
    ensures FirstBanNodeFrom(nodes + more, i) == FirstBanNodeFrom(nodes, i)
    decreases |nodes| - i
  {
    assert (nodes + more)[i] == nodes[i];
    if !IsBanNode(nodes[i]) {
      FirstBanNodeFromAppend(nodes, more, i + 1);
    }
  }

  /** Only the first ban node in document order is read: nodes after it change nothing. */
  lemma FirstBanNodeDecides(nodes: seq<string>, more: seq<string>)
    requires FirstBanNode(nodes).Some?
    ensures Classify(Response(200, nodes + more)) == Classify(Response(200, nodes))
  {
    FirstBanNodeFromAppend(nodes, more, 0);
    var i := FirstBanNode(nodes).value;
    assert (nodes + more)[i] == nodes[i];
  }

  /**
   * The fresh-ban test is a substring test: any day count ending in 0
   * ("10", "20", "100" day(s) since last ban) classifies as a fresh ban.
   */
  lemma TrailingZeroCountIsFresh(digits: string)
    requires forall i :: 0 <= i < |digits| ==> IsDigit(digits[i])
    ensures Classify(Response(200, [digits + FreshBanPhrase])) == Fresh(digits + FreshBanPhrase)
  {
    var node := digits + FreshBanPhrase;
    PhraseFacts();
    BanPhraseFacts();
    LowerAppend(digits, FreshBanPhrase);
    LowerOfLower(digits);
    assert Lower(node) == node;
    assert node == (digits + "0 ") + BanPhrase;
    ContainsSuffix(digits + "0 ", BanPhrase);
    assert FirstBanNode([node]) == Some(0);
    assert node[|node| - 1] == BanPhrase[20];
    assert node[0] == if |digits| > 0 then digits[0] else '0';
    StripUnpadded(node);
    ContainsSuffix(digits, FreshBanPhrase);
  }

  lemma BanPhraseFacts()
    ensures |BanPhrase| == 21 && BanPhrase[20] == 'n'
    ensures NoUpper(BanPhrase) && '0' !in BanPhrase
  {
  }

  lemma PhraseFacts()
    ensures Lower(BanPhrase) == BanPhrase && Lower(FreshBanPhrase) == FreshBanPhrase
    ensures Contains(BanPhrase, BanPhrase) && Contains(FreshBanPhrase, FreshBanPhrase)
  {
    BanPhraseFacts();
    LowerOfLower(BanPhrase);
    LowerAppend("0 ", BanPhrase);
    LowerOfLower("0 ");
    assert "" + BanPhrase == BanPhrase && "" + FreshBanPhrase == FreshBanPhrase;
    ContainsSuffix("", BanPhrase);
    ContainsSuffix("", FreshBanPhrase);
  }

  lemma NoFreshWindowAfterNonZero(digits: string, node: string)
    requires |digits| > 0 && forall i :: 0 <= i < |digits| ==> IsDigit(digits[i])
    requires digits[|digits| - 1] != '0'
    requires node == digits + " " + BanPhrase
    ensures forall i :: 0 <= i <= |node| ==> !IsPrefix(FreshBanPhrase, node[i..])
  {
    var rest := " " + BanPhrase;
    assert node == digits + rest;
    BanPhraseFacts();
    assert '0' !in rest;
    assert FreshBanPhrase[0] == '0' && FreshBanPhrase[1] == ' ';
    forall i | 0 <= i <= |node|
      ensures !IsPrefix(FreshBanPhrase, node[i..])
    {
      if i >= |digits| {
        if i < |node| {
          assert node[i] == rest[i - |digits|];
        }
        WindowMismatch(node, FreshBanPhrase, i, 0);
      } else if i == |digits| - 1 {
        WindowMismatch(node, FreshBanPhrase, i, 0);
      } else {
        assert node[i + 1] == digits[i + 1];
        WindowMismatch(node, FreshBanPhrase, i, 1);
      }
    }
  }

  lemma NoFreshPhraseAfterNonZero(digits: string, node: string)
    requires |digits| > 0 && forall i :: 0 <= i < |digits| ==> IsDigit(digits[i])
    requires digits[|digits| - 1] != '0'
    requires node == digits + " " + BanPhrase
    ensures !Contains(node, FreshBanPhrase)
  {
    NoFreshWindowAfterNonZero(digits, node);
    NotContainsAnywhere(node, FreshBanPhrase);
  }

  /**
   * A day count whose last digit is not 0 ("1", "7", "15" day(s) since
   * last ban) is an old ban: the page stays OK.
   */
  lemma NonZeroDayCountIsStale(digits: string)
    requires |digits| > 0 && forall i :: 0 <= i < |digits| ==> IsDigit(digits[i])
    requires digits[|digits| - 1] != '0'
    ensures Classify(Response(200, [digits + " " + BanPhrase])) == Stale(digits + " " + BanPhrase)
  {
    var node := digits + " " + BanPhrase;
    CountedNodeFacts(digits);
    assert FirstBanNode([node]) == Some(0);
    NoFreshPhraseAfterNonZero(digits, node);
  }

  /** A node made of digits, a space and the ban phrase is lower case, matches, and has nothing to strip. */
  lemma CountedNodeFacts(digits: string)
    requires |digits| > 0 && forall i :: 0 <= i < |digits| ==> IsDigit(digits[i])
    ensures var node := digits + " " + BanPhrase;
      Lower(node) == node && IsBanNode(node) && Strip(node) == node
  {
    var node := digits + " " + BanPhrase;
    var rest := " " + BanPhrase;
    assert node == digits + rest;
    BanPhraseFacts();
    assert NoUpper(rest);
    LowerOfLower(rest);
    LowerOfLower(digits);
    LowerAppend(digits, rest);
    ContainsSuffix(digits + " ", BanPhrase);
    assert node[|node| - 1] == BanPhrase[20];
    assert node[0] == digits[0];
    StripUnpadded(node);
  }

  // ------------------------------------------------------------ sampler

  /** The lines of `n` consecutive check_ban calls; `fetch(i)` is what the i-th call fetched. */
  function Samples(fetch: nat -> FetchOutcome, n: nat): seq<string> {
    seq(n, i requires 0 <= i < n => CheckBan(fetch(i)))
  }

  /** How many lines hold `tag`. */
  function CountTagged(lines: seq<string>, tag: string): (c: nat)
    ensures c <= |lines|
    ensures c == 0 <==> forall i :: 0 <= i < |lines| ==> !Contains(lines[i], tag)
    ensures c == |lines| <==> forall i :: 0 <= i < |lines| ==> Contains(lines[i], tag)
  {
    if |lines| == 0 then 0
    else CountTagged(lines[..|lines| - 1], tag) + (if Contains(lines[|lines| - 1], tag) then 1 else 0)
  }

  /** The verdict of a confirmation pass of `total` samples with quorum `quorum`. */
  function Confirmed(fetch: nat -> FetchOutcome, total: nat, quorum: int): bool {
    CountTagged(Samples(fetch, total), AlertTag) >= quorum
  }

  /**
   * multi_check_ban: exactly `totalChecks` samples in order (none when
   * negative, as `range` gives), each followed by a pause of `waitSeconds`
   * (`waits`, the durations passed to time.sleep), ALERT and ERROR lines
   * counted, and the ban confirmed when the ALERT count reaches
   * `minAlerts` whatever the error count.
   */
  method MultiCheckBan(fetch: nat -> FetchOutcome, totalChecks: int, waitSeconds: int, minAlerts: int)
    returns (confirmed: bool, results: seq<string>, waits: seq<int>, alerts: nat, errors: nat)
    ensures |results| == (if totalChecks < 0 then 0 else totalChecks)
    ensures |waits| == |results| && forall i :: 0 <= i < |waits| ==> waits[i] == waitSeconds
    ensures forall i :: 0 <= i < |results| ==> results[i] == CheckBan(fetch(i))
    ensures totalChecks >= 0 ==> results == Samples(fetch, totalChecks)
    ensures alerts == CountTagged(results, AlertTag) && errors == CountTagged(results, ErrorTag)
    ensures alerts + errors <= 2 * |results|
    ensures confirmed <==> alerts >= minAlerts
  {
    alerts, errors, results, waits := 0, 0, [], [];
    var n: nat := if totalChecks < 0 then 0 else totalChecks;
    var i: nat := 0;
    while i < n
      invariant i <= n && results == Samples(fetch, i)
      invariant |waits| == i && forall k :: 0 <= k < i ==> waits[k] == waitSeconds
      invariant alerts == CountTagged(results, AlertTag) && errors == CountTagged(results, ErrorTag)
    {
      var result := CheckBan(fetch(i));
      SamplesGrow(fetch, i);
      results := results + [result];
      if Contains(result, AlertTag) {
        alerts := alerts + 1;
      }
      if Contains(result, ErrorTag) {
        errors := errors + 1;
      }
      waits := waits + [waitSeconds];
      i := i + 1;
    }
    confirmed := alerts >= minAlerts;
  }

  /** One more sample extends the list by that sample's line. */
  lemma SamplesGrow(fetch: nat -> FetchOutcome, n: nat)
    ensures Samples(fetch, n + 1) == Samples(fetch, n) + [CheckBan(fetch(n))]
    ensures Samples(fetch, n + 1)[..n] == Samples(fetch, n)
  {
  }

  /** How many of the first `n` fetches classify as a fresh ban. */
  function CountFresh(fetch: nat -> FetchOutcome, n: nat): nat {
    if n == 0 then 0 else CountFresh(fetch, n - 1) + (if Classify(fetch(n - 1)).Fresh? then 1 else 0)
  }

  /** On plain pages, the sampler's ALERT count is the number of fresh-ban samples. */
  lemma {:induction false} AlertsCountFreshSamples(fetch: nat -> FetchOutcome, n: nat)
    requires forall i: nat :: i < n ==> PlainPayload(fetch(i))
    ensures CountTagged(Samples(fetch, n), AlertTag) == CountFresh(fetch, n)
  {
    if n > 0 {
      assert Samples(fetch, n)[..n - 1] == Samples(fetch, n - 1);
      AlertsCountFreshSamples(fetch, n - 1);
      CheckBanTags(fetch(n - 1));
    }
  }

  /**
   * The quorum rule: on plain pages a pass is confirmed exactly when at
   * least `quorum` samples are fresh bans; with the quorum of 2, two fresh
   * samples confirm and a single one does not.
   */
  lemma QuorumIsFreshCount(fetch: nat -> FetchOutcome, total: nat, quorum: int)
    requires forall i: nat :: i < total ==> PlainPayload(fetch(i))
    ensures Confirmed(fetch, total, quorum) <==> CountFresh(fetch, total) >= quorum
    ensures quorum == 2 && CountFresh(fetch, total) == 1 ==> !Confirmed(fetch, total, quorum)
  {
    AlertsCountFreshSamples(fetch, total);
  }

  // ----------------------------------------------------- rehearsal plan

  datatype BanKind = Vac | Game

  function KindName(kind: Option<BanKind>): string {
    match kind
    case Some(Vac) => "VAC"
    case Some(Game) => "Game"
    case None => "None"
  }

  /** _sim_trigger_check, _sim_ban_kind and _sim_triggered. */
  datatype SimPlan = SimPlan(triggerCheck: Option<int>, kind: Option<BanKind>, triggered: bool)

  const NoPlan := SimPlan(None, None, false)

  /** _init_sim_once, with `draw` and `kind` the values of random.randint(3, 10) and random.choice. */
  function InitSimOnce(plan: SimPlan, draw: int, kind: BanKind): SimPlan
    requires 3 <= draw <= 10
  {
    if plan.triggerCheck.None? then plan.(triggerCheck := Some(draw), kind := Some(kind)) else plan
  }

  /** The first draw is kept for the whole run: later calls change nothing. */
  lemma InitSimOnceDrawsOnce(plan: SimPlan, d1: int, k1: BanKind, d2: int, k2: BanKind)
    requires 3 <= d1 <= 10 && 3 <= d2 <= 10
    ensures InitSimOnce(InitSimOnce(plan, d1, k1), d2, k2) == InitSimOnce(plan, d1, k1)
    ensures plan.triggerCheck.None? ==> InitSimOnce(plan, d1, k1).triggerCheck == Some(d1)
    ensures InitSimOnce(plan, d1, k1).triggered == plan.triggered
  {
  }

  // ----------------------------------------------------------- hand-off

  /** The environment's BANSHIELD_DRY_RUN for SendTrade.js: "1" for a rehearsal, inherited otherwise. */
  function ChildDryRunFlag(parent: Option<string>, dryRun: bool): Option<string> {
    if dryRun then Some("1") else parent
  }
}

=== FILE: control_panel.dfy ===
/**
 * The decisions of the BanShield control panel (BanShieldGUI.py), taken
 * apart from its widgets: how settings travel between the `.env` file and
 * the form, how a log line is coloured and which status a line of the
 * checker's output sets, and when the checker is restarted.
 *
 * The environment after `load_dotenv` and the file `save_config` writes
 * are both a map from variable name to value. Widgets become the fields of
 * the class `Panel`; Qt, the threads and the dialogs are not modelled.
 */
module ControlPanel {
  import opened Wrappers
  import opened Text
  import BanChecker
  import PollLoop
  import SendTrade

  // ------------------------------------------------------------ environment

  type Env = map<string, string>

  /** `os.getenv(key, default)`. */
  function Lookup(env: Env, key: string, default: string): string {
    if key in env then env[key] else default
  }

  /** `os.getenv(key)` without a default. */
  function Get(env: Env, key: string): Option<string> {
    if key in env then Some(env[key]) else None
  }

  /** One of the credential fields of the form: a line edit, or a checkbox saved as "true"/"false". */
  datatype Field = Field(key: string, checkbox: bool)

  /** `env_fields`, in the order of the form and of the saved file. */
  const Fields: seq<Field> := [
    Field("ProfileToWatch", false),
    Field("WatchingProfileUsername", false),
    Field("WatchingProfilePassword", false),
    Field("WatchingProfileSharedSecret", false),
    Field("WatchingProfileIdentitySecret", false),
    Field("BankAccountTradeURL", false),
    Field("BankAccountUsername", false),
    Field("BankAccountPassword", false),
    Field("BankAccountSharedSecret", false),
    Field("AutoAccept", true),
    Field("TELEGRAM_BOT_TOKEN", false),
    Field("TELEGRAM_CHAT_ID", false),
    Field("TelegramNotify", true)
  ]

  const InventoryKey := "INVENTORY_TYPE"
  const IntervalKey := "CHECK_INTERVAL"
  const AutoRestartKey := "AUTO_RESTART"
  const ScheduledRestartKey := "SCHEDULED_RESTART"

  /** Every variable the panel reads and writes, each once. */
  lemma KeysDistinct()
    ensures DistinctKeys(Fields)
  {
    FieldKeysDistinct();
    FieldKeysNotSettings();
  }

  lemma FieldKeysDistinct()
    ensures forall i, j :: 0 <= i < j < |Fields| ==> Fields[i].key != Fields[j].key
  {
  }

  lemma FieldKeysNotSettings()
    ensures forall i :: 0 <= i < |Fields| ==>
      Fields[i].key != InventoryKey && Fields[i].key != IntervalKey &&
      Fields[i].key != AutoRestartKey && Fields[i].key != ScheduledRestartKey
  {
  }

  /** What a form field holds. */
  datatype FieldValue = Text(text: string) | Flag(on: bool)

  /** `str(b).lower()`. */
  function BoolText(b: bool): string {
    if b then "true" else "false"
  }

  /** `value.lower() == "true"`: how a saved flag is read back. */
  function IsTrue(v: string): (r: bool)
    ensures r ==> |v| == 4
    ensures r == (v == BoolText(true) || Lower(v) == "true")
  {
    LowerOfLower("true");
    Lower(v) == "true"
  }

  lemma BoolTextReadsBack(b: bool)
    ensures IsTrue(BoolText(b)) == b
  {
    if b {
      LowerOfLower("true");
    } else {
      assert |Lower("false")| == 5;
    }
  }

  /**
   * The checkboxes the panel saves read back as saved in the two scripts
   * that use them: TelegramNotify in BanChecker.py (on when unset) and
   * AutoAccept in SendTrade.js (off when unset).
   */
  lemma SavedFlagsReadAlike(b: bool)
    ensures BanChecker.TelegramNotify(Some(BoolText(b))) == b
    ensures SendTrade.AutoAcceptEnabled(BoolText(b)) == b
    ensures BanChecker.TelegramNotify(None) && !SendTrade.AutoAcceptEnabled("")
  {
    BoolTextReadsBack(b);
    LowerOfLower("true");
    assert |Lower("false")| == 5;
  }

  /** A field as load_config fills it from the environment (missing: ""). */
  function LoadField(f: Field, env: Env): (r: FieldValue)
    ensures f.checkbox <==> r.Flag?
    ensures !f.checkbox ==> r.text == Lookup(env, f.key, "")
    ensures f.checkbox ==> (r.on <==> Lower(Lookup(env, f.key, "")) == "true")
    ensures f.checkbox && f.key !in env ==> !r.on
  {
    var v := Lookup(env, f.key, "");
    if f.checkbox then Flag(IsTrue(v)) else Text(v)
  }

  /** A field as save_config writes it. */
  function SaveField(v: FieldValue): string {
    match v
    case Text(t) => t
    case Flag(b) => BoolText(b)
  }

  // ------------------------------------------------------------ integers

  /** The value of a non-empty run of decimal digits. */
  function DigitsValue(s: string): (n: nat)
    requires forall i :: 0 <= i < |s| ==> IsDigit(s[i])
    decreases |s|
  {
    if |s| == 0 then 0
    else
      assert IsDigit(s[|s| - 1]);
      DigitsValue(s[..|s| - 1]) * 10 + (s[|s| - 1] as int - '0' as int)
  }

  predicate AllDigits(s: string) {
    |s| > 0 && forall i :: 0 <= i < |s| ==> IsDigit(s[i])
  }

  /** A sign followed by at least one digit. */
  predicate SignedDigits(t: string) {
    |t| >= 2 && (t[0] == '-' || t[0] == '+') && AllDigits(t[1..])
  }

  /**
   * `int(s)`: surrounding whitespace, an optional sign and at least one
   * decimal digit; anything else raises (None).
   */
  function ParseInt(s: string): (r: Option<int>)
    ensures r.Some? ==> Strip(s) != ""
    ensures r.Some? <==> AllDigits(Strip(s)) || SignedDigits(Strip(s))
    ensures AllDigits(Strip(s)) ==> r == Some(DigitsValue(Strip(s)))
    ensures SignedDigits(Strip(s)) && Strip(s)[0] == '-' ==> r == Some(0 - DigitsValue(Strip(s)[1..]))
    ensures SignedDigits(Strip(s)) && Strip(s)[0] == '+' ==> r == Some(DigitsValue(Strip(s)[1..]))
  {
    var t := Strip(s);
    if AllDigits(t) then Some(DigitsValue(t))
    else if |t| >= 2 && t[0] == '-' && AllDigits(t[1..]) then Some(0 - DigitsValue(t[1..]))
    else if |t| >= 2 && t[0] == '+' && AllDigits(t[1..]) then Some(DigitsValue(t[1..]))
    else None
  }

  lemma {:induction false} DigitsOfDecimal(n: nat)
    ensures AllDigits(Decimal(n)) && DigitsValue(Decimal(n)) == n
  {
    var d := Decimal(n);
    if n >= 10 {
      DigitsOfDecimal(n / 10);
      assert d[..|d| - 1] == Decimal(n / 10);
    }
  }

  /** `int(str(n))` gives `n` back. */
  lemma ParseDecimal(n: nat)
    ensures ParseInt(Decimal(n)) == Some(n)
  {
    var d := Decimal(n);
    DigitsOfDecimal(n);
    assert !IsSpace(d[0]) && !IsSpace(d[|d| - 1]);
    StripUnpadded(d);
  }

  /** `str(n)` for any integer. */
  function IntText(n: int): (r: string)
    ensures |r| > 0
  {
    if n < 0 then "-" + Decimal(-n) else Decimal(n)
  }

  /** `int(str(n))` gives `n` back, negative or not. */
  lemma ParseIntText(n: int)
    ensures ParseInt(IntText(n)) == Some(n)
  {
    if n >= 0 {
      ParseDecimal(n);
    } else {
      var d := Decimal(-n);
      var t := "-" + d;
      DigitsOfDecimal(-n);
      assert !IsSpace(t[0]) && t[|t| - 1] == d[|d| - 1] && !IsSpace(t[|t| - 1]);
      StripUnpadded(t);
      assert !AllDigits(t) && t[1..] == d;
    }
  }

  // --------------------------------------------------------- inventories

  /** The state of the four inventory checkboxes. */
  datatype Selection = Selection(all: bool, cs2: bool, tf2: bool, dota2: bool)

  /** cs2 alone: what INVENTORY_TYPE's default, "cs2", loads as. */
  const Cs2Only := Selection(false, true, false, false)

  /** The panel keeps "all" exclusive: while it is checked the three games are not. */
  predicate Exclusive(sel: Selection) {
    sel.all ==> !sel.cs2 && !sel.tf2 && !sel.dota2
  }

  /** The stripped, non-blank pieces, in order. */
  function NonBlank(pieces: seq<string>): (r: seq<string>)
    ensures forall t :: t in r ==> t != ""
    ensures forall i :: 0 <= i < |pieces| && Strip(pieces[i]) != "" ==> Strip(pieces[i]) in r
    ensures forall t :: t in r ==> exists i :: 0 <= i < |pieces| && Strip(pieces[i]) == t
    decreases |pieces|
  {
    if |pieces| == 0 then []
    else
      var rest := NonBlank(pieces[1..]);
      assert forall i :: 1 <= i < |pieces| ==> pieces[i] == pieces[1..][i - 1];
      if Strip(pieces[0]) != "" then [Strip(pieces[0])] + rest else rest
  }

  /** `[x.strip() for x in raw.lower().split(",") if x.strip()]`. */
  function Tokens(raw: string): seq<string> {
    NonBlank(Split(Lower(raw), ','))
  }

  /** The checkboxes load_config sets from the value of INVENTORY_TYPE. */
  function LoadSelection(raw: string): (r: Selection)
    ensures Exclusive(r)
    ensures r.all <==> "all" in Tokens(raw)
    ensures !r.all ==>
      (r.cs2 <==> "cs2" in Tokens(raw)) && (r.tf2 <==> "tf2" in Tokens(raw)) && (r.dota2 <==> "dota2" in Tokens(raw))
  {
    var tokens := Tokens(raw);
    if "all" in tokens then Selection(true, false, false, false)
    else Selection(false, "cs2" in tokens, "tf2" in tokens, "dota2" in tokens)
  }

  /** The checked games in the order cs2, tf2, dota2. */
  function Games(sel: Selection): (r: seq<string>)
    ensures |r| <= 3
    ensures forall g :: g in r <==> (g == "cs2" && sel.cs2) || (g == "tf2" && sel.tf2) || (g == "dota2" && sel.dota2)
  {
    (if sel.cs2 then ["cs2"] else []) + (if sel.tf2 then ["tf2"] else []) + (if sel.dota2 then ["dota2"] else [])
  }

  /** The INVENTORY_TYPE value save_config writes. */
  function SaveSelection(sel: Selection): string {
    if sel.all then "all"
    else if Games(sel) == [] then "cs2"
    else Join(Games(sel), ',')
  }

  /** Save then load: an exclusive selection comes back, except that an empty one becomes cs2. */
  lemma SelectionRoundTrip(sel: Selection)
    requires Exclusive(sel)
    ensures LoadSelection(SaveSelection(sel)) ==
      if !sel.all && !sel.cs2 && !sel.tf2 && !sel.dota2 then Cs2Only else sel
  {
    if sel.all {
      PlainToken("all");
    } else if Games(sel) == [] {
      PlainToken("cs2");
    } else {
      GamesRoundTrip(sel);
    }
  }

  lemma GamesRoundTrip(sel: Selection)
    requires !sel.all && Games(sel) != []
    ensures LoadSelection(SaveSelection(sel)) == sel
  {
    GamesTokens(sel, SaveSelection(sel));
    LoadFromTokens(SaveSelection(sel), sel);
  }

  /** A value whose tokens are exactly the checked games loads those games. */
  lemma LoadFromTokens(raw: string, sel: Selection)
    requires !sel.all
    requires forall g :: g in Tokens(raw) <==> g in Games(sel)
    ensures LoadSelection(raw) == sel
  {
    assert "all" !in Games(sel);
  }

  /** The tokens of a joined list of games are exactly those games. */
  lemma GamesTokens(sel: Selection, raw: string)
    requires !sel.all && Games(sel) != [] && raw == SaveSelection(sel)
    ensures forall g :: g in Tokens(raw) <==> g in Games(sel)
  {
    var games := Games(sel);
    forall i | 0 <= i < |games|
      ensures ',' !in games[i] && NoUpper(games[i]) && Strip(games[i]) == games[i] && games[i] != ""
    {
      assert games[i] in games;
      PlainGame(games[i]);
    }
    LowerJoin(games, ',');
    SplitJoin(games, ',');
    var tokens := NonBlank(games);
    assert raw == Join(games, ',');
    assert Tokens(raw) == tokens;
    forall g | g in tokens
      ensures g in games
    {
      var i :| 0 <= i < |games| && Strip(games[i]) == g;
    }
  }

  /** The game names are lower-case words without commas or blanks. */
  lemma PlainGame(w: string)
    requires w == "cs2" || w == "tf2" || w == "dota2"
    ensures ',' !in w && NoUpper(w) && Strip(w) == w && w != ""
  {
    StripUnpadded(w);
  }

  /** A lower-case word without commas or blanks is its own only token. */
  lemma PlainToken(w: string)
    requires w in {"all", "cs2"}
    ensures Tokens(w) == [w]
  {
    LowerOfLower(w);
    SplitNoSep(w, ',');
    StripUnpadded(w);
  }

  lemma {:induction false} LowerJoin(xs: seq<string>, sep: char)
    requires 'a' <= sep || sep < 'A'
    requires forall i :: 0 <= i < |xs| ==> NoUpper(xs[i])
    ensures Lower(Join(xs, sep)) == Join(xs, sep)
    decreases |xs|
  {
    if |xs| == 1 {
      LowerOfLower(xs[0]);
    } else if |xs| > 1 {
      LowerJoin(xs[1..], sep);
      LowerOfLower(xs[0]);
      LowerAppend(xs[0] + [sep], Join(xs[1..], sep));
      LowerAppend(xs[0], [sep]);
    }
  }

  // ---------------------------------------------------------- log colour

  const ErrorColor := "#cc3333"
  const AlertColor := "#ffd700"
  const DryRunColor := "#86c47c"
  const OkColor := "#43d14f"
  const InfoColor := "#6699cc"
  const ActionColor := "#FFD580"
  const CheckColor := "#a6c8e0"
  const PlainColor := "#d8d8d8"

  predicate DryRunLine(text: string) {
    Contains(text, "[DRY-RUN]") || Contains(text, "Status: Running (DRY-RUN)")
  }

  /**
   * append_log's colour: the first tag found, in the order ERROR, ALERT,
   * DRY-RUN, OK, INFO, ACTION, CHECK; grey when none is.
   */
  function LogColor(text: string): (r: string)
    ensures r == ErrorColor <==> Contains(text, "[ERROR]")
    ensures r == AlertColor <==> !Contains(text, "[ERROR]") && Contains(text, "[ALERT]")
    ensures r == DryRunColor <==> !Contains(text, "[ERROR]") && !Contains(text, "[ALERT]") && DryRunLine(text)
    ensures r == OkColor <==>
      !Contains(text, "[ERROR]") && !Contains(text, "[ALERT]") && !DryRunLine(text) && Contains(text, "[OK]")
    ensures r == InfoColor <==>
      !Contains(text, "[ERROR]") && !Contains(text, "[ALERT]") && !DryRunLine(text) && !Contains(text, "[OK]") &&
      Contains(text, "[INFO]")
    ensures r == ActionColor <==>
      !Contains(text, "[ERROR]") && !Contains(text, "[ALERT]") && !DryRunLine(text) && !Contains(text, "[OK]") &&
      !Contains(text, "[INFO]") && Contains(text, "[ACTION]")
    ensures r == CheckColor <==>
      !Contains(text, "[ERROR]") && !Contains(text, "[ALERT]") && !DryRunLine(text) && !Contains(text, "[OK]") &&
      !Contains(text, "[INFO]") && !Contains(text, "[ACTION]") && Contains(text, "[CHECK]")
    ensures r == PlainColor <==>
      !Contains(text, "[ERROR]") && !Contains(text, "[ALERT]") && !DryRunLine(text) && !Contains(text, "[OK]") &&
      !Contains(text, "[INFO]") && !Contains(text, "[ACTION]") && !Contains(text, "[CHECK]")
  {
    if Contains(text, "[ERROR]") then ErrorColor
    else if Contains(text, "[ALERT]") then AlertColor
    else if DryRunLine(text) then DryRunColor
    else if Contains(text, "[OK]") then OkColor
    else if Contains(text, "[INFO]") then InfoColor
    else if Contains(text, "[ACTION]") then ActionColor
    else if Contains(text, "[CHECK]") then CheckColor
    else PlainColor
  }

  /** An error line is red whatever other tag it carries. */
  lemma ErrorWins(a: string, b: string)
    ensures LogColor(a + "[ERROR]" + b) == ErrorColor
  {
    ContainsPrefix("[ERROR]", b);
    ContainsInTail(a, "[ERROR]" + b, "[ERROR]");
    assert a + "[ERROR]" + b == a + ("[ERROR]" + b);
  }

  // ---------------------------------------------------------- last check

  /** `\[(\d{2}:\d{2}:\d{2})\]` at position i. */
  predicate ClockAt(s: string, i: nat) {
    i + 10 <= |s| && s[i] == '[' && IsDigit(s[i + 1]) && IsDigit(s[i + 2]) && s[i + 3] == ':' &&
    IsDigit(s[i + 4]) && IsDigit(s[i + 5]) && s[i + 6] == ':' && IsDigit(s[i + 7]) && IsDigit(s[i + 8]) &&
    s[i + 9] == ']'
  }

  /** `\d{4}-\d{2}-\d{2} \d{2}:\d{2}:\d{2}` at position i. */
  predicate DateTimeAt(s: string, i: nat) {
    i + 19 <= |s| &&
    IsDigit(s[i]) && IsDigit(s[i + 1]) && IsDigit(s[i + 2]) && IsDigit(s[i + 3]) && s[i + 4] == '-' &&
    IsDigit(s[i + 5]) && IsDigit(s[i + 6]) && s[i + 7] == '-' && IsDigit(s[i + 8]) && IsDigit(s[i + 9]) &&
    s[i + 10] == ' ' &&
    IsDigit(s[i + 11]) && IsDigit(s[i + 12]) && s[i + 13] == ':' && IsDigit(s[i + 14]) && IsDigit(s[i + 15]) &&
    s[i + 16] == ':' && IsDigit(s[i + 17]) && IsDigit(s[i + 18])
  }

  predicate HasClock(s: string) {
    exists i :: 0 <= i < |s| && ClockAt(s, i)
  }

  predicate NoClockBefore(s: string, i: nat) {
    forall j :: 0 <= j < i ==> !ClockAt(s, j)
  }

  predicate HasDateTime(s: string) {
    exists i :: 0 <= i < |s| && DateTimeAt(s, i)
  }

  predicate NoDateTimeBefore(s: string, i: nat) {
    forall j :: 0 <= j < i ==> !DateTimeAt(s, j)
  }

  /** `re.search`: the leftmost position from i on where the pattern matches. */
  function FirstClockFrom(s: string, i: nat): (r: Option<nat>)
    requires i <= |s|
    ensures r.Some? ==> i <= r.value < |s| && ClockAt(s, r.value)
    ensures r.Some? ==> forall j :: i <= j < r.value ==> !ClockAt(s, j)
    ensures r.None? ==> forall j :: i <= j < |s| ==> !ClockAt(s, j)
    decreases |s| - i
  {
    if i == |s| then None
    else if ClockAt(s, i) then Some(i)
    else FirstClockFrom(s, i + 1)
  }

  function FirstDateTimeFrom(s: string, i: nat): (r: Option<nat>)
    requires i <= |s|
    ensures r.Some? ==> i <= r.value < |s| && DateTimeAt(s, r.value)
    ensures r.Some? ==> forall j :: i <= j < r.value ==> !DateTimeAt(s, j)
    ensures r.None? ==> forall j :: i <= j < |s| ==> !DateTimeAt(s, j)
    decreases |s| - i
  {
    if i == |s| then None
    else if DateTimeAt(s, i) then Some(i)
    else FirstDateTimeFrom(s, i + 1)
  }

  /**
   * The "Last Check" label after append_log: unchanged (None) unless the
   * line says "Checking profile"; then the first bracketed clock, else
   * the first date and time, else "?".
   */
  function LastCheck(text: string): (r: Option<string>)
    ensures r.Some? <==> Contains(text, "Checking profile")
    ensures r.Some? ==> |r.value| == 8 || |r.value| == 19 || r.value == "?"
    ensures r.Some? && HasClock(text) ==>
      |r.value| == 8 &&
      exists i :: 0 <= i < |text| && ClockAt(text, i) && NoClockBefore(text, i) && r.value == text[i + 1..i + 9]
    ensures r.Some? && !HasClock(text) && HasDateTime(text) ==>
      |r.value| == 19 &&
      exists j :: 0 <= j < |text| && DateTimeAt(text, j) && NoDateTimeBefore(text, j) && r.value == text[j..j + 19]
    ensures r.Some? && !HasClock(text) && !HasDateTime(text) ==> r.value == "?"
  {
    if !Contains(text, "Checking profile") then None
    else
      match FirstClockFrom(text, 0)
      case Some(i) => Some(text[i + 1..i + 9])
      case None =>
        match FirstDateTimeFrom(text, 0)
        case Some(j) => Some(text[j..j + 19])
        case None => Some("?")
  }

  /** `HH:MM:SS`. */
  predicate IsClock(t: string) {
    |t| == 8 && IsDigit(t[0]) && IsDigit(t[1]) && t[2] == ':' && IsDigit(t[3]) && IsDigit(t[4]) && t[5] == ':' &&
    IsDigit(t[6]) && IsDigit(t[7])
  }

  /**
   * The panel stamps every output line with its own clock, so the label
   * shows the panel's time of a check, not the date the checker printed.
   */
  lemma StampedCheckShowsPanelClock(clock: string, line: string)
    requires IsClock(clock) && Contains(line, "Checking profile")
    ensures LastCheck(StdoutLogLine(clock, line)) == Some(clock)
  {
    var rest := " [STDOUT] " + Strip(line);
    assert StdoutLogLine(clock, line) == "[" + clock + "]" + rest;
    StripKeepsInner(line, "Checking profile");
    ContainsInTail(" [STDOUT] ", Strip(line), "Checking profile");
    ContainsInTail("[" + clock + "]", rest, "Checking profile");
    StampAtStart(clock, rest);
  }

  /** A line that starts with a bracketed clock has its first clock there. */
  lemma StampAtStart(clock: string, rest: string)
    requires IsClock(clock)
    ensures var text := "[" + clock + "]" + rest;
      FirstClockFrom(text, 0) == Some(0) && text[1..9] == clock
  {
    var text := "[" + clock + "]" + rest;
    assert text[0] == '[' && text[9] == ']';
    assert forall k :: 1 <= k < 9 ==> text[k] == clock[k - 1];
    assert ClockAt(text, 0);
    assert text[1..9] == clock;
  }

  /** Stripping whitespace keeps every piece that neither starts nor ends with whitespace. */
  lemma StripKeepsInner(s: string, p: string)
    requires Contains(s, p) && |p| > 0 && !IsSpace(p[0]) && !IsSpace(p[|p| - 1])
    ensures Contains(Strip(s), p)
  {
    StripLeftKeepsInner(s, p);
    StripRightKeepsInner(StripLeft(s), p);
  }

  lemma {:induction false} StripLeftKeepsInner(s: string, p: string)
    requires Contains(s, p) && |p| > 0 && !IsSpace(p[0])
    ensures Contains(StripLeft(s), p)
    decreases |s|
  {
    if |s| > 0 && IsSpace(s[0]) {
      if |p| <= |s| {
        assert s[..|p|][0] == s[0];
      }
      StripLeftKeepsInner(s[1..], p);
    }
  }

  lemma {:induction false} StripRightKeepsInner(s: string, p: string)
    requires Contains(s, p) && |p| > 0 && !IsSpace(p[|p| - 1])
    ensures Contains(StripRight(s), p)
    decreases |s|
  {
    if |s| > 0 && IsSpace(s[|s| - 1]) {
      var i := ContainsWitness(s, p);
      assert s[i..][..|p|][|p| - 1] == s[i + |p| - 1];
      assert s[..|s| - 1][i..][..|p|] == s[i..][..|p|];
      ContainsAt(s[..|s| - 1], p, i);
      StripRightKeepsInner(s[..|s| - 1], p);
    }
  }

  // -------------------------------------------------------- output lines

  /** How read_output logs a line of the checker's standard output. */
  function StdoutLogLine(timestamp: string, line: string): string {
    "[" + timestamp + "]" + " [STDOUT] " + Strip(line)
  }

  /** The words update_status looks for, and the word that marks a rehearsal. */
  const BanStatusWords := "Ban Detected"
  const SimulatedWord := "Simulated"

  const LiveBanStatus := BanStatusWords + "!"
  const NoBanStatus := "No Ban"
  const SimulatedBanStatus := SimulatedWord + " " + BanStatusWords
  const ListingStatus := "Simulation: Listing Items"
  const ErrorStatus := "Error"

  /**
   * The statuses read_output sets for one stdout line, in order: the
   * simulated-ban status, then at most one of listing, live ban and no ban.
   */
  function StdoutStatuses(line: string): (r: seq<string>)
    ensures |r| <= 2
    ensures forall st :: st in r ==> st in {SimulatedBanStatus, ListingStatus, LiveBanStatus, NoBanStatus}
    ensures SimulatedBanStatus in r <==> Contains(line, "[DRY-RUN]") && Contains(Lower(line), "ban detected")
    ensures ListingStatus in r <==> Contains(line, "Simulation is about to end")
    ensures LiveBanStatus in r <==>
      !Contains(line, "Simulation is about to end") && Contains(line, "BAN DETECTED") && !Contains(line, "[DRY-RUN]")
    ensures NoBanStatus in r <==>
      !Contains(line, "Simulation is about to end") && !Contains(line, "BAN DETECTED") &&
      Contains(line, "NO BAN") && !Contains(line, "[DRY-RUN]")
    ensures Contains(line, "[DRY-RUN]") ==> LiveBanStatus !in r && NoBanStatus !in r
    ensures SimulatedBanStatus in r ==> r[0] == SimulatedBanStatus
    ensures |r| == 2 ==> r[0] == SimulatedBanStatus && r[1] != SimulatedBanStatus
  {
    var simulated := if Contains(line, "[DRY-RUN]") && Contains(Lower(line), "ban detected") then [SimulatedBanStatus] else [];
    var live :=
      if Contains(line, "Simulation is about to end") then [ListingStatus]
      else if Contains(line, "BAN DETECTED") && !Contains(line, "[DRY-RUN]") then [LiveBanStatus]
      else if Contains(line, "NO BAN") && !Contains(line, "[DRY-RUN]") then [NoBanStatus]
      else [];
    simulated + live
  }

  /** update_status: a status raises the trade alert when it reports a ban that is not simulated. */
  predicate RaisesAlert(status: string) {
    Contains(status, BanStatusWords) && !Contains(status, SimulatedWord)
  }

  /** No line of a rehearsal raises the live trade alert. */
  lemma DryRunNeverAlerts(line: string)
    requires Contains(line, "[DRY-RUN]")
    ensures forall st :: st in StdoutStatuses(line) ==> !RaisesAlert(st)
  {
    var r := StdoutStatuses(line);
    assert forall st :: st in r ==> st == SimulatedBanStatus || st == ListingStatus;
    SimulatedStatusIsQuiet();
    ListingStatusIsQuiet();
  }

  lemma SimulatedStatusIsQuiet()
    ensures !RaisesAlert(SimulatedBanStatus)
  {
    ContainsPrefix(SimulatedWord, " " + BanStatusWords);
    assert SimulatedBanStatus == SimulatedWord + (" " + BanStatusWords);
  }

  lemma ListingStatusIsQuiet()
    ensures !RaisesAlert(ListingStatus)
  {
    assert forall i :: 0 <= i < |ListingStatus| ==> ListingStatus[i] != 'B';
    NotContainsWithoutLead(ListingStatus, BanStatusWords);
  }

  /** A live ban line raises the alert. */
  lemma LiveBanAlerts(line: string)
    requires Contains(line, "BAN DETECTED") && !Contains(line, "[DRY-RUN]") && !Contains(line, "Simulation is about to end")
    ensures LiveBanStatus in StdoutStatuses(line) && RaisesAlert(LiveBanStatus)
  {
    ContainsPrefix(BanStatusWords, "!");
    assert forall i :: 0 <= i < |LiveBanStatus| ==> LiveBanStatus[i] != 'S';
    NotContainsWithoutLead(LiveBanStatus, SimulatedWord);
  }

  /**
   * The checker's rehearsal message sets the simulated-ban status and
   * neither of the live ones.
   */
  lemma RehearsalMessageStatus(kind: Option<BanChecker.BanKind>, n: nat)
    ensures var line := PollLoop.SimMessage(kind, n);
      SimulatedBanStatus in StdoutStatuses(line) &&
      LiveBanStatus !in StdoutStatuses(line) && NoBanStatus !in StdoutStatuses(line)
  {
    RehearsalMessageTags(kind, n);
  }

  /** The rehearsal message carries the dry-run tag and, in lower case, "ban detected". */
  lemma RehearsalMessageTags(kind: Option<BanChecker.BanKind>, n: nat)
    ensures Contains(PollLoop.SimMessage(kind, n), "[DRY-RUN]")
    ensures Contains(Lower(PollLoop.SimMessage(kind, n)), "ban detected")
  {
    MessageShapeTags(BanChecker.KindName(kind), " (simulated) at check #", Decimal(n));
  }

  lemma MessageShapeTags(kind: string, note: string, count: string)
    ensures var line := PollLoop.DryRunTag + " " + kind + " " + PollLoop.BanDetectedWords + note + count + ".";
      Contains(line, "[DRY-RUN]") && Contains(Lower(line), "ban detected")
  {
    var line := PollLoop.DryRunTag + " " + kind + " " + PollLoop.BanDetectedWords + note + count + ".";
    var rest := " " + kind + " " + PollLoop.BanDetectedWords + note + count + ".";
    assert line == PollLoop.DryRunTag + rest;
    ContainsPrefix(PollLoop.DryRunTag, rest);
    var head := PollLoop.DryRunTag + " " + kind + " ";
    var tail := note + count + ".";
    assert line == head + PollLoop.BanDetectedWords + tail;
    BanDetectedWordsFacts();
    LowerKeepsMiddle(head, PollLoop.BanDetectedWords, tail, PollLoop.BanDetectedWords);
  }

  lemma BanDetectedWordsFacts()
    ensures Lower(PollLoop.BanDetectedWords) == PollLoop.BanDetectedWords
    ensures Contains(PollLoop.BanDetectedWords, PollLoop.BanDetectedWords)
  {
    assert NoUpper(PollLoop.BanDetectedWords);
    LowerOfLower(PollLoop.BanDetectedWords);
    assert "" + PollLoop.BanDetectedWords == PollLoop.BanDetectedWords;
    ContainsSuffix("", PollLoop.BanDetectedWords);
  }

  /** Text already in lower case survives lowering the whole line. */
  lemma LowerKeepsMiddle(head: string, middle: string, tail: string, p: string)
    requires Lower(middle) == middle && Contains(middle, p)
    ensures Contains(Lower(head + middle + tail), p)
  {
    LowerAppend(head + middle, tail);
    LowerAppend(head, middle);
    ContainsInTail(Lower(head), middle, p);
    ContainsInHead(Lower(head) + middle, Lower(tail), p);
  }

  /** What read_output does with one line: the log line it emits, if any, and the statuses it sets. */
  datatype Reaction = Reaction(log: Option<string>, statuses: seq<string>)

  datatype Stream = Stdout | Stderr

  /** Deprecation notices from Node on standard error are dropped. */
  predicate Deprecation(line: string) {
    Contains(line, "DeprecationWarning") || Contains(line, "trace-deprecation")
  }

  function ReadOutputLine(stream: Stream, timestamp: string, line: string): (r: Reaction)
    ensures stream == Stdout ==> r.log == Some(StdoutLogLine(timestamp, line)) && r.statuses == StdoutStatuses(line)
    ensures stream == Stderr ==> (r.log.None? <==> Deprecation(line))
    ensures stream == Stderr ==> (r.statuses == [ErrorStatus] <==> !Deprecation(line)) && (r.statuses == [] <==> Deprecation(line))
    ensures stream == Stderr && r.log.Some? ==> r.log.value == "[" + timestamp + "] [ERROR] " + Strip(line)
  {
    match stream
    case Stdout => Reaction(Some(StdoutLogLine(timestamp, line)), StdoutStatuses(line))
    case Stderr =>
      if Deprecation(line) then Reaction(None, [])
      else Reaction(Some("[" + timestamp + "] [ERROR] " + Strip(line)), [ErrorStatus])
  }

  /** A kept standard-error line is shown in red. */
  lemma StderrLinesAreRed(timestamp: string, line: string)
    requires !Deprecation(line)
    ensures LogColor(ReadOutputLine(Stderr, timestamp, line).log.value) == ErrorColor
  {
    var log := "[" + timestamp + "] [ERROR] " + Strip(line);
    assert log == "[" + timestamp + "] " + ("[ERROR] " + Strip(line));
    ContainsPrefix("[ERROR]", " " + Strip(line));
    assert "[ERROR] " + Strip(line) == "[ERROR]" + (" " + Strip(line));
    ContainsInTail("[" + timestamp + "] ", "[ERROR] " + Strip(line), "[ERROR]");
  }

  // --------------------------------------------------- scheduled restart

  /** Two hours of one-second ticks. */
  const RestartPeriod := 7200

  /** One tick of the scheduled-restart timer: the new counter and whether a restart is due. */
  function ScheduledTick(enabled: bool, elapsed: int): (r: (int, bool))
    ensures !enabled ==> r == (0, false)
    ensures enabled && 0 <= elapsed < RestartPeriod ==> 0 <= r.0 < RestartPeriod
    ensures enabled ==> (r.1 <==> elapsed + 1 >= RestartPeriod)
  {
    if !enabled then (0, false)
    else if elapsed + 1 >= RestartPeriod then (0, true)
    else (elapsed + 1, false)
  }

  /** The counter after k enabled ticks from e. */
  function AfterTicks(e: int, k: nat): int
    decreases k
  {
    if k == 0 then e else ScheduledTick(true, AfterTicks(e, k - 1)).0
  }

  /** Counting from zero, the counter is the number of seconds since the last restart. */
  lemma {:induction false} TicksFromZero(k: nat)
    ensures AfterTicks(0, k) == k % RestartPeriod
  {
    if k > 0 {
      TicksFromZero(k - 1);
    }
  }

  /** Counting from zero, a restart is due exactly on every 7200th tick. */
  lemma RestartEveryPeriod(k: nat)
    ensures ScheduledTick(true, AfterTicks(0, k)).1 <==> (k + 1) % RestartPeriod == 0
  {
    TicksFromZero(k);
    LastSecondOfPeriod(k);
  }

  lemma LastSecondOfPeriod(k: nat)
    ensures k % RestartPeriod == RestartPeriod - 1 <==> (k + 1) % RestartPeriod == 0
  {
    var q, r := k / RestartPeriod, k % RestartPeriod;
    assert k == q * RestartPeriod + r;
    if r == RestartPeriod - 1 {
      assert k + 1 == (q + 1) * RestartPeriod;
    } else {
      assert k + 1 == q * RestartPeriod + (r + 1) && r + 1 < RestartPeriod;
    }
  }

  // ------------------------------------------------------------ settings

  /** INVENTORY_TYPE as load_config reads it; unset, it is "cs2". */
  function InventorySetting(env: Env): Selection {
    if InventoryKey in env then LoadSelection(env[InventoryKey]) else Cs2Only
  }

  /** CHECK_INTERVAL as load_config reads it: None when `int()` raises; unset, it is "20". */
  function IntervalSetting(env: Env): Option<int> {
    if IntervalKey in env then ParseInt(env[IntervalKey]) else Some(20)
  }

  /** AUTO_RESTART or SCHEDULED_RESTART as load_config reads it; unset, it is "false". */
  function FlagSetting(env: Env, key: string): bool {
    key in env && IsTrue(env[key])
  }

  // The three readers are `os.getenv` with load_config's defaults, parsed as load_config parses them.

  lemma InventoryDefault(env: Env)
    ensures InventorySetting(env) == LoadSelection(Lookup(env, InventoryKey, "cs2"))
  {
    PlainToken("cs2");
  }

  lemma IntervalDefault(env: Env)
    ensures IntervalSetting(env) == ParseInt(Lookup(env, IntervalKey, "20"))
  {
    ParseIntText(20);
    assert IntText(20) == "20";
  }

  lemma FlagDefault(env: Env, key: string)
    ensures FlagSetting(env, key) == IsTrue(Lookup(env, key, "false"))
  {
    BoolTextReadsBack(false);
  }

  // ------------------------------------------------------- settings file

  /** The form fields as load_config fills them from the environment. */
  function LoadedValues(env: Env): (r: seq<FieldValue>)
    ensures |r| == |Fields| && forall i {:trigger r[i]} :: 0 <= i < |Fields| ==> r[i] == LoadField(Fields[i], env)
    ensures FormValues(r)
  {
    seq(|Fields|, i requires 0 <= i < |Fields| => LoadField(Fields[i], env))
  }

  /** Form values of the right kind for each field. */
  predicate FormValues(values: seq<FieldValue>) {
    |values| == |Fields| && forall i {:trigger values[i]} :: 0 <= i < |Fields| ==> (Fields[i].checkbox <==> values[i].Flag?)
  }

  /** No two fields share a variable, and none is one of the panel's own settings. */
  predicate DistinctKeys(fields: seq<Field>) {
    (forall i, j :: 0 <= i < j < |fields| ==> fields[i].key != fields[j].key) &&
    (forall i :: 0 <= i < |fields| ==>
      fields[i].key != InventoryKey && fields[i].key != IntervalKey &&
      fields[i].key != AutoRestartKey && fields[i].key != ScheduledRestartKey)
  }

  /** The lines save_config writes for the form fields. */
  function FieldsFile(fields: seq<Field>, values: seq<FieldValue>): (r: Env)
    requires |values| == |fields| && DistinctKeys(fields)
    ensures forall i :: 0 <= i < |fields| ==> fields[i].key in r && r[fields[i].key] == SaveField(values[i])
  {
    map i | 0 <= i < |fields| :: fields[i].key := SaveField(values[i])
  }

  /** The `.env` file save_config writes, read back as variables. */
  function SettingsFile(values: seq<FieldValue>, sel: Selection, interval: int, autoRestart: bool, scheduledRestart: bool): (r: Env)
    requires |values| == |Fields|
    ensures forall i :: 0 <= i < |Fields| ==> Fields[i].key in r && r[Fields[i].key] == SaveField(values[i])
    ensures InventoryKey in r && r[InventoryKey] == SaveSelection(sel)
    ensures IntervalKey in r && r[IntervalKey] == IntText(interval)
    ensures AutoRestartKey in r && r[AutoRestartKey] == BoolText(autoRestart)
    ensures ScheduledRestartKey in r && r[ScheduledRestartKey] == BoolText(scheduledRestart)
  {
    KeysDistinct();
    WithSettings(Fields, FieldsFile(Fields, values), values, SaveSelection(sel), IntText(interval),
      BoolText(autoRestart), BoolText(scheduledRestart))
  }

  function WithSettings(fields: seq<Field>, file: Env, values: seq<FieldValue>, inv: string, interval: string, ar: string, sr: string): (r: Env)
    requires |values| == |fields| && DistinctKeys(fields)
    requires forall i :: 0 <= i < |fields| ==> fields[i].key in file && file[fields[i].key] == SaveField(values[i])
    ensures forall i :: 0 <= i < |fields| ==> fields[i].key in r && r[fields[i].key] == SaveField(values[i])
    ensures InventoryKey in r && r[InventoryKey] == inv && IntervalKey in r && r[IntervalKey] == interval
    ensures AutoRestartKey in r && r[AutoRestartKey] == ar && ScheduledRestartKey in r && r[ScheduledRestartKey] == sr
  {
    file[InventoryKey := inv][IntervalKey := interval][AutoRestartKey := ar][ScheduledRestartKey := sr]
  }

  /** What a saved selection loads as: itself, or cs2 when nothing was checked. */
  function Reloaded(sel: Selection): Selection {
    if !sel.all && !sel.cs2 && !sel.tf2 && !sel.dota2 then Cs2Only else sel
  }

  /**
   * Saving and then loading gives back every setting of the form: the
   * fields, the interval, both restart options, and the inventories up to
   * an empty selection becoming cs2.
   */
  lemma SettingsRoundTrip(values: seq<FieldValue>, sel: Selection, interval: int, autoRestart: bool, scheduledRestart: bool)
    requires FormValues(values) && Exclusive(sel)
    ensures var file := SettingsFile(values, sel, interval, autoRestart, scheduledRestart);
      LoadedValues(file) == values &&
      InventorySetting(file) == Reloaded(sel) &&
      IntervalSetting(file) == Some(interval) &&
      FlagSetting(file, AutoRestartKey) == autoRestart &&
      FlagSetting(file, ScheduledRestartKey) == scheduledRestart
  {
    var file := SettingsFile(values, sel, interval, autoRestart, scheduledRestart);
    forall i | 0 <= i < |Fields|
      ensures LoadField(Fields[i], file) == values[i]
    {
      if values[i].Flag? {
        BoolTextReadsBack(values[i].on);
      }
    }
    SelectionRoundTrip(sel);
    ParseIntText(interval);
    BoolTextReadsBack(autoRestart);
    BoolTextReadsBack(scheduledRestart);
  }

  // ------------------------------------------------------------- runtime

  /** How a checker run was started. */
  datatype Mode = Live | Rehearsal

  /**
   * The panel's run-time state: whether a checker thread runs, the
   * `manual_stop` and `was_dry_run` flags, the scheduled-restart timer and
   * its counter, and the checker runs started so far.
   */
  datatype Runtime = Runtime(
    running: bool,
    manualStop: bool,
    wasDryRun: bool,
    timerActive: bool,
    elapsed: int,
    launches: seq<Mode>)

  /**
   * start_bot: refused (nothing changes) unless the `.env` file exists and
   * ProfileToWatch is filled in (`canStart`); otherwise a live run starts
   * and the timer restarts from zero when scheduled restarts are on.
   */
  function StartBotSpec(rt: Runtime, canStart: bool, scheduled: bool): (r: (Runtime, bool))
    ensures r.1 == canStart
    ensures !canStart ==> r.0 == rt
    ensures canStart ==> r.0.running && !r.0.manualStop && !r.0.wasDryRun && r.0.launches == rt.launches + [Live]
    ensures canStart ==> r.0.timerActive == scheduled && r.0.elapsed == (if scheduled then 0 else rt.elapsed)
  {
    if !canStart then (rt, false)
    else (Runtime(true, false, false, scheduled, if scheduled then 0 else rt.elapsed, rt.launches + [Live]), true)
  }

  /** start_dry_run: like start_bot, but the run rehearses and the timer is left alone. */
  function StartDryRunSpec(rt: Runtime, canStart: bool): (r: (Runtime, bool))
    ensures r.1 == canStart
    ensures !canStart ==> r.0 == rt
    ensures canStart ==> r.0.running && !r.0.manualStop && r.0.wasDryRun && r.0.launches == rt.launches + [Rehearsal]
    ensures canStart ==> r.0.timerActive == rt.timerActive && r.0.elapsed == rt.elapsed
  {
    if !canStart then (rt, false)
    else (rt.(running := true, manualStop := false, wasDryRun := true, launches := rt.launches + [Rehearsal]), true)
  }

  /** stop_bot: mark the stop as manual, stop the checker and the timer. */
  function StopBotSpec(rt: Runtime): (r: Runtime)
    ensures r.manualStop && !r.running && !r.timerActive
    ensures r.wasDryRun == rt.wasDryRun && r.elapsed == rt.elapsed && r.launches == rt.launches
  {
    rt.(manualStop := true, running := false, timerActive := false)
  }

  /**
   * on_process_finished: the checker has ended. After a rehearsal the
   * timer stops; after a live run the checker starts again when
   * auto-restart is on and the stop was not manual. Either way
   * `manual_stop` is cleared.
   */
  function FinishedSpec(rt: Runtime, autoRestart: bool, canStart: bool, scheduled: bool): (r: (Runtime, bool))
    ensures r.1 <==> !rt.wasDryRun && autoRestart && !rt.manualStop && canStart
    ensures !r.0.manualStop
    ensures r.1 ==> r.0.running && r.0.launches == rt.launches + [Live]
    ensures !r.1 ==> !r.0.running && r.0.launches == rt.launches
    ensures rt.wasDryRun ==> !r.0.timerActive
    ensures r.1 ==> !r.0.wasDryRun && r.0.timerActive == scheduled && r.0.elapsed == (if scheduled then 0 else rt.elapsed)
    ensures !r.1 ==> r.0.wasDryRun == rt.wasDryRun && r.0.elapsed == rt.elapsed
    ensures !r.1 && !rt.wasDryRun ==> r.0.timerActive == rt.timerActive
  {
    var ended := rt.(running := false);
    if rt.wasDryRun then (ended.(timerActive := false, manualStop := false), false)
    else if autoRestart && !rt.manualStop then
      var started := StartBotSpec(ended, canStart, scheduled);
      (started.0.(manualStop := false), started.1)
    else (ended.(manualStop := false), false)
  }

  /**
   * handle_scheduled_restart, one second of the timer: when scheduled
   * restarts are off the timer stops and the counter is cleared; when the
   * counter reaches two hours it is cleared, the checker is stopped and a
   * start is due (`true`), which the panel performs a second later.
   */
  function TimerTickSpec(rt: Runtime, scheduled: bool): (r: (Runtime, bool))
    ensures 0 <= rt.elapsed < RestartPeriod ==> 0 <= r.0.elapsed < RestartPeriod
    ensures r.1 <==> scheduled && rt.elapsed + 1 >= RestartPeriod
    ensures !scheduled ==> !r.0.timerActive && r.0.elapsed == 0
    ensures r.1 ==> r.0.elapsed == 0 && StopBotSpec(rt).(elapsed := 0) == r.0
    ensures !r.1 ==> r.0.running == rt.running && r.0.manualStop == rt.manualStop && r.0.launches == rt.launches
    ensures scheduled && !r.1 ==> r.0 == rt.(elapsed := rt.elapsed + 1)
  {
    var tick := ScheduledTick(scheduled, rt.elapsed);
    if !scheduled then (rt.(timerActive := false, elapsed := 0), false)
    else if tick.1 then (StopBotSpec(rt.(elapsed := 0)), true)
    else (rt.(elapsed := tick.0), false)
  }

  /**
   * A manual stop is final: stop_bot's own finished signal reaches
   * on_process_finished, which does not restart and clears `manual_stop`
   * for the next run.
   */
  lemma ManualStopIsFinal(rt: Runtime, autoRestart: bool, canStart: bool, scheduled: bool)
    ensures var after := FinishedSpec(StopBotSpec(rt), autoRestart, canStart, scheduled);
      !after.1 && !after.0.running && !after.0.manualStop && after.0.launches == rt.launches
  {
  }

  /** A rehearsal that ends is never started again, whatever the options. */
  lemma RehearsalNeverRestarts(rt: Runtime, canStart: bool, autoRestart: bool, canRestart: bool, scheduled: bool)
    requires canStart
    ensures var started := StartDryRunSpec(rt, canStart).0;
      var after := FinishedSpec(started, autoRestart, canRestart, scheduled);
      !after.1 && after.0.launches == rt.launches + [Rehearsal]
  {
  }

  /** A live run that crashes or exits is started again when auto-restart is on. */
  lemma CrashRestarts(rt: Runtime, scheduled: bool)
    ensures var started := StartBotSpec(rt, true, scheduled).0;
      var after := FinishedSpec(started, true, true, scheduled);
      after.1 && after.0.launches == rt.launches + [Live, Live]
  {
  }

  /** `k` live launches. */
  function Lives(k: nat): (r: seq<Mode>)
    ensures |r| == k && forall i :: 0 <= i < k ==> r[i] == Live
  {
    seq(k, _ => Live)
  }

  /** The run state after `k` ends of the checker, each reaching on_process_finished with auto-restart on. */
  function Crashes(rt: Runtime, scheduled: bool, k: nat): Runtime
    decreases k
  {
    if k == 0 then rt else Crashes(FinishedSpec(rt, true, true, scheduled).0, scheduled, k - 1)
  }

  /** A live run that is not stopped by hand is started again after every end, however many. */
  lemma {:induction false} EveryCrashRestarts(rt: Runtime, scheduled: bool, k: nat)
    requires !rt.wasDryRun && !rt.manualStop
    ensures var r := Crashes(rt, scheduled, k);
      !r.wasDryRun && !r.manualStop && r.launches == rt.launches + Lives(k) && (k > 0 ==> r.running)
    decreases k
  {
    if k > 0 {
      var next := FinishedSpec(rt, true, true, scheduled).0;
      assert next.launches == rt.launches + [Live];
      EveryCrashRestarts(next, scheduled, k - 1);
      assert Lives(k) == [Live] + Lives(k - 1);
    }
  }

  /** The run state after `k` seconds of the timer with scheduled restarts on. */
  function Seconds(rt: Runtime, k: nat): Runtime
    decreases k
  {
    if k == 0 then rt else Seconds(TimerTickSpec(rt, true).0, k - 1)
  }

  /** Before the period is up, each second only advances the counter. */
  lemma {:induction false} TimerCountsSeconds(rt: Runtime, k: nat)
    requires 0 <= rt.elapsed && rt.elapsed + k < RestartPeriod
    ensures Seconds(rt, k) == rt.(elapsed := rt.elapsed + k)
    decreases k
  {
    if k > 0 {
      var next := TimerTickSpec(rt, true).0;
      assert next == rt.(elapsed := rt.elapsed + 1);
      TimerCountsSeconds(next, k - 1);
    }
  }

  /**
   * From a cleared counter, the first `RestartPeriod - 1` seconds restart
   * nothing and the next one stops the checker with the counter cleared.
   */
  lemma TimerRestartsAfterPeriod(rt: Runtime, k: nat)
    requires rt.elapsed == 0 && k == RestartPeriod - 1
    ensures forall j :: 0 <= j < k ==> !TimerTickSpec(Seconds(rt, j), true).1
    ensures var tick := TimerTickSpec(Seconds(rt, k), true); tick.1 && tick.0 == StopBotSpec(rt)
  {
    forall j | 0 <= j < k
      ensures !TimerTickSpec(Seconds(rt, j), true).1
    {
      TimerCountsSeconds(rt, j);
    }
    TimerCountsSeconds(rt, k);
  }

  /**
   * The scheduled restart: two hours after a live start with scheduled
   * restarts on, the timer stops the checker, and the start that follows
   * a second later begins a new live run with the counter back at zero.
   */
  lemma {:induction false} ScheduledRestartCycle(rt: Runtime, canStart: bool)
    requires canStart
    ensures var started := StartBotSpec(rt, canStart, true).0;
      var tick := TimerTickSpec(started.(elapsed := RestartPeriod - 1), true);
      tick.1 && !tick.0.running &&
      var restarted := StartBotSpec(tick.0, canStart, true).0;
      restarted.running && restarted.timerActive && restarted.elapsed == 0 &&
      restarted.launches == rt.launches + [Live, Live]
  {
  }

  // --------------------------------------------------------------- panel

  /** A box set by the user, then "all" made exclusive again. */
  function ToggleBox(sel: Selection, k: string, on: bool): (r: Selection)
    ensures Exclusive(r)
    ensures k == "all" && on ==> r == Selection(true, false, false, false)
    ensures k == "all" && !on ==> !r.all && r.cs2 == sel.cs2 && r.tf2 == sel.tf2 && r.dota2 == sel.dota2
    ensures k != "all" && !(sel.all) ==> r.all == false
    ensures k != "all" && sel.all ==> r == Selection(true, false, false, false)
    ensures !r.all ==>
      r.cs2 == (if k == "cs2" then on else sel.cs2) && r.tf2 == (if k == "tf2" then on else sel.tf2) &&
      r.dota2 == (if k == "dota2" then on else sel.dota2)
  {
    var set1 :=
      if k == "all" then sel.(all := on)
      else if k == "cs2" then sel.(cs2 := on)
      else if k == "tf2" then sel.(tf2 := on)
      else if k == "dota2" then sel.(dota2 := on)
      else sel;
    if set1.all then Selection(true, false, false, false) else set1
  }

  /** The inventory checkboxes in the order of the form. */
  const BoxOrder := ["cs2", "tf2", "dota2", "all"]
  const GameBoxes := ["cs2", "tf2", "dota2"]

  /** Whether box k is checked. */
  function Box(checked: map<string, bool>, k: string): bool {
    k in checked && checked[k]
  }

  function SelectionOf(checked: map<string, bool>): Selection {
    Selection(Box(checked, "all"), Box(checked, "cs2"), Box(checked, "tf2"), Box(checked, "dota2"))
  }

  /**
   * The control panel: the form's widgets, the scheduled-restart timer and
   * the flags that decide whether a finished checker is started again.
   * `launches` records every checker run the panel started.
   */
  class Panel {
    var values: seq<FieldValue>
    var checked: map<string, bool>
    var enabled: map<string, bool>
    var interval: int
    var autoRestart: bool
    var scheduledRestart: bool
    var scheduledElapsed: int
    var timerActive: bool
    var manualStop: bool
    var wasDryRun: bool
    var running: bool
    var launches: seq<Mode>

    /**
     * The form holds a value of the right kind per field, "all" excludes
     * the games and disables them, the slider stays in its range and the
     * timer counter below two hours.
     */
    predicate Valid()
      reads this
    {
      FormValid() &&
      BanChecker.MinInterval <= interval <= BanChecker.MaxInterval &&
      0 <= scheduledElapsed < RestartPeriod
    }

    /** The widgets' part of Valid. */
    predicate FormValid()
      reads this`values, this`checked, this`enabled
    {
      FormValues(values) &&
      Exclusive(SelectionOf(checked)) &&
      (forall g :: g in GameBoxes ==> g in enabled && enabled[g] == !Box(checked, "all"))
    }

    /** ProfileToWatch, which a start requires. */
    function Profile(): string
      reads this
      requires Valid()
    {
      values[0].text
    }

    /**
     * The panel as built, with the configuration loaded from the
     * environment. `__init__` calls load_config, so a CHECK_INTERVAL that
     * is not an integer makes the construction itself raise: a panel exists
     * only for an environment whose interval parses.
     */
    constructor(env: Env)
      requires IntervalSetting(env).Some?
      ensures Valid()
      ensures values == LoadedValues(env)
      ensures SelectionOf(checked) == InventorySetting(env)
      ensures interval == BanChecker.ClampInterval(IntervalSetting(env).value)
      ensures autoRestart == FlagSetting(env, AutoRestartKey) && scheduledRestart == FlagSetting(env, ScheduledRestartKey)
      ensures !running && launches == [] && !timerActive && scheduledElapsed == 0
    {
      values := [];
      checked := map[];
      enabled := map[];
      interval := BanChecker.MinInterval;
      autoRestart, scheduledRestart := false, false;
      scheduledElapsed, timerActive := 0, false;
      manualStop, wasDryRun, running := false, false, false;
      launches := [];
      new;
      var ok := LoadConfig(env);
      assert ok;
    }

    /**
     * load_config: fill the form from the environment. A CHECK_INTERVAL
     * that is not an integer raises after the fields and the inventory
     * boxes are set (ok false), leaving the slider and restart options as
     * they were.
     */
    method LoadConfig(env: Env) returns (ok: bool)
      requires BanChecker.MinInterval <= interval <= BanChecker.MaxInterval
      requires 0 <= scheduledElapsed < RestartPeriod
      modifies this`values, this`checked, this`enabled, this`interval, this`autoRestart, this`scheduledRestart
      ensures Valid()
      ensures values == LoadedValues(env)
      ensures SelectionOf(checked) == InventorySetting(env)
      ensures ok <==> IntervalSetting(env).Some?
      ensures ok ==>
        interval == BanChecker.ClampInterval(IntervalSetting(env).value) &&
        autoRestart == FlagSetting(env, AutoRestartKey) &&
        scheduledRestart == FlagSetting(env, ScheduledRestartKey)
      ensures !ok ==> interval == old(interval) && autoRestart == old(autoRestart) && scheduledRestart == old(scheduledRestart)
    {
      LoadForm(env);
      ok := LoadRunSettings(env);
    }

    /** The first part of load_config: the form fields, then the inventory boxes. */
    method LoadForm(env: Env)
      modifies this`values, this`checked, this`enabled
      ensures FormValid()
      ensures values == LoadedValues(env)
      ensures SelectionOf(checked) == InventorySetting(env)
    {
      LoadFields(env);
      LoadInventoryBoxes(Lookup(env, InventoryKey, "cs2"));
      InventoryDefault(env);
    }

    /** The slider and the two restart options; an interval that is not an integer raises first. */
    method LoadRunSettings(env: Env) returns (ok: bool)
      requires BanChecker.MinInterval <= interval <= BanChecker.MaxInterval
      modifies this`interval, this`autoRestart, this`scheduledRestart
      ensures BanChecker.MinInterval <= interval <= BanChecker.MaxInterval
      ensures ok <==> IntervalSetting(env).Some?
      ensures ok ==>
        interval == BanChecker.ClampInterval(IntervalSetting(env).value) &&
        autoRestart == FlagSetting(env, AutoRestartKey) &&
        scheduledRestart == FlagSetting(env, ScheduledRestartKey)
      ensures !ok ==> interval == old(interval) && autoRestart == old(autoRestart) && scheduledRestart == old(scheduledRestart)
    {
      var parsed := IntervalSetting(env);
      if parsed.None? {
        return false;
      }
      interval := BanChecker.ClampInterval(parsed.value);
      autoRestart := FlagSetting(env, AutoRestartKey);
      scheduledRestart := FlagSetting(env, ScheduledRestartKey);
      ok := true;
    }

    /** The loop over env_fields: each field takes its variable, "" when missing. */
    method LoadFields(env: Env)
      modifies this`values
      ensures values == LoadedValues(env)
    {
      values := [];
      for i := 0 to |Fields|
        invariant |values| == i
        invariant forall j :: 0 <= j < i ==> values[j] == LoadField(Fields[j], env)
      {
        values := values + [LoadField(Fields[i], env)];
      }
    }

    /** The inventory checkboxes from the value of INVENTORY_TYPE; the games are enabled unless "all" is checked. */
    method LoadInventoryBoxes(raw: string)
      modifies this`checked, this`enabled
      ensures SelectionOf(checked) == LoadSelection(raw)
      ensures forall g :: g in GameBoxes ==> g in enabled && enabled[g] == !Box(checked, "all")
    {
      var tokens := Tokens(raw);
      if "all" in tokens {
        CheckOnlyAll();
      } else {
        CheckGames(tokens);
      }
      EnableGames();
    }

    /** Every box is set to whether it is "all". */
    method CheckOnlyAll()
      modifies this`checked
      ensures SelectionOf(checked) == Selection(true, false, false, false)
    {
      for i := 0 to |BoxOrder|
        invariant forall j :: 0 <= j < i ==> BoxOrder[j] in checked && checked[BoxOrder[j]] == (BoxOrder[j] == "all")
      {
        checked := checked[BoxOrder[i] := BoxOrder[i] == "all"];
      }
      assert BoxOrder == ["cs2", "tf2", "dota2", "all"];
      assert Box(checked, BoxOrder[0]) == false && Box(checked, BoxOrder[1]) == false;
      assert Box(checked, BoxOrder[2]) == false && Box(checked, BoxOrder[3]) == true;
    }

    /** Each game is checked exactly when named; "all" is cleared. */
    method CheckGames(tokens: seq<string>)
      modifies this`checked
      ensures SelectionOf(checked) == Selection(false, "cs2" in tokens, "tf2" in tokens, "dota2" in tokens)
    {
      for i := 0 to |GameBoxes|
        invariant forall j :: 0 <= j < i ==> GameBoxes[j] in checked && checked[GameBoxes[j]] == (GameBoxes[j] in tokens)
      {
        checked := checked[GameBoxes[i] := GameBoxes[i] in tokens];
      }
      assert GameBoxes == ["cs2", "tf2", "dota2"];
      assert Box(checked, GameBoxes[0]) == ("cs2" in tokens) && Box(checked, GameBoxes[1]) == ("tf2" in tokens);
      assert Box(checked, GameBoxes[2]) == ("dota2" in tokens);
      checked := checked["all" := false];
    }

    /** The games can be ticked exactly while "all" is not. */
    method EnableGames()
      modifies this`enabled
      ensures forall g :: g in GameBoxes ==> g in enabled && enabled[g] == !Box(checked, "all")
    {
      var all := Box(checked, "all");
      for i := 0 to |GameBoxes|
        invariant forall j :: 0 <= j < i ==> GameBoxes[j] in enabled && enabled[GameBoxes[j]] == !all
      {
        enabled := enabled[GameBoxes[i] := !all];
      }
    }

    /** The run-time part of the panel. */
    function Run(): Runtime
      reads this
    {
      Runtime(running, manualStop, wasDryRun, timerActive, scheduledElapsed, launches)
    }

    /** Whether start_bot and start_dry_run get past their checks. */
    function CanStart(envFileExists: bool): bool
      reads this
      requires Valid()
    {
      envFileExists && Profile() != ""
    }

    /** start_bot, with whether the `.env` file exists. */
    method StartBot(envFileExists: bool) returns (started: bool)
      requires Valid()
      modifies this`running, this`manualStop, this`wasDryRun, this`timerActive, this`scheduledElapsed, this`launches
      ensures Valid()
      ensures (Run(), started) == StartBotSpec(old(Run()), CanStart(envFileExists), scheduledRestart)
    {
      if !envFileExists || values[0].text == "" {
        return false;
      }
      manualStop, wasDryRun, running := false, false, true;
      launches := launches + [Live];
      if scheduledRestart {
        scheduledElapsed, timerActive := 0, true;
      } else {
        timerActive := false;
      }
      started := true;
    }

    /** start_dry_run, with whether the `.env` file exists. */
    method StartDryRun(envFileExists: bool) returns (started: bool)
      requires Valid()
      modifies this`running, this`manualStop, this`wasDryRun, this`launches
      ensures Valid()
      ensures (Run(), started) == StartDryRunSpec(old(Run()), CanStart(envFileExists))
    {
      if !envFileExists || values[0].text == "" {
        return false;
      }
      manualStop, wasDryRun, running := false, true, true;
      launches := launches + [Rehearsal];
      started := true;
    }

    /** stop_bot. */
    method StopBot()
      requires Valid()
      modifies this`running, this`manualStop, this`timerActive
      ensures Valid()
      ensures Run() == StopBotSpec(old(Run()))
    {
      manualStop := true;
      running := false;
      timerActive := false;
    }

    /** on_process_finished, with whether the `.env` file exists for a restart. */
    method OnProcessFinished(envFileExists: bool) returns (restarted: bool)
      requires Valid()
      modifies this`running, this`manualStop, this`wasDryRun, this`timerActive, this`scheduledElapsed, this`launches
      ensures Valid()
      ensures (Run(), restarted) == FinishedSpec(old(Run()), autoRestart, CanStart(envFileExists), scheduledRestart)
    {
      running := false;
      restarted := false;
      if wasDryRun {
        timerActive := false;
        manualStop := false;
        return;
      }
      if autoRestart && !manualStop {
        restarted := StartBot(envFileExists);
      }
      manualStop := false;
    }

    /** handle_scheduled_restart; `restart` means the delayed start_bot is due. */
    method HandleScheduledRestart() returns (restart: bool)
      requires Valid()
      modifies this`running, this`manualStop, this`timerActive, this`scheduledElapsed
      ensures Valid()
      ensures (Run(), restart) == TimerTickSpec(old(Run()), scheduledRestart)
    {
      if !scheduledRestart {
        timerActive := false;
        scheduledElapsed := 0;
        return false;
      }
      scheduledElapsed := scheduledElapsed + 1;
      restart := false;
      if scheduledElapsed >= RestartPeriod {
        scheduledElapsed := 0;
        StopBot();
        restart := true;
      }
    }

    /** The `.env` file the form saves to. */
    function SavedFile(): Env
      reads this
      requires Valid()
    {
      SettingsFile(values, SelectionOf(checked), interval, autoRestart, scheduledRestart)
    }

    /**
     * save_config: the file written, then, when a checker runs, stop_bot
     * and start_bot (the file now exists).
     */
    method SaveConfig() returns (file: Env, restarted: bool)
      requires Valid()
      modifies this`running, this`manualStop, this`wasDryRun, this`timerActive, this`scheduledElapsed, this`launches
      ensures Valid()
      ensures file == old(SavedFile())
      ensures !old(running) ==> Run() == old(Run()) && !restarted
      ensures old(running) ==>
        (Run(), restarted) == StartBotSpec(StopBotSpec(old(Run())), CanStart(true), scheduledRestart)
    {
      file := SavedFile();
      restarted := RestartIfRunning();
    }

    /** A running checker is stopped and started again with the saved settings. */
    method RestartIfRunning() returns (restarted: bool)
      requires Valid()
      modifies this`running, this`manualStop, this`wasDryRun, this`timerActive, this`scheduledElapsed, this`launches
      ensures Valid()
      ensures !old(running) ==> Run() == old(Run()) && !restarted
      ensures old(running) ==>
        (Run(), restarted) == StartBotSpec(StopBotSpec(old(Run())), CanStart(true), scheduledRestart)
    {
      restarted := false;
      if running {
        StopBot();
        restarted := StartBot(true);
      }
    }

    /**
     * A click on inventory box k, followed by inventory_type_changed:
     * ticking "all" clears and disables the games, clearing it enables them.
     */
    method OnInventoryBoxChanged(k: string, on: bool)
      requires Valid() && k in BoxOrder
      modifies this`checked, this`enabled
      ensures Valid()
      ensures SelectionOf(checked) == ToggleBox(old(SelectionOf(checked)), k, on)
    {
      checked := checked[k := on];
      if Box(checked, "all") {
        ClearGames();
      }
      EnableGames();
    }

    /** The games are unticked. */
    method ClearGames()
      modifies this`checked
      ensures SelectionOf(checked) == Selection(Box(old(checked), "all"), false, false, false)
    {
      ghost var all := Box(checked, "all");
      for i := 0 to |GameBoxes|
        invariant Box(checked, "all") == all
        invariant forall j :: 0 <= j < i ==> GameBoxes[j] in checked && !checked[GameBoxes[j]]
      {
        checked := checked[GameBoxes[i] := false];
      }
      assert GameBoxes == ["cs2", "tf2", "dota2"];
      assert !Box(checked, GameBoxes[0]) && !Box(checked, GameBoxes[1]) && !Box(checked, GameBoxes[2]);
    }
  }
}

=== FILE: poll_loop.dfy ===
/**
 * The `__main__` block of BanChecker.py as a state machine: start-up
 * (channel reset, profile check, simulation plan) and one poll cycle per
 * iteration of `while True`.
 *
 * The world is an input: each cycle receives the outcome of its page
 * fetch and the outcomes of the ten confirmation fetches. What the loop
 * does to the world is recorded as effects: notifications (`send_log`),
 * the hand-off to SendTrade.js with the child's BANSHIELD_DRY_RUN, the
 * watchdog launch and the sleeps. `Step` and `Run` are the specification;
 * the `Monitor` class is the loop with its counters, proved equal to them.
 */
module PollLoop {
  import opened Wrappers
  import opened Text
  import opened BanChecker
  import SendTrade

  /** The module-level settings BanChecker.py reads once. */
  datatype Config = Config(
    profile: string,
    notify: bool,
    interval: int,
    dryRun: bool,
    parentDryRunFlag: Option<string>)

  /** The environment variables and arguments the settings come from; a number is given already parsed. */
  datatype Environment = Environment(
    profileToWatch: Option<string>,
    telegramNotify: Option<string>,
    checkInterval: Option<int>,
    dryRunFlag: Option<string>,
    argv: seq<string>)

  const DefaultInterval := 20

  function ConfigOf(e: Environment): (c: Config)
    ensures MinInterval <= c.interval <= MaxInterval
    ensures e.checkInterval.None? ==> c.interval == DefaultInterval
    ensures e.checkInterval.Some? ==> c.interval == ClampInterval(e.checkInterval.value)
    ensures e.checkInterval.Some? && MinInterval <= e.checkInterval.value <= MaxInterval ==> c.interval == e.checkInterval.value
    ensures e.profileToWatch.None? ==> c.profile == ""
    ensures e.profileToWatch.Some? ==> c.profile == e.profileToWatch.value
    ensures e.telegramNotify.None? ==> c.notify
    ensures e.telegramNotify.Some? ==> (c.notify <==> Lower(e.telegramNotify.value) == "true")
    ensures c.dryRun <==> e.dryRunFlag == Some("1") || "--dry-run" in e.argv
    ensures c.parentDryRunFlag == e.dryRunFlag
  {
    Config(
      if e.profileToWatch.Some? then e.profileToWatch.value else "",
      TelegramNotify(e.telegramNotify),
      ClampInterval(if e.checkInterval.Some? then e.checkInterval.value else DefaultInterval),
      IsDryRun(e.dryRunFlag, e.argv),
      e.dryRunFlag)
  }

  /** What the program does to the outside world. */
  datatype Effect =
    | ResetChannel
    | Notify(text: string)
    | HandOff(childDryRunFlag: Option<string>)
    | LaunchWatchdog
    | Sleep(seconds: int)

  datatype Phase = Starting | Polling | Ended(code: int)

  /** The program's state: `check_count`, the simulation plan, and what it has done so far. */
  datatype RunState = RunState(
    phase: Phase,
    profileUrl: string,
    checkCount: nat,
    plan: SimPlan,
    effects: seq<Effect>)

  const Initial := RunState(Starting, "", 0, NoPlan, [])

  /** The fetch of one cycle, and the fetches a confirmation pass would make. */
  datatype CycleInput = CycleInput(fetch: FetchOutcome, confirm: nat -> FetchOutcome)

  const ConfirmChecks := 10
  const ConfirmQuorum := 2
  const SafeguardText := "[SAFEGUARD] False-positive ban alert prevented."

  /** `send_log(text)` when TELEGRAM_NOTIFY is on, nothing otherwise. */
  function Notified(cfg: Config, text: string): (r: seq<Effect>)
    ensures cfg.notify <==> r == [Notify(text)]
    ensures !cfg.notify <==> r == []
  {
    if cfg.notify then [Notify(text)] else []
  }

  const DryRunTag := "[DRY-RUN]"
  const BanDetectedWords := "ban detected"

  /** The line the rehearsal prints and sends on the drawn cycle `n`. */
  function SimMessage(kind: Option<BanKind>, n: nat): string {
    DryRunTag + " " + KindName(kind) + " " + BanDetectedWords + " (simulated) at check #" + Decimal(n) + "."
  }

  /** The rehearsal condition, evaluated on the cycle numbered `n`. */
  predicate SimFires(cfg: Config, plan: SimPlan, n: int) {
    cfg.dryRun && !plan.triggered && n >= 2 && plan.triggerCheck == Some(n)
  }

  /** Start-up: reset the channel, stop with exit 1 without a profile, otherwise prepare the URL and the plan. */
  function Startup(cfg: Config, s: RunState, draw: int, kind: BanKind): (r: RunState)
    requires s.phase.Starting? && 3 <= draw <= 10
    ensures r.effects == s.effects + [ResetChannel]
    ensures cfg.profile == "" <==> r.phase == Ended(1)
    ensures cfg.profile != "" <==> r.phase == Polling
    ensures r.phase.Polling? ==> r.checkCount == 0 && IsPrefix(cfg.profile, r.profileUrl)
    ensures r.phase.Polling? ==> r.profileUrl == PrepareProfileUrl(cfg.profile)
    ensures r.phase.Polling? && cfg.dryRun && s.plan.triggerCheck.None? ==>
      r.plan == SimPlan(Some(draw), Some(kind), s.plan.triggered)
    ensures r.phase.Polling? && !cfg.dryRun ==> r.plan == s.plan
  {
    var reset := s.(effects := s.effects + [ResetChannel]);
    if cfg.profile == "" then reset.(phase := Ended(1))
    else
      RunState(
        Polling,
        PrepareProfileUrl(cfg.profile),
        0,
        if cfg.dryRun then InitSimOnce(s.plan, draw, kind) else s.plan,
        reset.effects)
  }

  /** The pause multi_check_ban takes after each of its samples (`wait_seconds=5`). */
  const ConfirmWait := 5

  /** The waits of a confirmation pass of `k` samples: a pause after each sample. */
  function Pauses(k: nat): (r: seq<Effect>)
    ensures |r| == k && forall i :: 0 <= i < k ==> r[i] == Sleep(ConfirmWait)
  {
    seq(k, _ => Sleep(ConfirmWait))
  }

  /**
   * What one cycle decides: the sampler's pauses before the notice, the
   * notice it sends, what follows it, and whether the program ends or the
   * rehearsal fires.
   */
  datatype Reaction = Reaction(pauses: seq<Effect>, notice: string, tail: seq<Effect>, exits: bool, fires: bool)

  /**
   * The decision of one iteration of `while True` on the line check_ban
   * returned, numbered `n`. An ERROR line is reported and the loop sleeps;
   * then the rehearsal may fire; then an ALERT line is confirmed or
   * dismissed by the sampler (`confirmed`); anything else is reported as "0".
   */
  function React(cfg: Config, plan: SimPlan, n: nat, line: string, confirmed: bool): (x: Reaction)
    ensures x.exits <==> !Contains(line, ErrorTag) && (SimFires(cfg, plan, n) || (Contains(line, AlertTag) && confirmed))
    ensures x.fires <==> !Contains(line, ErrorTag) && SimFires(cfg, plan, n)
    ensures !x.exits ==> x.tail == [Sleep(cfg.interval)]
    ensures x.fires ==> x.tail == [HandOff(Some("1"))] && x.notice == SimMessage(plan.kind, n)
    ensures x.exits && !x.fires ==> x.tail == [HandOff(cfg.parentDryRunFlag), LaunchWatchdog] && x.notice == "1"
    ensures Contains(line, ErrorTag) ==> x.notice == line
    ensures !x.exits && !Contains(line, ErrorTag) ==> x.notice == (if Contains(line, AlertTag) then SafeguardText else "0")
    ensures x.pauses == (if !Contains(line, ErrorTag) && !SimFires(cfg, plan, n) && Contains(line, AlertTag) then Pauses(ConfirmChecks) else [])
  {
    if Contains(line, ErrorTag) then Reaction([], line, [Sleep(cfg.interval)], false, false)
    else if SimFires(cfg, plan, n) then
      Reaction([], SimMessage(plan.kind, n), [HandOff(ChildDryRunFlag(cfg.parentDryRunFlag, true))], true, true)
    else if Contains(line, AlertTag) then
      if confirmed then Reaction(Pauses(ConfirmChecks), "1", [HandOff(ChildDryRunFlag(cfg.parentDryRunFlag, false)), LaunchWatchdog], true, false)
      else Reaction(Pauses(ConfirmChecks), SafeguardText, [Sleep(cfg.interval)], false, false)
    else Reaction([], "0", [Sleep(cfg.interval)], false, false)
  }

  /** A cycle on a given line: count it, wait out the sampler, send the notice (when notifications are on), then act. */
  function Advance(cfg: Config, s: RunState, line: string, confirmed: bool): (r: RunState)
    requires s.phase.Polling?
    ensures r.checkCount == s.checkCount + 1 && r.profileUrl == s.profileUrl
    ensures |r.effects| > |s.effects| && r.effects[..|s.effects|] == s.effects
    ensures r.phase == Polling || r.phase == Ended(0)
    ensures r.plan.triggerCheck == s.plan.triggerCheck && r.plan.kind == s.plan.kind
    ensures forall i :: |s.effects| <= i < |r.effects| && r.effects[i].Sleep? ==>
      r.effects[i].seconds == cfg.interval || r.effects[i].seconds == ConfirmWait
  {
    var x := React(cfg, s.plan, s.checkCount + 1, line, confirmed);
    var effects := s.effects + x.pauses + Notified(cfg, x.notice) + x.tail;
    assert effects[..|s.effects|] == s.effects;
    RunState(
      if x.exits then Ended(0) else Polling,
      s.profileUrl,
      s.checkCount + 1,
      s.plan.(triggered := s.plan.triggered || x.fires),
      effects)
  }

  /** One iteration of `while True`: the fetch gives the line, the ten confirmation fetches the sampler's verdict. */
  function Step(cfg: Config, s: RunState, input: CycleInput): RunState
    requires s.phase.Polling?
  {
    Advance(cfg, s, CheckBan(input.fetch), Confirmed(input.confirm, ConfirmChecks, ConfirmQuorum))
  }

  /** The cycles of `inputs`, one per iteration, until the program exits. */
  function Run(cfg: Config, s: RunState, inputs: seq<CycleInput>): RunState
    decreases |inputs|
  {
    if |inputs| == 0 || !s.phase.Polling? then s
    else Run(cfg, Step(cfg, s, inputs[0]), inputs[1..])
  }

  // ------------------------------------------------------------- lemmas

  /** Running `a` and then `b` is running `a + b`. */
  lemma {:induction false} RunConcat(cfg: Config, s: RunState, a: seq<CycleInput>, b: seq<CycleInput>)
    ensures Run(cfg, s, a + b) == Run(cfg, Run(cfg, s, a), b)
    decreases |a|
  {
    if |a| == 0 {
      assert a + b == b;
    } else if s.phase.Polling? {
      assert (a + b)[0] == a[0] && (a + b)[1..] == a[1..] + b;
      RunConcat(cfg, Step(cfg, s, a[0]), a[1..], b);
    }
  }

  /**
   * `check_count` rises by one per iteration: after a run that is still
   * polling it has grown by the number of cycles, and never by more.
   */
  lemma {:induction false} RunCountsCycles(cfg: Config, s: RunState, inputs: seq<CycleInput>)
    ensures Run(cfg, s, inputs).checkCount <= s.checkCount + |inputs|
    ensures s.phase.Polling? && Run(cfg, s, inputs).phase.Polling? ==>
      Run(cfg, s, inputs).checkCount == s.checkCount + |inputs|
    ensures !s.phase.Polling? ==> Run(cfg, s, inputs) == s
    decreases |inputs|
  {
    if |inputs| > 0 && s.phase.Polling? {
      RunCountsCycles(cfg, Step(cfg, s, inputs[0]), inputs[1..]);
    }
  }

  /** How many hand-offs to SendTrade.js a trace holds. */
  function HandOffs(effects: seq<Effect>): (n: nat)
    ensures n <= |effects|
  {
    if |effects| == 0 then 0
    else HandOffs(effects[..|effects| - 1]) + (if effects[|effects| - 1].HandOff? then 1 else 0)
  }

  lemma {:induction false} HandOffsAppend(a: seq<Effect>, b: seq<Effect>)
    ensures HandOffs(a + b) == HandOffs(a) + HandOffs(b)
    decreases |b|
  {
    if |b| == 0 {
      assert a + b == a;
    } else {
      assert (a + b)[..|a + b| - 1] == a + b[..|b| - 1];
      HandOffsAppend(a, b[..|b| - 1]);
    }
  }

  lemma NotifiedHasNoHandOff(cfg: Config, text: string)
    ensures HandOffs(Notified(cfg, text)) == 0
  {
    if cfg.notify {
      assert Notified(cfg, text)[..0] == [];
    }
  }

  lemma {:induction false} SleepsHaveNoHandOff(effects: seq<Effect>)
    requires forall i :: 0 <= i < |effects| ==> effects[i].Sleep?
    ensures HandOffs(effects) == 0
    decreases |effects|
  {
    if |effects| > 0 {
      SleepsHaveNoHandOff(effects[..|effects| - 1]);
    }
  }

  lemma PausesHaveNoHandOff(pauses: seq<Effect>)
    requires pauses == [] || pauses == Pauses(ConfirmChecks)
    ensures HandOffs(pauses) == 0
  {
    SleepsHaveNoHandOff(pauses);
  }

  lemma {:induction false} HandOffsOfPair(x: Effect, y: Effect)
    ensures HandOffs([x, y]) == (if x.HandOff? then 1 else 0) + (if y.HandOff? then 1 else 0)
  {
    assert [x, y][..1] == [x];
    assert [x][..0] == [];
  }

  /** The tail of a reaction holds one hand-off when the reaction exits, none otherwise. */
  lemma ReactionHandOffs(x: Reaction, interval: int, flag: Option<string>)
    requires !x.exits ==> x.tail == [Sleep(interval)]
    requires x.fires ==> x.tail == [HandOff(Some("1"))]
    requires x.exits && !x.fires ==> x.tail == [HandOff(flag), LaunchWatchdog]
    ensures HandOffs(x.tail) == if x.exits then 1 else 0
  {
    if x.exits && !x.fires {
      HandOffsOfPair(x.tail[0], x.tail[1]);
    } else {
      assert x.tail[..0] == [];
    }
  }

  lemma HandOffsOfCycle(before: seq<Effect>, pauses: seq<Effect>, notice: seq<Effect>, tail: seq<Effect>)
    ensures HandOffs(before + pauses + notice + tail) == HandOffs(before) + HandOffs(pauses) + HandOffs(notice) + HandOffs(tail)
  {
    HandOffsAppend(before + pauses + notice, tail);
    HandOffsAppend(before + pauses, notice);
    HandOffsAppend(before, pauses);
  }

  /** A cycle hands off exactly when it ends the program. */
  lemma AdvanceHandOffs(cfg: Config, s: RunState, line: string, confirmed: bool)
    requires s.phase.Polling?
    ensures HandOffs(Advance(cfg, s, line, confirmed).effects) ==
      HandOffs(s.effects) + (if Advance(cfg, s, line, confirmed).phase.Ended? then 1 else 0)
  {
    var x := React(cfg, s.plan, s.checkCount + 1, line, confirmed);
    AdvanceParts(cfg, s, line, confirmed);
    HandOffsOfCycle(s.effects, x.pauses, Notified(cfg, x.notice), x.tail);
    ReactHandOffs(cfg, s.plan, s.checkCount + 1, line, confirmed);
  }

  /** How a cycle's effects and phase are made of the reaction. */
  lemma AdvanceParts(cfg: Config, s: RunState, line: string, confirmed: bool)
    requires s.phase.Polling?
    ensures var x := React(cfg, s.plan, s.checkCount + 1, line, confirmed);
      var r := Advance(cfg, s, line, confirmed);
      r.effects == s.effects + x.pauses + Notified(cfg, x.notice) + x.tail && (r.phase.Ended? <==> x.exits)
  {
  }

  /** The whole state after a cycle, field by field, in terms of the reaction. */
  lemma AdvanceResult(cfg: Config, s: RunState, line: string, confirmed: bool)
    requires s.phase.Polling?
    ensures var x := React(cfg, s.plan, s.checkCount + 1, line, confirmed);
      Advance(cfg, s, line, confirmed) == RunState(
        if x.exits then Ended(0) else Polling, s.profileUrl, s.checkCount + 1,
        s.plan.(triggered := s.plan.triggered || x.fires), s.effects + x.pauses + Notified(cfg, x.notice) + x.tail)
  {
  }

  /** The same, over the fields of a polling state. */
  lemma AdvanceFields(cfg: Config, url: string, n: nat, plan: SimPlan, effects: seq<Effect>, line: string, confirmed: bool)
    ensures var x := React(cfg, plan, n + 1, line, confirmed);
      Advance(cfg, RunState(Polling, url, n, plan, effects), line, confirmed) ==
      RunState(if x.exits then Ended(0) else Polling, url, n + 1,
        SimPlan(plan.triggerCheck, plan.kind, plan.triggered || x.fires), effects + x.pauses + Notified(cfg, x.notice) + x.tail)
  {
    AdvanceResult(cfg, RunState(Polling, url, n, plan, effects), line, confirmed);
  }

  /** The hand-offs of one reaction: one when it exits, none otherwise. */
  lemma ReactHandOffs(cfg: Config, plan: SimPlan, n: nat, line: string, confirmed: bool)
    ensures var x := React(cfg, plan, n, line, confirmed);
      HandOffs(x.pauses) + HandOffs(Notified(cfg, x.notice)) + HandOffs(x.tail) == if x.exits then 1 else 0
  {
    var x := React(cfg, plan, n, line, confirmed);
    ReactionHandOffs(x, cfg.interval, cfg.parentDryRunFlag);
    NotifiedHasNoHandOff(cfg, x.notice);
    PausesHaveNoHandOff(x.pauses);
  }

  /** While polling nothing has been handed off; a run hands off once at most, and only when it ends. */
  lemma {:induction false} RunHandOffs(cfg: Config, s: RunState, inputs: seq<CycleInput>)
    requires s.phase.Polling? && HandOffs(s.effects) == 0
    ensures HandOffs(Run(cfg, s, inputs).effects) == (if Run(cfg, s, inputs).phase.Ended? then 1 else 0)
    decreases |inputs|
  {
    if |inputs| > 0 {
      var next := Step(cfg, s, inputs[0]);
      AdvanceHandOffs(cfg, s, CheckBan(inputs[0].fetch), Confirmed(inputs[0].confirm, ConfirmChecks, ConfirmQuorum));
      if next.phase.Polling? {
        RunHandOffs(cfg, next, inputs[1..]);
      }
    }
  }

  /** From start-up on, SendTrade.js is started at most once, and never while the loop goes on. */
  lemma HandOffAtMostOnce(cfg: Config, draw: int, kind: BanKind, inputs: seq<CycleInput>)
    requires 3 <= draw <= 10
    ensures var r := Run(cfg, Startup(cfg, Initial, draw, kind), inputs);
      HandOffs(r.effects) <= 1 && (r.phase.Polling? ==> HandOffs(r.effects) == 0)
  {
    var s := Startup(cfg, Initial, draw, kind);
    assert s.effects == [ResetChannel];
    assert HandOffs(s.effects) == 0 by {
      assert s.effects[..0] == [];
    }
    if s.phase.Polling? {
      RunHandOffs(cfg, s, inputs);
    } else {
      RunCountsCycles(cfg, s, inputs);
    }
  }

  /** An empty ProfileToWatch: the channel is reset, then exit 1 before any check. */
  lemma StartupWithoutProfile(cfg: Config, draw: int, kind: BanKind, inputs: seq<CycleInput>)
    requires cfg.profile == "" && 3 <= draw <= 10
    ensures var r := Run(cfg, Startup(cfg, Initial, draw, kind), inputs);
      r.phase == Ended(1) && r.checkCount == 0 && r.effects == [ResetChannel]
  {
    RunCountsCycles(cfg, Startup(cfg, Initial, draw, kind), inputs);
  }

  /** Once the trigger number is behind, the rehearsal can no longer fire. */
  lemma {:induction false} PassedTriggerNeverFires(cfg: Config, s: RunState, inputs: seq<CycleInput>)
    requires !s.plan.triggered && s.plan.triggerCheck.Some? && s.checkCount >= s.plan.triggerCheck.value
    ensures !Run(cfg, s, inputs).plan.triggered
    decreases |inputs|
  {
    if |inputs| > 0 && s.phase.Polling? {
      PassedTriggerNeverFires(cfg, Step(cfg, s, inputs[0]), inputs[1..]);
    }
  }

  /**
   * The trigger compares with `==`: an ERROR result on the trigger cycle
   * skips the rehearsal for the rest of the run.
   */
  lemma ErrorAtTriggerSkipsSimulation(cfg: Config, s: RunState, input: CycleInput, rest: seq<CycleInput>)
    requires s.phase.Polling? && !s.plan.triggered && s.plan.triggerCheck == Some(s.checkCount + 1)
    requires Classify(input.fetch).Error?
    ensures !Run(cfg, s, [input] + rest).plan.triggered
  {
    ErrorLineTags(Classify(input.fetch).detail);
    assert ([input] + rest)[0] == input && ([input] + rest)[1..] == rest;
    PassedTriggerNeverFires(cfg, Step(cfg, s, input), rest);
  }

  /** A fetch that yields an OK line with nothing in its text that looks like a tag. */
  predicate Quiet(input: CycleInput) {
    PlainPayload(input.fetch) && (Classify(input.fetch).Clean? || Classify(input.fetch).Stale?)
  }

  /** The rehearsal is not due within the next `k` cycles. */
  predicate NotDue(cfg: Config, s: RunState, k: nat) {
    !cfg.dryRun || s.plan.triggered || s.plan.triggerCheck.None? || s.plan.triggerCheck.value > s.checkCount + k
  }

  /** A line without either tag, before the rehearsal is due, is reported as "0" (when notifications are on) and the loop sleeps. */
  lemma QuietAdvance(cfg: Config, s: RunState, line: string, confirmed: bool)
    requires s.phase.Polling? && NotDue(cfg, s, 1) && !Contains(line, ErrorTag) && !Contains(line, AlertTag)
    ensures Advance(cfg, s, line, confirmed) ==
      s.(checkCount := s.checkCount + 1, effects := s.effects + Notified(cfg, "0") + [Sleep(cfg.interval)])
  {
  }

  /** A quiet cycle before the rehearsal is due reports "0" (when notifications are on) and sleeps. */
  lemma QuietStep(cfg: Config, s: RunState, input: CycleInput)
    requires s.phase.Polling? && NotDue(cfg, s, 1) && Quiet(input)
    ensures Step(cfg, s, input) == s.(checkCount := s.checkCount + 1, effects := s.effects + Notified(cfg, "0") + [Sleep(cfg.interval)])
  {
    CheckBanTags(input.fetch);
    QuietAdvance(cfg, s, CheckBan(input.fetch), Confirmed(input.confirm, ConfirmChecks, ConfirmQuorum));
  }

  /**
   * OK results keep the loop polling: each cycle reports "0" (when
   * notifications are on) and sleeps, and nothing else happens.
   */
  lemma {:induction false} QuietRunStaysPolling(cfg: Config, s: RunState, inputs: seq<CycleInput>)
    requires s.phase.Polling? && NotDue(cfg, s, |inputs|)
    requires forall i :: 0 <= i < |inputs| ==> Quiet(inputs[i])
    ensures var r := Run(cfg, s, inputs);
      r.phase.Polling? && r.checkCount == s.checkCount + |inputs| && r.plan == s.plan && r.profileUrl == s.profileUrl
    ensures var r := Run(cfg, s, inputs);
      |r.effects| >= |s.effects| && r.effects[..|s.effects|] == s.effects &&
      forall i :: |s.effects| <= i < |r.effects| ==> r.effects[i] == Notify("0") || r.effects[i] == Sleep(cfg.interval)
    decreases |inputs|
  {
    if |inputs| > 0 {
      QuietStep(cfg, s, inputs[0]);
      var next := Step(cfg, s, inputs[0]);
      var rest := inputs[1..];
      assert forall i :: 0 <= i < |rest| ==> Quiet(rest[i]) by {
        forall i | 0 <= i < |rest| ensures Quiet(rest[i]) {
          assert rest[i] == inputs[i + 1];
        }
      }
      QuietRunStaysPolling(cfg, next, rest);
      var r := Run(cfg, next, rest);
      assert Run(cfg, s, inputs) == r;
      QuietTraceExtends(cfg, s.effects, next.effects, r.effects);
    }
  }

  /** A quiet cycle's effects followed by a quiet trace form a quiet trace. */
  lemma QuietTraceExtends(cfg: Config, before: seq<Effect>, mid: seq<Effect>, after: seq<Effect>)
    requires mid == before + Notified(cfg, "0") + [Sleep(cfg.interval)]
    requires |after| >= |mid| && after[..|mid|] == mid
    requires forall i :: |mid| <= i < |after| ==> after[i] == Notify("0") || after[i] == Sleep(cfg.interval)
    ensures |after| >= |before| && after[..|before|] == before
    ensures forall i :: |before| <= i < |after| ==> after[i] == Notify("0") || after[i] == Sleep(cfg.interval)
  {
    assert after[..|before|] == mid[..|before|] == before;
    forall i | |before| <= i < |after|
      ensures after[i] == Notify("0") || after[i] == Sleep(cfg.interval)
    {
      if i < |mid| {
        assert after[i] == mid[i];
      }
    }
  }

  /** Quiet cycles never launch the watchdog. */
  lemma QuietRunHasNoWatchdog(cfg: Config, s: RunState, inputs: seq<CycleInput>)
    requires s.phase.Polling? && NotDue(cfg, s, |inputs|) && LaunchWatchdog !in s.effects
    requires forall i :: 0 <= i < |inputs| ==> Quiet(inputs[i])
    ensures LaunchWatchdog !in Run(cfg, s, inputs).effects
  {
    QuietRunStaysPolling(cfg, s, inputs);
    var r := Run(cfg, s, inputs);
    forall i | 0 <= i < |r.effects|
      ensures r.effects[i] != LaunchWatchdog
    {
      if i < |s.effects| {
        assert r.effects[i] == s.effects[i];
      }
    }
  }

  /** The cycle on which the rehearsal fires: it hands off with BANSHIELD_DRY_RUN=1 and ends the program. */
  lemma FiringStep(cfg: Config, s: RunState, line: string, confirmed: bool)
    requires s.phase.Polling? && !Contains(line, ErrorTag) && SimFires(cfg, s.plan, s.checkCount + 1)
    ensures Advance(cfg, s, line, confirmed) == RunState(
      Ended(0), s.profileUrl, s.checkCount + 1, s.plan.(triggered := true),
      s.effects + Notified(cfg, SimMessage(s.plan.kind, s.checkCount + 1)) + [HandOff(Some("1"))])
  {
  }

  /**
   * The rehearsal: with OK pages throughout, a dry run hands off to
   * SendTrade.js with BANSHIELD_DRY_RUN=1 on exactly the drawn cycle,
   * exits 0 and never launches the watchdog.
   */
  lemma SimulationFiresAtTrigger(cfg: Config, draw: int, kind: BanKind, inputs: seq<CycleInput>)
    requires cfg.dryRun && cfg.profile != "" && 3 <= draw <= 10
    requires |inputs| == draw && forall i :: 0 <= i < |inputs| ==> Quiet(inputs[i])
    ensures var r := Run(cfg, Startup(cfg, Initial, draw, kind), inputs);
      r.phase == Ended(0) && r.checkCount == draw && r.plan.triggered && |r.effects| > 0 &&
      r.effects[|r.effects| - 1] == HandOff(Some("1")) && LaunchWatchdog !in r.effects
  {
    var s := Startup(cfg, Initial, draw, kind);
    var before := inputs[..draw - 1];
    var last := inputs[draw - 1];
    assert inputs == before + [last];
    RehearsalPrefix(cfg, draw, kind, before);
    var m := Run(cfg, s, before);
    RunConcat(cfg, s, before, [last]);
    assert Run(cfg, m, [last]) == Step(cfg, m, last);
    RehearsalLastStep(cfg, m, last);
  }

  /** Before the drawn cycle, quiet pages leave the rehearsal armed and the watchdog unlaunched. */
  lemma RehearsalPrefix(cfg: Config, draw: int, kind: BanKind, before: seq<CycleInput>)
    requires cfg.dryRun && cfg.profile != "" && 3 <= draw <= 10
    requires |before| == draw - 1 && forall i :: 0 <= i < |before| ==> Quiet(before[i])
    ensures var m := Run(cfg, Startup(cfg, Initial, draw, kind), before);
      m.phase.Polling? && m.checkCount == draw - 1 && m.plan == SimPlan(Some(draw), Some(kind), false) &&
      LaunchWatchdog !in m.effects
  {
    var s := Startup(cfg, Initial, draw, kind);
    DryRunStartup(cfg, draw, kind);
    QuietRunStaysPolling(cfg, s, before);
    QuietRunHasNoWatchdog(cfg, s, before);
  }

  /** A dry run with a profile starts polling with the drawn plan armed and only the channel reset done. */
  lemma DryRunStartup(cfg: Config, draw: int, kind: BanKind)
    requires cfg.dryRun && cfg.profile != "" && 3 <= draw <= 10
    ensures var s := Startup(cfg, Initial, draw, kind);
      s.phase.Polling? && s.checkCount == 0 && s.effects == [ResetChannel] &&
      s.plan == SimPlan(Some(draw), Some(kind), false) && LaunchWatchdog !in s.effects
  {
  }

  /** The drawn cycle itself, on a quiet page. */
  lemma RehearsalLastStep(cfg: Config, m: RunState, last: CycleInput)
    requires cfg.dryRun && m.phase.Polling? && Quiet(last) && LaunchWatchdog !in m.effects
    requires m.plan.triggerCheck == Some(m.checkCount + 1) && !m.plan.triggered && m.checkCount + 1 >= 2
    ensures var r := Step(cfg, m, last);
      r.phase == Ended(0) && r.checkCount == m.checkCount + 1 && r.plan.triggered && |r.effects| > 0 &&
      r.effects[|r.effects| - 1] == HandOff(Some("1")) && LaunchWatchdog !in r.effects
  {
    var line := CheckBan(last.fetch);
    assert !Contains(line, ErrorTag) by {
      CheckBanTags(last.fetch);
    }
    StepAdvance(cfg, m, last);
    RehearsalLastAdvance(cfg, m, line, Confirmed(last.confirm, ConfirmChecks, ConfirmQuorum));
  }

  lemma StepAdvance(cfg: Config, s: RunState, input: CycleInput)
    requires s.phase.Polling?
    ensures Step(cfg, s, input) == Advance(cfg, s, CheckBan(input.fetch), Confirmed(input.confirm, ConfirmChecks, ConfirmQuorum))
  {
  }

  lemma RehearsalLastAdvance(cfg: Config, m: RunState, line: string, confirmed: bool)
    requires m.phase.Polling? && !Contains(line, ErrorTag) && LaunchWatchdog !in m.effects
    requires SimFires(cfg, m.plan, m.checkCount + 1)
    ensures var r := Advance(cfg, m, line, confirmed);
      r.phase == Ended(0) && r.checkCount == m.checkCount + 1 && r.plan.triggered && |r.effects| > 0 &&
      r.effects[|r.effects| - 1] == HandOff(Some("1")) && LaunchWatchdog !in r.effects
  {
    FiringStep(cfg, m, line, confirmed);
    var notice := Notified(cfg, SimMessage(m.plan.kind, m.checkCount + 1));
    assert LaunchWatchdog !in notice;
    assert LaunchWatchdog !in m.effects + notice + [HandOff(Some("1"))];
  }

  /**
   * In a dry run the live path stays active before the trigger: a
   * confirmed fresh ban hands off with the parent's BANSHIELD_DRY_RUN and
   * launches the watchdog. When the dry run came only from "--dry-run",
   * SendTrade.js then runs live.
   */
  lemma DryRunAlertBeforeTriggerIsLive(cfg: Config, s: RunState, input: CycleInput)
    requires s.phase.Polling? && cfg.dryRun && !SimFires(cfg, s.plan, s.checkCount + 1)
    requires PlainPayload(input.fetch) && Classify(input.fetch).Fresh?
    requires Confirmed(input.confirm, ConfirmChecks, ConfirmQuorum)
    ensures var r := Step(cfg, s, input);
      r.phase == Ended(0) && r.plan == s.plan &&
      r.effects[|r.effects| - 2..] == [HandOff(cfg.parentDryRunFlag), LaunchWatchdog]
    ensures cfg.parentDryRunFlag.None? ==> Step(cfg, s, input).effects[|Step(cfg, s, input).effects| - 2] == HandOff(None)
  {
    var line := CheckBan(input.fetch);
    assert Contains(line, AlertTag) && !Contains(line, ErrorTag) by {
      CheckBanTags(input.fetch);
    }
    StepAdvance(cfg, s, input);
    ConfirmedAlertAdvance(cfg, s, line, Confirmed(input.confirm, ConfirmChecks, ConfirmQuorum));
  }

  lemma ConfirmedAlertAdvance(cfg: Config, s: RunState, line: string, confirmed: bool)
    requires s.phase.Polling? && !SimFires(cfg, s.plan, s.checkCount + 1)
    requires Contains(line, AlertTag) && !Contains(line, ErrorTag) && confirmed
    ensures var r := Advance(cfg, s, line, confirmed);
      r.phase == Ended(0) && r.plan == s.plan && |r.effects| >= 2 &&
      r.effects[|r.effects| - 2..] == [HandOff(cfg.parentDryRunFlag), LaunchWatchdog]
  {
    var x := React(cfg, s.plan, s.checkCount + 1, line, confirmed);
    assert x.exits && !x.fires && x.tail == [HandOff(cfg.parentDryRunFlag), LaunchWatchdog];
    AdvanceResult(cfg, s, line, confirmed);
    var e := s.effects + x.pauses + Notified(cfg, x.notice) + x.tail;
    assert e[|e| - 2..] == x.tail;
  }

  /**
   * What SendTrade.js is told: the rehearsal hands off with a flag that
   * makes it a dry run; a confirmed ban hands off the checker's own
   * BANSHIELD_DRY_RUN, so SendTrade.js is a dry run exactly when that is "1".
   */
  lemma HandOffDryRun(cfg: Config, plan: SimPlan, n: nat, line: string, confirmed: bool)
    requires React(cfg, plan, n, line, confirmed).exits
    ensures var x := React(cfg, plan, n, line, confirmed);
      |x.tail| > 0 && x.tail[0].HandOff? &&
      (x.fires ==> SendTrade.IsDryRunFlag(x.tail[0].childDryRunFlag)) &&
      (!x.fires ==> (SendTrade.IsDryRunFlag(x.tail[0].childDryRunFlag) <==> cfg.parentDryRunFlag == Some("1")))
  {
  }

  /**
   * A cycle on an ALERT line that the rehearsal does not take runs the
   * confirmation pass first: its ten pauses come before the notice, the
   * hand-off and the watchdog, or before the safeguard notice and the sleep.
   */
  lemma AlertCycleWaitsForSampler(cfg: Config, s: RunState, line: string, confirmed: bool)
    requires s.phase.Polling? && !Contains(line, ErrorTag) && Contains(line, AlertTag)
    requires !SimFires(cfg, s.plan, s.checkCount + 1)
    ensures var r := Advance(cfg, s, line, confirmed);
      var k := |s.effects| + ConfirmChecks;
      k <= |r.effects| && r.effects[|s.effects|..k] == Pauses(ConfirmChecks) &&
      (confirmed ==> r.effects[k..] == Notified(cfg, "1") + [HandOff(cfg.parentDryRunFlag), LaunchWatchdog]) &&
      (!confirmed ==> r.effects[k..] == Notified(cfg, SafeguardText) + [Sleep(cfg.interval)])
  {
  }

  /** A fresh ban that the confirmation pass does not confirm keeps the loop polling, with the safeguard notice. */
  lemma UnconfirmedAlertKeepsPolling(cfg: Config, s: RunState, input: CycleInput)
    requires s.phase.Polling? && !SimFires(cfg, s.plan, s.checkCount + 1)
    requires PlainPayload(input.fetch) && Classify(input.fetch).Fresh?
    requires !Confirmed(input.confirm, ConfirmChecks, ConfirmQuorum)
    ensures Step(cfg, s, input).phase == Polling
    ensures Step(cfg, s, input).effects == s.effects + Pauses(ConfirmChecks) + Notified(cfg, SafeguardText) + [Sleep(cfg.interval)]
  {
    var line := CheckBan(input.fetch);
    assert Contains(line, AlertTag) && !Contains(line, ErrorTag) by {
      CheckBanTags(input.fetch);
    }
    StepAdvance(cfg, s, input);
    UnconfirmedAlertAdvance(cfg, s, line, Confirmed(input.confirm, ConfirmChecks, ConfirmQuorum));
  }

  lemma UnconfirmedAlertAdvance(cfg: Config, s: RunState, line: string, confirmed: bool)
    requires s.phase.Polling? && !SimFires(cfg, s.plan, s.checkCount + 1)
    requires Contains(line, AlertTag) && !Contains(line, ErrorTag) && !confirmed
    ensures Advance(cfg, s, line, confirmed).phase == Polling
    ensures Advance(cfg, s, line, confirmed).effects == s.effects + Pauses(ConfirmChecks) + Notified(cfg, SafeguardText) + [Sleep(cfg.interval)]
  {
    AdvanceResult(cfg, s, line, confirmed);
  }

  /** A failed fetch never ends the program; it is reported and the loop sleeps. */
  lemma ErrorKeepsPolling(cfg: Config, s: RunState, input: CycleInput)
    requires s.phase.Polling? && Classify(input.fetch).Error?
    ensures Step(cfg, s, input).phase == Polling && Step(cfg, s, input).plan == s.plan
    ensures Step(cfg, s, input).effects == s.effects + Notified(cfg, CheckBan(input.fetch)) + [Sleep(cfg.interval)]
  {
    var line := CheckBan(input.fetch);
    assert Contains(line, ErrorTag) by {
      ErrorLineTags(Classify(input.fetch).detail);
    }
    StepAdvance(cfg, s, input);
    ErrorAdvance(cfg, s, line, Confirmed(input.confirm, ConfirmChecks, ConfirmQuorum));
  }

  lemma ErrorAdvance(cfg: Config, s: RunState, line: string, confirmed: bool)
    requires s.phase.Polling? && Contains(line, ErrorTag)
    ensures Advance(cfg, s, line, confirmed).phase == Polling && Advance(cfg, s, line, confirmed).plan == s.plan
    ensures Advance(cfg, s, line, confirmed).effects == s.effects + Notified(cfg, line) + [Sleep(cfg.interval)]
  {
    AdvanceResult(cfg, s, line, confirmed);
  }

  /** The waits the loop may take: the clamped interval between cycles, or the sampler's pause. */
  predicate LoopWait(seconds: int)
  {
    MinInterval <= seconds <= MaxInterval || seconds == ConfirmWait
  }

  /** Every sleep of a run waits either for the clamped interval or for the sampler's 5-second pause. */
  lemma {:induction false} RunSleepDurations(cfg: Config, s: RunState, inputs: seq<CycleInput>)
    requires MinInterval <= cfg.interval <= MaxInterval
    requires forall i :: 0 <= i < |s.effects| && s.effects[i].Sleep? ==> LoopWait(s.effects[i].seconds)
    ensures var r := Run(cfg, s, inputs);
      forall i :: 0 <= i < |r.effects| && r.effects[i].Sleep? ==> LoopWait(r.effects[i].seconds)
    decreases |inputs|
  {
    if |inputs| > 0 && s.phase.Polling? {
      var next := Step(cfg, s, inputs[0]);
      forall i | 0 <= i < |next.effects| && next.effects[i].Sleep?
        ensures LoopWait(next.effects[i].seconds)
      {
        if i < |s.effects| {
          assert next.effects[i] == s.effects[i];
        }
      }
      RunSleepDurations(cfg, next, inputs[1..]);
      assert Run(cfg, s, inputs) == Run(cfg, next, inputs[1..]);
    }
  }

  // -------------------------------------------------------------- class

  /** The running BanChecker.py process: its globals and its loop. */
  class Monitor {
    const cfg: Config
    var phase: Phase
    var profileUrl: string
    var checkCount: nat
    var simTriggerCheck: Option<int>
    var simBanKind: Option<BanKind>
    var simTriggered: bool
    var effects: seq<Effect>

    function State(): RunState
      reads this
    {
      RunState(phase, profileUrl, checkCount, SimPlan(simTriggerCheck, simBanKind, simTriggered), effects)
    }

    constructor(cfg: Config)
      ensures this.cfg == cfg && State() == Initial
    {
      this.cfg := cfg;
      phase := Starting;
      profileUrl := "";
      checkCount := 0;
      simTriggerCheck := None;
      simBanKind := None;
      simTriggered := false;
      effects := [];
    }

    /** _init_sim_once, with the values random.randint(3, 10) and random.choice would give. */
    method InitSimOnce(draw: int, kind: BanKind)
      requires 3 <= draw <= 10
      modifies this
      ensures State() == old(State()).(plan := BanChecker.InitSimOnce(old(State()).plan, draw, kind))
    {
      if simTriggerCheck.None? {
        simTriggerCheck := Some(draw);
        simBanKind := Some(kind);
      }
    }

    /** The statements before `while True`. */
    method Start(draw: int, kind: BanKind)
      requires phase == Starting && 3 <= draw <= 10
      modifies this
      ensures State() == Startup(cfg, old(State()), draw, kind)
    {
      effects := effects + [ResetChannel];
      if cfg.profile == "" {
        phase := Ended(1);
        return;
      }
      profileUrl := PrepareProfileUrl(cfg.profile);
      checkCount := 0;
      if cfg.dryRun {
        InitSimOnce(draw, kind);
      }
      phase := Polling;
    }

    /**
     * The body of `while True` after check_ban: report an ERROR line, fire
     * the rehearsal, or confirm an ALERT line with the ten-sample pass.
     */
    method Decide(plan: SimPlan, n: nat, line: string, confirm: nat -> FetchOutcome) returns (x: Reaction)
      ensures x == React(cfg, plan, n, line, Confirmed(confirm, ConfirmChecks, ConfirmQuorum))
    {
      if Contains(line, ErrorTag) {
        return Reaction([], line, [Sleep(cfg.interval)], false, false);
      }
      if cfg.dryRun && !plan.triggered && n >= 2 && plan.triggerCheck == Some(n) {
        return Reaction([], SimMessage(plan.kind, n), [HandOff(ChildDryRunFlag(cfg.parentDryRunFlag, true))], true, true);
      }
      if Contains(line, AlertTag) {
        var confirmed, details, waits, alerts, errors := MultiCheckBan(confirm, ConfirmChecks, ConfirmWait, ConfirmQuorum);
        var pauses := seq(|waits|, k requires 0 <= k < |waits| => Sleep(waits[k]));
        assert pauses == Pauses(ConfirmChecks);
        if confirmed {
          return Reaction(pauses, "1", [HandOff(ChildDryRunFlag(cfg.parentDryRunFlag, false)), LaunchWatchdog], true, false);
        }
        return Reaction(pauses, SafeguardText, [Sleep(cfg.interval)], false, false);
      }
      return Reaction([], "0", [Sleep(cfg.interval)], false, false);
    }

    /** One cycle on the line check_ban returned: count it, send the notice when notifications are on, then act. */
    method Act(line: string, confirm: nat -> FetchOutcome)
      requires phase == Polling
      modifies this
      ensures State() == Advance(cfg, old(State()), line, Confirmed(confirm, ConfirmChecks, ConfirmQuorum))
    {
      var plan := SimPlan(simTriggerCheck, simBanKind, simTriggered);
      AdvanceFields(cfg, profileUrl, checkCount, plan, effects, line, Confirmed(confirm, ConfirmChecks, ConfirmQuorum));
      var x := Decide(plan, checkCount + 1, line, confirm);
      Apply(x);
    }

    /** Count the cycle, record its effects, and end the program when the reaction exits. */
    method Apply(x: Reaction)
      modifies this
      ensures State() == RunState(if x.exits then Ended(0) else old(phase), old(profileUrl), old(checkCount) + 1,
        SimPlan(old(simTriggerCheck), old(simBanKind), old(simTriggered) || x.fires),
        old(effects) + x.pauses + Notified(cfg, x.notice) + x.tail)
    {
      checkCount, simTriggered, effects := checkCount + 1, simTriggered || x.fires, effects + x.pauses + Notified(cfg, x.notice) + x.tail;
      if x.exits {
        phase := Ended(0);
      }
    }

    /** One iteration of `while True`. */
    method Cycle(input: CycleInput)
      requires phase == Polling
      modifies this
      ensures State() == Step(cfg, old(State()), input)
    {
      var result := CheckBan(input.fetch);
      Act(result, input.confirm);
    }

    /** The loop, fed one input per iteration, until the inputs run out or the program exits. */
    method RunCycles(inputs: seq<CycleInput>)
      modifies this
      ensures State() == Run(cfg, old(State()), inputs)
    {
      var i := 0;
      while i < |inputs| && phase == Polling
        invariant 0 <= i <= |inputs|
        invariant Run(cfg, old(State()), inputs) == Run(cfg, State(), inputs[i..])
      {
        assert inputs[i..][1..] == inputs[i + 1..];
        Cycle(inputs[i]);
        i := i + 1;
      }
    }
  }
}

=== FILE: send_trade.dfy ===
/**
 * SendTrade.js, run on the watched account once a ban is confirmed (or
 * rehearsed): it makes a URL-safe trade key, works out which inventories
 * to empty, collects their tradable items and either lists them (dry run)
 * or offers them all to the bank account, then waits for the offer to be
 * confirmed and settled.
 *
 * The Steam libraries are not modelled: inventory replies, the send
 * result, mobile confirmations and offer queries are inputs, each retry
 * one step. The random bytes of the key are an input too.
 */
module SendTrade {
  import opened Wrappers
  import opened Text
  import AutoAccept

  /** BANSHIELD_DRY_RUN is exactly "1". */
  predicate IsDryRunFlag(env: Option<string>) {
    env == Some("1")
  }

  /** AutoAccept: the variable, "false" when unset or empty, compared case-insensitively with "true". */
  predicate AutoAcceptEnabled(env: string) {
    Lower(if env == "" then "false" else env) == "true"
  }

  // ------------------------------------------------------------ base64

  type byte = x: int | 0 <= x < 256

  predicate IsBase64Char(c: char) {
    'A' <= c <= 'Z' || 'a' <= c <= 'z' || '0' <= c <= '9' || c == '+' || c == '/'
  }

  /** The character for a 6-bit value (RFC 4648, section 4, Table 1). */
  function Enc(v: int): (c: char)
    requires 0 <= v < 64
    ensures IsBase64Char(c) && c != '='
  {
    if v < 26 then ('A' as int + v) as char
    else if v < 52 then ('a' as int + v - 26) as char
    else if v < 62 then ('0' as int + v - 52) as char
    else if v == 62 then '+'
    else '/'
  }

  /** The 6-bit value of a base64 character. */
  function Dec(c: char): (v: int)
    requires IsBase64Char(c)
    ensures 0 <= v < 64
  {
    if 'A' <= c <= 'Z' then c as int - 'A' as int
    else if 'a' <= c <= 'z' then c as int - 'a' as int + 26
    else if '0' <= c <= '9' then c as int - '0' as int + 52
    else if c == '+' then 62
    else 63
  }

  lemma DecEnc(v: int)
    requires 0 <= v < 64
    ensures Dec(Enc(v)) == v
  {
  }

  /**
   * `Buffer.toString('base64')`: each group of three bytes becomes four
   * characters; a final group of one or two bytes is padded with '='.
   */
  function Base64(b: seq<byte>): (r: string)
    ensures |r| == 4 * ((|b| + 2) / 3) && |r| % 4 == 0
    ensures forall i :: 0 <= i < |r| ==> IsBase64Char(r[i]) || (r[i] == '=' && i >= |r| - 2 && |b| % 3 != 0)
    decreases |b|
  {
    if |b| == 0 then ""
    else if |b| == 1 then EncodeOne(b[0])
    else if |b| == 2 then EncodeTwo(b[0], b[1])
    else
      var group := EncodeGroup(b[0], b[1], b[2]);
      var rest := Base64(b[3..]);
      GroupArithmetic(|b|, |rest|);
      assert forall i :: 4 <= i < |group + rest| ==> (group + rest)[i] == rest[i - 4];
      group + rest
  }

  /** Removing one group of three bytes removes one group of four characters and keeps the remainder. */
  lemma GroupArithmetic(n: nat, m: nat)
    requires n >= 3 && m % 4 == 0
    ensures 4 * ((n - 3 + 2) / 3) + 4 == 4 * ((n + 2) / 3)
    ensures (n - 3) % 3 == n % 3 && (m + 4) % 4 == 0
  {
  }

  /** A final single byte: two characters and two '='. */
  function EncodeOne(x: byte): (r: string)
    ensures |r| == 4 && IsBase64Char(r[0]) && IsBase64Char(r[1]) && r[2] == '=' && r[3] == '='
  {
    [Enc(x / 4), Enc(x % 4 * 16), '=', '=']
  }

  /** A final pair of bytes: three characters and one '='. */
  function EncodeTwo(x: byte, y: byte): (r: string)
    ensures |r| == 4 && IsBase64Char(r[0]) && IsBase64Char(r[1]) && IsBase64Char(r[2]) && r[3] == '='
  {
    [Enc(x / 4), Enc(x % 4 * 16 + y / 16), Enc(y % 16 * 4), '=']
  }

  /** Three bytes as four characters. */
  function EncodeGroup(x: byte, y: byte, z: byte): (r: string)
    ensures |r| == 4 && forall i :: 0 <= i < 4 ==> IsBase64Char(r[i])
  {
    [Enc(x / 4), Enc(x % 4 * 16 + y / 16), Enc(y % 16 * 4 + z / 64), Enc(z % 64)]
  }

  /** The four characters of a group decode back to its three bytes. */
  lemma EncodeGroupDecodes(x: byte, y: byte, z: byte)
    ensures var r := EncodeGroup(x, y, z);
      DecodeGroup(Dec(r[0]), Dec(r[1]), Dec(r[2]), Dec(r[3])) == [x, y, z]
  {
    DecEnc(x / 4);
    DecEnc(x % 4 * 16 + y / 16);
    DecEnc(y % 16 * 4 + z / 64);
    DecEnc(z % 64);
    DecodeGroupOfEncoded(x, y, z);
  }

  /** The bytes of one group of four characters, without padding. */
  function DecodeGroup(s0: int, s1: int, s2: int, s3: int): seq<byte>
    requires 0 <= s0 < 64 && 0 <= s1 < 64 && 0 <= s2 < 64 && 0 <= s3 < 64
  {
    [s0 * 4 + s1 / 16, s1 % 16 * 16 + s2 / 4, s2 % 4 * 64 + s3]
  }

  lemma DecodeGroupOfEncoded(x: byte, y: byte, z: byte)
    ensures DecodeGroup(x / 4, x % 4 * 16 + y / 16, y % 16 * 4 + z / 64, z % 64) == [x, y, z]
  {
  }

  /** Decoding of unpadded base64 text whose length is a multiple of four. */
  function Unbase64(s: string): seq<byte>
    requires |s| % 4 == 0 && forall i :: 0 <= i < |s| ==> IsBase64Char(s[i])
    decreases |s|
  {
    if |s| == 0 then []
    else DecodeGroup(Dec(s[0]), Dec(s[1]), Dec(s[2]), Dec(s[3])) + Unbase64(s[4..])
  }

  /** For whole groups of three bytes, base64 has no padding and decodes back to the bytes. */
  lemma {:induction false} Base64RoundTrip(b: seq<byte>)
    requires |b| % 3 == 0
    ensures '=' !in Base64(b)
    ensures Unbase64(Base64(b)) == b
    decreases |b|
  {
    if |b| > 0 {
      GroupArithmetic(|b|, 0);
      Base64RoundTrip(b[3..]);
      Base64Cons(b);
      DecodeEncodedGroup(b[0], b[1], b[2], Base64(b[3..]), b[3..]);
      FirstThree(b);
    }
  }

  lemma FirstThree<T>(s: seq<T>)
    requires |s| >= 3
    ensures s == [s[0], s[1], s[2]] + s[3..]
  {
  }

  /** Three or more bytes: the first group, then the encoding of the rest. */
  lemma Base64Cons(b: seq<byte>)
    requires |b| >= 3
    ensures Base64(b) == EncodeGroup(b[0], b[1], b[2]) + Base64(b[3..])
  {
  }

  /** An encoded group in front of decodable text decodes to its three bytes in front of that text's bytes. */
  lemma DecodeEncodedGroup(x: byte, y: byte, z: byte, rest: string, bytes: seq<byte>)
    requires |rest| % 4 == 0 && forall i :: 0 <= i < |rest| ==> IsBase64Char(rest[i])
    requires '=' !in rest && Unbase64(rest) == bytes
    ensures '=' !in EncodeGroup(x, y, z) + rest
    ensures Base64Text(EncodeGroup(x, y, z) + rest) && Unbase64(EncodeGroup(x, y, z) + rest) == [x, y, z] + bytes
  {
    var group := EncodeGroup(x, y, z);
    Base64TextAppend(group, rest);
    UnbaseGroup(group, rest);
    EncodeGroupDecodes(x, y, z);
  }

  /** Whole groups of base64 characters, which Unbase64 reads. */
  predicate Base64Text(s: string) {
    |s| % 4 == 0 && forall i :: 0 <= i < |s| ==> IsBase64Char(s[i])
  }

  lemma Base64TextAppend(a: string, b: string)
    requires Base64Text(a) && Base64Text(b)
    ensures Base64Text(a + b)
  {
    assert |a + b| % 4 == 0 by {
      assert |a| == 4 * (|a| / 4) && |b| == 4 * (|b| / 4);
      assert |a + b| == 4 * (|a| / 4 + |b| / 4);
    }
    forall i | 0 <= i < |a + b|
      ensures IsBase64Char((a + b)[i])
    {
      if i < |a| {
        assert (a + b)[i] == a[i];
      } else {
        assert (a + b)[i] == b[i - |a|];
      }
    }
  }

  /** Decoding reads the first group of four characters, then the rest. */
  lemma UnbaseGroup(group: string, rest: string)
    requires |group| == 4 && forall i :: 0 <= i < 4 ==> IsBase64Char(group[i])
    requires |rest| % 4 == 0 && forall i :: 0 <= i < |rest| ==> IsBase64Char(rest[i])
    ensures '=' !in group + rest
    ensures Unbase64(group + rest) ==
      DecodeGroup(Dec(group[0]), Dec(group[1]), Dec(group[2]), Dec(group[3])) + Unbase64(rest)
  {
    var s := group + rest;
    assert s[4..] == rest;
    assert forall i :: 0 <= i < 4 ==> s[i] == group[i];
  }

  // --------------------------------------------------------- trade key

  /** `s.replace(/x/g, y)` for one character. */
  function ReplaceChar(s: string, x: char, y: char): (r: string)
    ensures |r| == |s| && forall i :: 0 <= i < |s| ==> r[i] == (if s[i] == x then y else s[i])
  {
    seq(|s|, i requires 0 <= i < |s| => if s[i] == x then y else s[i])
  }

  /** `s.replace(/c+$/g, "")`: drop the run of `c` at the end. */
  function TrimTrailing(s: string, c: char): (r: string)
    ensures |r| <= |s| && r == s[..|r|]
    ensures forall i :: |r| <= i < |s| ==> s[i] == c
    ensures |r| == 0 || r[|r| - 1] != c
    decreases |s|
  {
    if |s| > 0 && s[|s| - 1] == c then TrimTrailing(s[..|s| - 1], c) else s
  }

  /** The character the URL-safe rewrite puts in place of a base64 character. */
  function UrlSafeChar(c: char): char {
    if c == '+' then '-' else if c == '/' then '_' else c
  }

  /** generateTradeKey, given the random bytes. */
  function GenerateTradeKey(random: seq<byte>): string {
    TrimTrailing(ReplaceChar(ReplaceChar(Base64(random), '+', '-'), '/', '_'), '=')
  }

  /** The two replacements and the trim, read character by character. */
  lemma TradeKeyChars(random: seq<byte>)
    ensures var key := GenerateTradeKey(random); var b64 := Base64(random);
      |key| <= |b64| && (forall i :: 0 <= i < |key| ==> key[i] == UrlSafeChar(b64[i])) &&
      (forall i :: |key| <= i < |b64| ==> b64[i] == '=') && (|key| == 0 || key[|key| - 1] != '=')
  {
    var b64 := Base64(random);
    var swapped := ReplaceChar(ReplaceChar(b64, '+', '-'), '/', '_');
    assert forall i :: 0 <= i < |b64| ==> swapped[i] == UrlSafeChar(b64[i]);
  }

  /**
   * The trade key holds no '+' and no '/' and does not end with '=';
   * every other character of the base64 text stays in its place, and only
   * the padding (at most two characters) is dropped.
   */
  lemma TradeKeyIsUrlSafe(random: seq<byte>)
    ensures var key := GenerateTradeKey(random); var b64 := Base64(random);
      '+' !in key && '/' !in key && (|key| == 0 || key[|key| - 1] != '=') &&
      |key| <= |b64| && (forall i :: 0 <= i < |key| ==> key[i] == UrlSafeChar(b64[i])) &&
      (forall i :: |key| <= i < |b64| ==> b64[i] == '=') &&
      |key| >= |b64| - 2
  {
    var b64 := Base64(random);
    var key := GenerateTradeKey(random);
    TradeKeyChars(random);
    if |key| < |b64| {
      assert b64[|key|] == '=';
    }
    forall i | 0 <= i < |key|
      ensures key[i] != '+' && key[i] != '/'
    {
      assert key[i] == UrlSafeChar(b64[i]);
    }
  }

  /** With the default 24 random bytes the key has 32 characters, enough for AutoAccept.js's minimum of 16. */
  lemma DefaultKeyLength(random: seq<byte>)
    requires |random| == 24
    ensures |GenerateTradeKey(random)| == 32
    ensures |GenerateTradeKey(random)| >= 16
  {
    var b64 := Base64(random);
    assert |b64| == 32 && IsBase64Char(b64[31]);
    var swapped := ReplaceChar(ReplaceChar(b64, '+', '-'), '/', '_');
    assert swapped[31] != '=';
    assert TrimTrailing(swapped, '=') == swapped;
  }

  /**
   * The hand-off between the two scripts: AutoAccept.js, given a key made
   * from the default 24 random bytes and complete bank credentials, gets
   * past its checks and logs the key masked to nine characters.
   */
  lemma GeneratedKeyIsAccepted(random: seq<byte>, username: string, password: string, sharedSecret: string)
    requires |random| == 24 && username != "" && password != "" && sharedSecret != ""
    ensures var start := AutoAccept.StartUp(username, password, sharedSecret, Some(GenerateTradeKey(random)));
      start.Listening? && start.tradeKey == GenerateTradeKey(random) && |start.masked| == 9
  {
    DefaultKeyLength(random);
  }

  /** The key determines the random bytes: undoing the rewrite gives back base64 text that decodes to them. */
  lemma {:induction false} TradeKeyDecodes(random: seq<byte>)
    requires |random| % 3 == 0
    ensures var key := GenerateTradeKey(random);
      var restored := seq(|key|, i requires 0 <= i < |key| => if key[i] == '-' then '+' else if key[i] == '_' then '/' else key[i]);
      restored == Base64(random)
  {
    Base64RoundTrip(random);
    TradeKeyIsUrlSafe(random);
    var b64 := Base64(random);
    var key := GenerateTradeKey(random);
    forall i | 0 <= i < |key|
      ensures (if key[i] == '-' then '+' else if key[i] == '_' then '/' else key[i]) == b64[i]
    {
      assert IsBase64Char(b64[i]);
    }
  }

  // -------------------------------------------------------- inventories

  datatype Inventory = Inventory(appid: int, contextid: int)

  const Cs2 := Inventory(730, 2)
  const Tf2 := Inventory(440, 2)
  const Dota2 := Inventory(570, 2)
  const Steam := Inventory(753, 6)
  const AllInventories := [Cs2, Tf2, Dota2, Steam]

  /** The tokens of INVENTORY_TYPE ("all" when unset or empty): lowercased, without whitespace, split on ','. */
  function InventoryTokens(raw: string): seq<string> {
    Split(RemoveSpaces(Lower(if raw == "" then "all" else raw)), ',')
  }

  /** inventoryTypes: the tokens, collapsed to ["all"] when "all" is among them. */
  function InventoryTypes(raw: string): (r: seq<string>)
    ensures |r| >= 1
    ensures "all" in InventoryTokens(raw) ==> r == ["all"]
    ensures "all" !in InventoryTokens(raw) ==> r == InventoryTokens(raw)
    ensures "all" in r ==> r == ["all"]
    ensures forall i :: 0 <= i < |r| ==> ',' !in r[i]
  {
    var cleaned := RemoveSpaces(Lower(if raw == "" then "all" else raw));
    var types := Split(cleaned, ',');
    SplitPiecesHaveNoSep(cleaned, ',');
    if "all" in types then ["all"] else types
  }

  /** Every token is free of whitespace, capitals and commas, whatever INVENTORY_TYPE holds. */
  lemma InventoryTokensClean(raw: string)
    ensures forall i, j :: 0 <= i < |InventoryTokens(raw)| && 0 <= j < |InventoryTokens(raw)[i]| ==>
      !IsJsSpace(InventoryTokens(raw)[i][j]) && !('A' <= InventoryTokens(raw)[i][j] <= 'Z') &&
      InventoryTokens(raw)[i][j] != ','
  {
    var lowered := Lower(if raw == "" then "all" else raw);
    var cleaned := RemoveSpaces(lowered);
    SplitPiecesFrom(cleaned, ',');
    SplitPiecesHaveNoSep(cleaned, ',');
    forall c | c in cleaned
      ensures !IsJsSpace(c) && !('A' <= c <= 'Z')
    {
      var k :| 0 <= k < |lowered| && lowered[k] == c;
    }
  }

  /**
   * Spaces and capitals in INVENTORY_TYPE do not matter: a value reads as
   * its lowercased, whitespace-free form does (as long as that form is not
   * empty, where the `|| "all"` default would step in).
   */
  lemma InventoryTypesNormalised(raw: string)
    requires RemoveSpaces(Lower(raw)) != ""
    ensures InventoryTypes(raw) == InventoryTypes(RemoveSpaces(Lower(raw)))
  {
    var cleaned := RemoveSpaces(Lower(raw));
    assert raw != "";
    LowerOfLower(cleaned);
    RemoveSpacesKeepsText(cleaned);
  }

  /**
   * An INVENTORY_TYPE of whitespace only is set, so the default does not
   * apply: it yields the single empty token and selects no inventory.
   */
  lemma BlankTypeSelectsNothing(raw: string)
    requires raw != "" && forall i :: 0 <= i < |raw| ==> IsJsSpace(raw[i])
    ensures InventoryTypes(raw) == [""] && InventoriesFor(InventoryTypes(raw)) == []
  {
    RemoveSpacesDropsBlanks(Lower(raw));
  }

  lemma {:induction false} SplitPiecesHaveNoSep(s: string, sep: char)
    ensures forall i :: 0 <= i < |Split(s, sep)| ==> sep !in Split(s, sep)[i]
    decreases |s|
  {
    if |s| > 0 {
      SplitPiecesHaveNoSep(s[1..], sep);
      if s[0] != sep {
        var rest := Split(s[1..], sep);
        assert sep !in [s[0]] + rest[0];
      }
    }
  }

  /** Which inventories a list of types selects: the fixed "all" list, or cs2, tf2, dota2 in that order. */
  function InventoriesFor(types: seq<string>): seq<Inventory> {
    if "all" in types then AllInventories
    else (if "cs2" in types then [Cs2] else []) + (if "tf2" in types then [Tf2] else []) + (if "dota2" in types then [Dota2] else [])
  }

  /** Building INVENTORIES with `push`. */
  method BuildInventories(types: seq<string>) returns (inventories: seq<Inventory>)
    ensures inventories == InventoriesFor(types)
  {
    inventories := [];
    if "all" in types {
      inventories := AllInventories;
    } else {
      if "cs2" in types {
        inventories := inventories + [Cs2];
      }
      if "tf2" in types {
        inventories := inventories + [Tf2];
      }
      if "dota2" in types {
        inventories := inventories + [Dota2];
      }
    }
  }

  /**
   * The selection: "all" gives the four inventories; otherwise each game
   * is listed exactly when its name was given, once, in the order cs2,
   * tf2, dota2, and the Steam inventory only with "all".
   */
  lemma InventoriesSelection(types: seq<string>)
    ensures "all" in types ==> InventoriesFor(types) == [Inventory(730, 2), Inventory(440, 2), Inventory(570, 2), Inventory(753, 6)]
    ensures "all" !in types ==>
      (Cs2 in InventoriesFor(types) <==> "cs2" in types) &&
      (Tf2 in InventoriesFor(types) <==> "tf2" in types) &&
      (Dota2 in InventoriesFor(types) <==> "dota2" in types) &&
      Steam !in InventoriesFor(types)
    ensures forall i, j :: 0 <= i < j < |InventoriesFor(types)| ==> InventoriesFor(types)[i] != InventoriesFor(types)[j]
  {
  }

  /** Tokens other than all, cs2, tf2 and dota2 are ignored. */
  lemma UnknownTokenIgnored(types: seq<string>, token: string)
    requires token !in ["all", "cs2", "tf2", "dota2"]
    ensures InventoriesFor(types + [token]) == InventoriesFor(types)
  {
    assert forall t :: t in types + [token] <==> t in types || t == token;
  }

  /** An unset INVENTORY_TYPE selects all four inventories. */
  lemma DefaultSelectsAll()
    ensures InventoriesFor(InventoryTypes("")) == AllInventories
  {
    assert Lower("all") == "all";
    assert RemoveSpaces("all") == "all";
    SplitNoSep("all", ',');
  }

  // -------------------------------------------------------------- items

  /** An inventory item; a missing name field is "". */
  datatype Item = Item(name: string, marketHashName: string, classid: string)

  /** The name listed for an item in a dry run. */
  function ItemName(x: Item): (r: string)
    ensures r != "" && r in [x.name, x.marketHashName, x.classid, "Unknown Item"]
    ensures x.name != "" ==> r == x.name
    ensures x.name == "" && x.marketHashName != "" ==> r == x.marketHashName
    ensures x.name == "" && x.marketHashName == "" && x.classid != "" ==> r == x.classid
    ensures x.name == "" && x.marketHashName == "" && x.classid == "" ==> r == "Unknown Item"
  {
    if x.name != "" then x.name
    else if x.marketHashName != "" then x.marketHashName
    else if x.classid != "" then x.classid
    else "Unknown Item"
  }

  /** The callback of one getInventoryContents request: an error, or the items. */
  datatype InventoryReply = InventoryFailed | Contents(items: seq<Item>)

  /** allItems after the given replies, in the order they arrived. */
  function Collected(replies: seq<InventoryReply>): seq<Item>
    decreases |replies|
  {
    if |replies| == 0 then []
    else
      var last := replies[|replies| - 1];
      Collected(replies[..|replies| - 1]) + (if last.Contents? && |last.items| > 0 then last.items else [])
  }

  /** Every collected item comes from a successful reply, and every item of a successful reply is collected. */
  lemma {:induction false} CollectedItems(replies: seq<InventoryReply>, x: Item)
    ensures x in Collected(replies) <==> exists i :: 0 <= i < |replies| && replies[i].Contents? && x in replies[i].items
    decreases |replies|
  {
    if |replies| > 0 {
      var init := replies[..|replies| - 1];
      CollectedItems(init, x);
      var last := replies[|replies| - 1];
      if x in Collected(replies) && x !in Collected(init) {
        assert last.Contents? && x in last.items;
      }
      if exists i :: 0 <= i < |replies| && replies[i].Contents? && x in replies[i].items {
        var i :| 0 <= i < |replies| && replies[i].Contents? && x in replies[i].items;
        if i < |replies| - 1 {
          assert init[i] == replies[i];
        }
      }
    }
  }

  /** Failed requests add nothing: the item count is the sum over the successful replies. */
  function ItemCount(replies: seq<InventoryReply>): nat
    decreases |replies|
  {
    if |replies| == 0 then 0
    else
      var last := replies[|replies| - 1];
      ItemCount(replies[..|replies| - 1]) + (if last.Contents? then |last.items| else 0)
  }

  lemma {:induction false} CollectedCount(replies: seq<InventoryReply>)
    ensures |Collected(replies)| == ItemCount(replies)
    decreases |replies|
  {
    if |replies| > 0 {
      CollectedCount(replies[..|replies| - 1]);
    }
  }

  /** How sendAllTradableItems ends before any offer is sent, or the offer it creates. */
  datatype Outcome =
    | NoInventories
    | NoItems
    | Listed(names: seq<string>)
    | OfferCreated(message: string, items: seq<Item>)

  /** What the process exits with when it stops in sendAllTradableItems. */
  function ExitCodeOf(o: Outcome): Option<int> {
    if o.OfferCreated? then None else Some(0)
  }

  /** The decision once every inventory has answered. */
  function Decide(isDryRun: bool, inventories: seq<Inventory>, allItems: seq<Item>, tradeKey: string): (o: Outcome)
    ensures o.OfferCreated? <==> !isDryRun && |inventories| > 0 && |allItems| > 0
    ensures o.OfferCreated? ==> o.items == allItems && o.message == tradeKey
    ensures o.Listed? ==> |o.names| == |allItems| && forall i :: 0 <= i < |allItems| ==> o.names[i] == ItemName(allItems[i])
    ensures |inventories| == 0 <==> o.NoInventories?
    ensures o.NoItems? <==> |inventories| > 0 && |allItems| == 0
    ensures o.Listed? <==> isDryRun && |inventories| > 0 && |allItems| > 0
  {
    if |inventories| == 0 then NoInventories
    else if |allItems| == 0 then NoItems
    else if isDryRun then Listed(seq(|allItems|, i requires 0 <= i < |allItems| => ItemName(allItems[i])))
    else OfferCreated(tradeKey, allItems)
  }

  /**
   * sendAllTradableItems: the `processed` counter and `allItems` follow
   * the callbacks in the order they arrive; the last one decides.
   */
  method SendAllTradableItems(isDryRun: bool, inventories: seq<Inventory>, replies: seq<InventoryReply>, tradeKey: string)
    returns (outcome: Outcome)
    requires |replies| == |inventories|
    ensures outcome == Decide(isDryRun, inventories, Collected(replies), tradeKey)
  {
    var allItems: seq<Item> := [];
    var processed := 0;
    if |inventories| == 0 {
      return NoInventories;
    }
    while processed < |replies|
      invariant 0 <= processed <= |replies|
      invariant allItems == Collected(replies[..processed])
    {
      var reply := replies[processed];
      assert replies[..processed + 1][..processed] == replies[..processed];
      processed := processed + 1;
      if reply.Contents? && |reply.items| > 0 {
        allItems := allItems + reply.items;
      }
    }
    assert replies[..processed] == replies;
    if |allItems| == 0 {
      return NoItems;
    }
    if isDryRun {
      var names := seq(|allItems|, i requires 0 <= i < |allItems| => ItemName(allItems[i]));
      return Listed(names);
    }
    outcome := OfferCreated(tradeKey, allItems);
  }

  /** In a dry run no offer is ever created, whatever the inventories hold; the run exits 0. */
  lemma DryRunNeverOffers(inventories: seq<Inventory>, replies: seq<InventoryReply>, tradeKey: string)
    ensures !Decide(true, inventories, Collected(replies), tradeKey).OfferCreated?
    ensures ExitCodeOf(Decide(true, inventories, Collected(replies), tradeKey)) == Some(0)
  {
  }

  /** When every inventory request fails, the run exits 0 with "no tradable items". */
  lemma AllFailedMeansNoItems(isDryRun: bool, inventories: seq<Inventory>, replies: seq<InventoryReply>, tradeKey: string)
    requires |inventories| > 0 && forall i :: 0 <= i < |replies| ==> replies[i].InventoryFailed?
    ensures Decide(isDryRun, inventories, Collected(replies), tradeKey) == NoItems
  {
    CollectedCount(replies);
    AllFailedCountsNothing(replies);
  }

  lemma {:induction false} AllFailedCountsNothing(replies: seq<InventoryReply>)
    requires forall i :: 0 <= i < |replies| ==> replies[i].InventoryFailed?
    ensures ItemCount(replies) == 0
    decreases |replies|
  {
    if |replies| > 0 {
      AllFailedCountsNothing(replies[..|replies| - 1]);
    }
  }

  // ------------------------------------------------------- credentials

  /** The basic validation: any missing sender credential or trade URL exits 1 before login. */
  function Preflight(username: string, password: string, sharedSecret: string, identitySecret: string, tradeUrl: string): (exitCode: Option<int>)
    ensures exitCode.None? <==> username != "" && password != "" && sharedSecret != "" && identitySecret != "" && tradeUrl != ""
    ensures exitCode.Some? ==> exitCode.value == 1
  {
    if username == "" || password == "" || sharedSecret == "" || identitySecret == "" || tradeUrl == "" then Some(1) else None
  }

  // ------------------------------------------------------ offer states

  const AcceptedState := 3
  const CanceledState := 6
  const DeclinedState := 7

  /** OFFER_STATE_NAMES[state] || "Unknown". */
  function StateName(state: int): (r: string)
    ensures r == "Unknown" <==> !(1 <= state <= 11)
    ensures state == AcceptedState ==> r == "Accepted"
  {
    match state
    case 1 => "Invalid"
    case 2 => "Active"
    case 3 => "Accepted"
    case 4 => "Countered"
    case 5 => "Expired"
    case 6 => "Canceled"
    case 7 => "Declined"
    case 8 => "InvalidItems"
    case 9 => "NeedsConfirmation"
    case 10 => "CanceledBySecondFactor"
    case 11 => "InEscrow"
    case _ => "Unknown"
  }

  /** The reply to one getOffer query. */
  datatype OfferQuery = QueryFailed | OfferState(state: int)

  /** Whether waitForTradeAccepted stops (exit 0) on this reply; otherwise it asks again in 15 seconds. */
  predicate SettlesWait(q: OfferQuery) {
    q.OfferState? && (q.state == AcceptedState || q.state == DeclinedState || q.state == CanceledState)
  }

  /** The index of the first reply that ends the wait. */
  function FirstSettled(queries: seq<OfferQuery>, i: nat): (r: Option<nat>)
    requires i <= |queries|
    ensures r.Some? ==> i <= r.value < |queries| && SettlesWait(queries[r.value])
    ensures r.Some? ==> forall j :: i <= j < r.value ==> !SettlesWait(queries[j])
    ensures r.None? ==> forall j :: i <= j < |queries| ==> !SettlesWait(queries[j])
    decreases |queries| - i
  {
    if i == |queries| then None
    else if SettlesWait(queries[i]) then Some(i)
    else FirstSettled(queries, i + 1)
  }

  /**
   * waitForTradeAccepted: Accepted, Declined and Canceled end the process
   * with exit 0; a query error or any other state asks again.
   */
  method WaitForTradeAccepted(queries: seq<OfferQuery>) returns (exitCode: Option<int>, asked: nat)
    ensures exitCode.Some? <==> FirstSettled(queries, 0).Some?
    ensures exitCode.Some? ==> exitCode == Some(0) && asked == FirstSettled(queries, 0).value + 1
    ensures exitCode.None? ==> asked == |queries|
  {
    exitCode, asked := None, 0;
    while asked < |queries| && exitCode.None?
      invariant asked <= |queries|
      invariant exitCode.None? ==> FirstSettled(queries, 0) == FirstSettled(queries, asked)
      invariant exitCode.Some? ==> exitCode == Some(0) && asked > 0 && FirstSettled(queries, 0) == Some(asked - 1)
    {
      if SettlesWait(queries[asked]) {
        exitCode := Some(0);
      }
      asked := asked + 1;
    }
  }

  /** confirmOfferWithRetry: retries the mobile confirmation until one succeeds; `failures` counts the attempts that failed. */
  method ConfirmOfferWithRetry(results: seq<bool>) returns (confirmed: bool, failures: nat)
    ensures confirmed <==> true in results
    ensures confirmed ==> failures < |results| && results[failures] && forall j :: 0 <= j < failures ==> !results[j]
    ensures !confirmed ==> failures == |results|
  {
    confirmed, failures := false, 0;
    while failures < |results| && !results[failures]
      invariant failures <= |results|
      invariant forall j :: 0 <= j < failures ==> !results[j]
    {
      failures := failures + 1;
    }
    confirmed := failures < |results|;
  }

  /**
   * The live path after the offer is created: a send error exits 1; once
   * confirmed, the process exits 0, or, with AutoAccept on, starts
   * AutoAccept.js with the trade key and waits for the offer to settle.
   */
  method AfterOfferCreated(tradeKey: string, sendOk: bool, confirmations: seq<bool>, autoAccept: bool, queries: seq<OfferQuery>)
    returns (exitCode: Option<int>, spawnedWithKey: Option<string>)
    ensures !sendOk ==> exitCode == Some(1) && spawnedWithKey.None?
    ensures spawnedWithKey.Some? ==> spawnedWithKey.value == tradeKey && sendOk && autoAccept && true in confirmations
    ensures sendOk && true in confirmations && !autoAccept ==> exitCode == Some(0)
    ensures sendOk && true !in confirmations ==> exitCode.None? && spawnedWithKey.None?
    ensures sendOk && true in confirmations && autoAccept ==>
      spawnedWithKey == Some(tradeKey) && (exitCode.Some? <==> FirstSettled(queries, 0).Some?)
    ensures exitCode.Some? ==> exitCode.value == 0 || exitCode.value == 1
  {
    spawnedWithKey := None;
    if !sendOk {
      return Some(1), None;
    }
    var confirmed, failures := ConfirmOfferWithRetry(confirmations);
    if !confirmed {
      return None, None;
    }
    if autoAccept {
      spawnedWithKey := Some(tradeKey);
      var asked;
      exitCode, asked := WaitForTradeAccepted(queries);
    } else {
      exitCode := Some(0);
    }
  }
}

=== FILE: telegram.dfy ===
/**
 * TelegramInformer.py: a single-slot notifier. The channel remembers the
 * id of the last message it sent (the `.telegram_last_message_id` file);
 * `send_log` replaces that message by a new one and `reset_channel`
 * clears the last fifteen ids of the chat.
 *
 * The Bot API is not called: each request is recorded in the `calls`
 * trace and the reply it got is an input. A reply that is not ok, that
 * raised, or whose JSON lacks the message id is `SendFailed`.
 */
module Telegram {
  import opened Wrappers

  /** The Bot API requests the notifier makes. */
  datatype ApiCall = SendMessage(text: string) | DeleteMessage(messageId: int)

  /** The reply to a sendMessage request. */
  datatype SendReply = Delivered(messageId: int) | SendFailed

  /** The persisted record and the requests made so far. */
  datatype Slot = Slot(record: Option<int>, calls: seq<ApiCall>)

  const ProbeText := "reset_dummy"
  const WindowSize := 15

  /** send_log is only active when both the bot token and the chat id are non-empty. */
  predicate Configured(token: string, chatId: string) {
    token != "" && chatId != ""
  }

  /** The best-effort delete of the recorded message, when there is one. */
  function DeletePrevious(record: Option<int>): (r: seq<ApiCall>)
    ensures record.None? <==> r == []
    ensures record.Some? ==> r == [DeleteMessage(record.value)]
  {
    if record.Some? then [DeleteMessage(record.value)] else []
  }

  /**
   * send_log: delete the recorded message (whatever that delete answers),
   * send the new text, and record the new id only when the send succeeded.
   */
  function SendLogSpec(configured: bool, s: Slot, text: string, reply: SendReply): (r: Slot)
    ensures !configured ==> r == s
    ensures configured ==> |r.calls| == |s.calls| + (if s.record.Some? then 2 else 1)
    ensures configured ==> r.calls[..|s.calls|] == s.calls && r.calls[|r.calls| - 1] == SendMessage(text)
    ensures configured && s.record.Some? ==> r.calls[|s.calls|] == DeleteMessage(s.record.value)
    ensures configured && reply.Delivered? ==> r.record == Some(reply.messageId)
    ensures reply.SendFailed? ==> r.record == s.record
  {
    if !configured then s
    else
      var calls := s.calls + DeletePrevious(s.record) + [SendMessage(text)];
      assert calls[..|s.calls|] == s.calls;
      Slot(if reply.Delivered? then Some(reply.messageId) else s.record, calls)
  }

  /** The delete requests for the ids lo, lo+1, ..., hi-1. */
  function DeleteWindow(lo: int, hi: int): (r: seq<ApiCall>)
    requires lo <= hi
    ensures |r| == hi - lo
    ensures forall k :: 0 <= k < |r| ==> r[k] == DeleteMessage(lo + k)
    decreases hi - lo
  {
    if lo == hi then [] else DeleteWindow(lo, hi - 1) + [DeleteMessage(hi - 1)]
  }

  /** How many of the ids lo, ..., hi-1 the API reported as deleted. */
  function CountDeleted(deleteOk: int -> bool, lo: int, hi: int): (n: nat)
    requires lo <= hi
    ensures n <= hi - lo
    ensures (forall id :: lo <= id < hi ==> deleteOk(id)) ==> n == hi - lo
    ensures (forall id :: lo <= id < hi ==> !deleteOk(id)) ==> n == 0
    decreases hi - lo
  {
    if lo == hi then 0 else CountDeleted(deleteOk, lo, hi - 1) + (if deleteOk(hi - 1) then 1 else 0)
  }

  /** What reset_channel leaves behind, with the number of messages it deleted. */
  datatype ResetResult = ResetResult(slot: Slot, deleted: nat)

  /**
   * reset_channel: send a probe; if it fails, stop. Otherwise try to
   * delete every id from probe-14 to the probe itself, count the deletes
   * the API confirmed, and drop the record.
   */
  function ResetSpec(configured: bool, s: Slot, probe: SendReply, deleteOk: int -> bool): (r: ResetResult)
    ensures !configured ==> r == ResetResult(s, 0)
    ensures configured && probe.SendFailed? ==> r == ResetResult(Slot(s.record, s.calls + [SendMessage(ProbeText)]), 0)
    ensures configured && probe.Delivered? ==> r.slot.record.None? && r.deleted <= WindowSize
    ensures configured && probe.Delivered? ==>
      |r.slot.calls| == |s.calls| + 1 + WindowSize && r.slot.calls[..|s.calls| + 1] == s.calls + [SendMessage(ProbeText)]
  {
    if !configured then ResetResult(s, 0)
    else
      var probed := s.calls + [SendMessage(ProbeText)];
      match probe
      case SendFailed => ResetResult(Slot(s.record, probed), 0)
      case Delivered(base) =>
        var calls := probed + DeleteWindow(base - (WindowSize - 1), base + 1);
        assert calls[..|s.calls| + 1] == probed;
        ResetResult(Slot(None, calls), CountDeleted(deleteOk, base - (WindowSize - 1), base + 1))
  }

  /** The deletes of a reset after a delivered probe cover exactly the ids base-14 .. base, the probe included. */
  lemma ResetDeletesWindow(configured: bool, s: Slot, base: int, deleteOk: int -> bool, id: int)
    requires configured
    ensures var calls := ResetSpec(configured, s, Delivered(base), deleteOk).slot.calls;
      DeleteMessage(id) in calls[|s.calls| + 1..] <==> base - 14 <= id <= base
    ensures DeleteMessage(base) in ResetSpec(configured, s, Delivered(base), deleteOk).slot.calls
  {
    var calls := ResetSpec(configured, s, Delivered(base), deleteOk).slot.calls;
    var window := DeleteWindow(base - 14, base + 1);
    assert calls == s.calls + [SendMessage(ProbeText)] + window;
    assert calls[|s.calls| + 1..] == window;
    if base - 14 <= id <= base {
      assert window[id - (base - 14)] == DeleteMessage(id);
    }
    assert window[14] == DeleteMessage(base);
    assert calls[|s.calls| + 1 + 14] == DeleteMessage(base);
  }

  /** After a failed send, the next send deletes the same old message again. */
  lemma FailedSendKeepsOldTarget(s: Slot, t1: string, t2: string, reply2: SendReply)
    requires s.record.Some?
    ensures var s1 := SendLogSpec(true, s, t1, SendFailed);
      var s2 := SendLogSpec(true, s1, t2, reply2);
      s2.calls == s.calls + [DeleteMessage(s.record.value), SendMessage(t1), DeleteMessage(s.record.value), SendMessage(t2)]
  {
  }

  /**
   * Single slot: after a delivered message, the next send first deletes
   * exactly that message, so at most one of the notifier's messages stays visible.
   */
  lemma NextSendDeletesDelivered(s: Slot, t1: string, id: int, t2: string, reply2: SendReply)
    ensures var s1 := SendLogSpec(true, s, t1, Delivered(id));
      var s2 := SendLogSpec(true, s1, t2, reply2);
      s2.calls[|s1.calls|..] == [DeleteMessage(id), SendMessage(t2)]
  {
    var s1 := SendLogSpec(true, s, t1, Delivered(id));
    var s2 := SendLogSpec(true, s1, t2, reply2);
    assert s2.calls == s1.calls + [DeleteMessage(id), SendMessage(t2)];
  }

  /**
   * The notifier's channel: its credentials, the persisted record of the
   * last message id, and the requests it has made.
   */
  class Channel {
    const token: string
    const chatId: string
    var lastMessageId: Option<int>
    var calls: seq<ApiCall>

    function State(): Slot
      reads this
    {
      Slot(lastMessageId, calls)
    }

    /** A channel over the record found on disk (None when the file is absent). */
    constructor(token: string, chatId: string, record: Option<int>)
      ensures this.token == token && this.chatId == chatId
      ensures State() == Slot(record, [])
    {
      this.token := token;
      this.chatId := chatId;
      lastMessageId := record;
      calls := [];
    }

    /** send_log(text), given the reply of the sendMessage request. */
    method SendLog(text: string, reply: SendReply)
      modifies this
      ensures State() == SendLogSpec(Configured(token, chatId), old(State()), text, reply)
    {
      if token == "" || chatId == "" {
        return;
      }
      if lastMessageId.Some? {
        calls := calls + [DeleteMessage(lastMessageId.value)];
      }
      calls := calls + [SendMessage(text)];
      if reply.Delivered? {
        lastMessageId := Some(reply.messageId);
      }
    }

    /** reset_channel(), given the probe's reply and which deletes the API confirms. */
    method ResetChannel(probe: SendReply, deleteOk: int -> bool) returns (deleted: nat)
      modifies this
      ensures ResetResult(State(), deleted) == ResetSpec(Configured(token, chatId), old(State()), probe, deleteOk)
    {
      deleted := 0;
      if token == "" || chatId == "" {
        return;
      }
      calls := calls + [SendMessage(ProbeText)];
      if probe.SendFailed? {
        return;
      }
      var base := probe.messageId;
      ghost var probed := calls;
      for mid := base - 14 to base + 1
        invariant calls == probed + DeleteWindow(base - 14, mid)
        invariant deleted == CountDeleted(deleteOk, base - 14, mid)
        invariant lastMessageId == old(lastMessageId)
      {
        calls := calls + [DeleteMessage(mid)];
        if deleteOk(mid) {
          deleted := deleted + 1;
        }
      }
      lastMessageId := None;
    }
  }
}

=== FILE: text.dfy ===
/**
 * The string operations the Python and JavaScript programs rely on:
 * substring search (`p in s`, `s.includes(p)`), ASCII case folding,
 * whitespace stripping and removal, splitting and joining on one
 * character, and the decimal rendering of a natural number.
 */
module Text {

  predicate IsPrefix(p: string, s: string) {
    |p| <= |s| && s[..|p|] == p
  }

  /** `p in s` in Python, `s.includes(p)` in JavaScript. */
  predicate Contains(s: string, p: string)
    decreases |s|
  {
    IsPrefix(p, s) || (|s| > 0 && Contains(s[1..], p))
  }

  lemma {:induction false} ContainsAt(s: string, p: string, i: nat)
    requires i <= |s| && IsPrefix(p, s[i..])
    ensures Contains(s, p)
  {
    if i > 0 {
      assert s[1..][i - 1..] == s[i..];
      ContainsAt(s[1..], p, i - 1);
    }
  }

  lemma {:induction false} ContainsWitness(s: string, p: string) returns (i: nat)
    requires Contains(s, p)
    ensures i <= |s| && IsPrefix(p, s[i..])
  {
    if IsPrefix(p, s) {
      i := 0;
    } else {
      var j := ContainsWitness(s[1..], p);
      assert s[1..][j..] == s[j + 1..];
      i := j + 1;
    }
  }

  lemma ContainsPrefix(p: string, t: string)
    ensures Contains(p + t, p)
  {
    assert (p + t)[..|p|] == p;
  }

  lemma ContainsSuffix(a: string, p: string)
    ensures Contains(a + p, p)
  {
    assert (a + p)[|a|..] == p;
    ContainsAt(a + p, p, |a|);
  }

  lemma ContainsInTail(a: string, b: string, p: string)
    requires Contains(b, p)
    ensures Contains(a + b, p)
  {
    var i := ContainsWitness(b, p);
    assert (a + b)[|a| + i..] == b[i..];
    ContainsAt(a + b, p, |a| + i);
  }

  lemma ContainsInHead(a: string, b: string, p: string)
    requires Contains(a, p)
    ensures Contains(a + b, p)
  {
    var i := ContainsWitness(a, p);
    assert (a + b)[i..][..|p|] == a[i..][..|p|];
    ContainsAt(a + b, p, i);
  }

  /** A string holding `p` holds every prefix of `p`. */
  lemma ContainsShorter(s: string, p: string, k: nat)
    requires Contains(s, p) && k <= |p|
    ensures Contains(s, p[..k])
  {
    var i := ContainsWitness(s, p);
    assert s[i..][..k] == p[..k];
    ContainsAt(s, p[..k], i);
  }

  /** `p` occurs nowhere, position by position. */
  lemma {:induction false} NotContainsAnywhere(s: string, p: string)
    requires forall i :: 0 <= i <= |s| ==> !IsPrefix(p, s[i..])
    ensures !Contains(s, p)
    decreases |s|
  {
    assert s[0..] == s;
    if |s| > 0 {
      forall i | 0 <= i <= |s| - 1
        ensures !IsPrefix(p, s[1..][i..])
      {
        assert s[1..][i..] == s[i + 1..];
      }
      NotContainsAnywhere(s[1..], p);
    }
  }

  /** Characters without the lead of `p` in front of `b` do not help `a + b` hold `p`. */
  lemma {:induction false} SkipLeadFree(a: string, b: string, p: string)
    requires |p| > 0 && p[0] !in a && Contains(a + b, p)
    ensures Contains(b, p)
    decreases |a|
  {
    if |a| > 0 {
      assert (a + b)[0] == a[0];
      assert (a + b)[1..] == a[1..] + b;
      SkipLeadFree(a[1..], b, p);
    } else {
      assert a + b == b;
    }
  }

  lemma WindowMismatch(s: string, p: string, i: nat, k: nat)
    requires i <= |s| && k < |p| && (i + k < |s| ==> s[i + k] != p[k])
    ensures !IsPrefix(p, s[i..])
  {
    if |p| <= |s| - i {
      assert s[i..][..|p|][k] == s[i + k];
    }
  }

  lemma TooShortToContain(s: string, p: string)
    requires |p| > |s|
    ensures !Contains(s, p)
  {
    if |s| > 0 {
      TooShortToContain(s[1..], p);
    }
  }

  /** A string that does not hold the first character of `p` cannot hold `p`. */
  lemma {:induction false} NotContainsWithoutLead(s: string, p: string)
    requires |p| > 0 && p[0] !in s
    ensures !Contains(s, p)
  {
    if |s| > 0 {
      assert s[0] != p[0];
      NotContainsWithoutLead(s[1..], p);
    }
  }

  /** If the first character of `p` occurs in `s` only at position 0, `p` occurs at most there. */
  lemma LeadOnlyAtStart(s: string, p: string)
    requires |p| > 0 && |s| > 0 && !IsPrefix(p, s) && p[0] !in s[1..]
    ensures !Contains(s, p)
  {
    NotContainsWithoutLead(s[1..], p);
  }

  /**
   * A line whose second character differs from the tag's, and which holds
   * the tag's first character nowhere after position 0, does not hold the tag.
   */
  lemma NotTagged(line: string, tag: string)
    requires |tag| >= 2 && |line| >= 2
    requires line[1] != tag[1] && tag[0] !in line[1..]
    ensures !Contains(line, tag)
  {
    if |tag| <= |line| {
      assert line[..|tag|][1] != tag[1];
    }
    LeadOnlyAtStart(line, tag);
  }

  // ---------------------------------------------------------------- case

  function LowerChar(c: char): char {
    if 'A' <= c <= 'Z' then (c as int + 32) as char else c
  }

  /** `str.lower()` / `String.prototype.toLowerCase()` on the ASCII letters. */
  function Lower(s: string): string {
    seq(|s|, i requires 0 <= i < |s| => LowerChar(s[i]))
  }

  predicate NoUpper(s: string) {
    forall i :: 0 <= i < |s| ==> !('A' <= s[i] <= 'Z')
  }

  lemma LowerOfLower(s: string)
    requires NoUpper(s)
    ensures Lower(s) == s
  {
  }

  lemma LowerAppend(a: string, b: string)
    ensures Lower(a + b) == Lower(a) + Lower(b)
  {
  }

  // ---------------------------------------------------------- whitespace

  /** The ASCII characters Python's `str.isspace` accepts. */
  predicate IsSpace(c: char) {
    c == ' ' || ('\t' <= c <= '\r') || ('\U{1C}' <= c <= '\U{1F}')
  }

  /** The ASCII characters JavaScript's `\s` matches. */
  predicate IsJsSpace(c: char) {
    c == ' ' || ('\t' <= c <= '\r')
  }

  function StripLeft(s: string): string
    decreases |s|
  {
    if |s| > 0 && IsSpace(s[0]) then StripLeft(s[1..]) else s
  }

  function StripRight(s: string): string
    decreases |s|
  {
    if |s| > 0 && IsSpace(s[|s| - 1]) then StripRight(s[..|s| - 1]) else s
  }

  /** `str.strip()`. */
  function Strip(s: string): string {
    StripRight(StripLeft(s))
  }

  lemma StripUnpadded(s: string)
    requires |s| > 0 && !IsSpace(s[0]) && !IsSpace(s[|s| - 1])
    ensures Strip(s) == s
  {
  }

  /** `s.replace(/\s+/g, "")`. */
  function RemoveSpaces(s: string): (r: string)
    ensures forall i :: 0 <= i < |r| ==> !IsJsSpace(r[i]) && r[i] in s
    decreases |s|
  {
    if |s| == 0 then ""
    else if IsJsSpace(s[0]) then RemoveSpaces(s[1..])
    else [s[0]] + RemoveSpaces(s[1..])
  }

  /** Removing whitespace works piece by piece. */
  lemma {:induction false} RemoveSpacesAppend(a: string, b: string)
    ensures RemoveSpaces(a + b) == RemoveSpaces(a) + RemoveSpaces(b)
    decreases |a|
  {
    if |a| == 0 {
      assert a + b == b;
    } else {
      assert (a + b)[0] == a[0] && (a + b)[1..] == a[1..] + b;
      RemoveSpacesAppend(a[1..], b);
    }
  }

  /** Text without whitespace is kept as it is. */
  lemma {:induction false} RemoveSpacesKeepsText(s: string)
    requires forall i :: 0 <= i < |s| ==> !IsJsSpace(s[i])
    ensures RemoveSpaces(s) == s
    decreases |s|
  {
    if |s| > 0 {
      RemoveSpacesKeepsText(s[1..]);
    }
  }

  /** Whitespace alone disappears. */
  lemma {:induction false} RemoveSpacesDropsBlanks(s: string)
    requires forall i :: 0 <= i < |s| ==> IsJsSpace(s[i])
    ensures RemoveSpaces(s) == ""
    decreases |s|
  {
    if |s| > 0 {
      RemoveSpacesDropsBlanks(s[1..]);
    }
  }

  // ------------------------------------------------------- split and join

  /** `s.split(sep)` for a one-character separator, in Python and JavaScript alike: never empty. */
  function Split(s: string, sep: char): (r: seq<string>)
    ensures |r| >= 1
    decreases |s|
  {
    if |s| == 0 then [""]
    else if s[0] == sep then [""] + Split(s[1..], sep)
    else
      var rest := Split(s[1..], sep);
      [[s[0]] + rest[0]] + rest[1..]
  }

  /** Every character of every piece comes from the split text. */
  lemma {:induction false} SplitPiecesFrom(s: string, sep: char)
    ensures forall i, j :: 0 <= i < |Split(s, sep)| && 0 <= j < |Split(s, sep)[i]| ==> Split(s, sep)[i][j] in s
    decreases |s|
  {
    if |s| > 0 {
      SplitPiecesFrom(s[1..], sep);
    }
  }

  /** `sep.join(xs)` / `xs.join(sep)`. */
  function Join(xs: seq<string>, sep: char): string
    decreases |xs|
  {
    if |xs| == 0 then ""
    else if |xs| == 1 then xs[0]
    else xs[0] + [sep] + Join(xs[1..], sep)
  }

  lemma {:induction false} SplitNoSep(a: string, sep: char)
    requires sep !in a
    ensures Split(a, sep) == [a]
  {
    if |a| > 0 {
      SplitNoSep(a[1..], sep);
      assert [a[0]] + a[1..] == a;
    }
  }

  lemma {:induction false} SplitAtSep(a: string, b: string, sep: char)
    requires sep !in a
    ensures Split(a + [sep] + b, sep) == [a] + Split(b, sep)
  {
    if |a| == 0 {
      assert a + [sep] + b == [sep] + b;
      assert ([sep] + b)[1..] == b;
    } else {
      assert (a + [sep] + b)[1..] == a[1..] + [sep] + b;
      SplitAtSep(a[1..], b, sep);
      assert [a[0]] + a[1..] == a;
    }
  }

  /** Splitting undoes joining when no piece holds the separator. */
  lemma {:induction false} SplitJoin(xs: seq<string>, sep: char)
    requires |xs| >= 1
    requires forall i :: 0 <= i < |xs| ==> sep !in xs[i]
    ensures Split(Join(xs, sep), sep) == xs
  {
    if |xs| == 1 {
      SplitNoSep(xs[0], sep);
    } else {
      SplitJoin(xs[1..], sep);
      SplitAtSep(xs[0], Join(xs[1..], sep), sep);
      assert [xs[0]] + xs[1..] == xs;
    }
  }

  // -------------------------------------------------------------- numbers

  predicate IsDigit(c: char) {
    '0' <= c <= '9'
  }

  /** `str(n)` for a natural number: its decimal digits, most significant first. */
  function Decimal(n: nat): (r: string)
    ensures |r| > 0 && forall i :: 0 <= i < |r| ==> IsDigit(r[i])
  {
    if n < 10 then [(48 + n) as char] else Decimal(n / 10) + [(48 + n % 10) as char]
  }
}

=== FILE: wrappers.dfy ===
/** Optional values, used wherever the programs test for a missing value. */
module Wrappers {

  datatype Option<+T> = None | Some(value: T)

}
